=== FILE: README.md ===
# react-use-setup reactive state, in Dafny

This project models the reactive-state core of react-use-setup:
- `reactive`, `ref`, `isReactive`, `getState`, `watch` and `remove` (src/reactive.ts);
- the per-node snapshot cache `createImmutable`, with its `mark` and `compute`;
- the proxy traps `set` and `deleteProperty`;
- `connect`, `disconnect`, `notify` and the promise-debounced `doResolve`;
- `merge` (src/util.ts), which `reactive` uses to fill a fresh node.

The model follows the TypeScript code branch by branch. It then proves what the code promises:
- snapshots are shared until something changes;
- a write marks the whole parent chain dirty;
- only one resolution fires per burst of notifications;
- writes wrap, connect and disconnect children;
- `remove` leaves its parent by `delete` or `splice`;
- `merge` assigns entries in order.

## How the program is represented

- **Arena.** Every reactive proxy is a `Node` in an arena `Store`, keyed by a `NodeId`. A node holds:
  - `raw`: its raw target. A mapping is an ordered list of `(name, Slot)`; a sequence is a list of `Slot`.
  - `syms`: its symbol-keyed properties.
  - `dirty` and `cache`: the `createImmutable` state.
  - `conn`: the `connection` record.
  - `deb`: the debouncer variables `uid`, `consuming` and the current deferred.
- **Slots.** A `Slot` is a primitive `Leaf` or a `Child` node. The type system therefore rules out a plain object stored un-wrapped, which is what the `set` trap guarantees.
- **Values.** Values handed to the API are `Atom` (a primitive), `Ref` (a reactive proxy) or `Plain` (a plain array or object).
- **Snapshots.** A snapshot is `Snap(sid, body)`. "The same object" in JavaScript is "the same `sid`" here. A rebuild takes a fresh `sid`, the way `compute` allocates a fresh `immutableTarget`. Every cached `sid` stays below the snapshot counter, which is part of the arena invariant `Closed`, so a fresh `sid` differs from every earlier one.
- **Microtasks.** The microtask queue is explicit: `Resolve(node, n)` stands for `Promise.resolve(++uid).then(doResolve)` and `Consume(h, snap)` for a watcher's `then(consume)`. `Api.Step` runs the oldest task. What each watcher received is recorded in `delivered`.
- **Registration order.** A resolved promise runs its `.then` reactions in the order they were registered. Each subscription therefore carries the stamp of its latest registration, taken from the store counter `nextReg`. `watch` stamps the new subscription, and every consumption re-registers its subscription with a new stamp (src/reactive.ts:240-249). A resolution queues its consumptions in stamp order.
- **Errors.** A `throw` of the code is an `Err` result:
  - `InvalidInput`: `reactive` of a primitive.
  - `NotReactive`: `getState`, `watch` or `remove` on a non-reactive value.
  - `InvalidArgument`: `watch` with a non-function.
  - `KindMismatch`: `merge` of an array into an object.
  - `InvalidLength`: the `RangeError` that `Reflect.set` throws for a `length` outside `[0, 2^32)`, and the model's rejection of any non-number `length` (see Write.SetLength under "## Left out").
  - `StackOverflow`: the unbounded recursion of a cyclic parent chain.
  - `UnsupportedKey`: a key the model does not give that kind of node.

Modules: `Values`, `Debounce`, `Arena`, `Propagation` (notify), `Snapshots` (createImmutable and getState), `Write` (the traps, reactive and merge as one mutually recursive write path), `WriteProperties`, `MergeProperties`, `Api` (the exports and the microtask step), `ApiProperties`, and `Delivery` (a burst of writes to a watched node and the single delivery that follows).

Where the code and its design notes part ways, the model follows the code:
- **Same-value writes.** The `set` trap skips any write whose value is identical to what is read (line 151). This includes `undefined` written past the end of an array, so such a write does not grow the array. `reactive([1, undefined])` therefore has length 1 in the model, as it does in the code.
- **Negative index in `remove`.** `remove` of a node that is no longer among its array parent's items calls `splice(-1, 1)` (line 108). That removes the last item. `Api.Splice` does the same.
- **No deep equality.** Identity of snapshots is all the code promises. Nothing here proves snapshots equal by content.

## Model

| member | source | states |
|---|---|---|
| Debounce.Schedule | src/reactive.ts:128-134 | while a watcher consumes, a notification bumps `uid` and schedules exactly one resolution tagged with the new `uid`; otherwise nothing is scheduled and the debouncer is unchanged |
| Debounce.Fire | src/reactive.ts:121-126 | a resolution fires iff its tag is the current `uid`; firing installs the next deferred and clears `consuming`, a stale tag changes nothing |
| Debounce.Subscribe | src/reactive.ts:215-218 | reading the promise raises `consuming` and keeps `uid` and the current deferred |
| Debounce.ScheduleManyTags | src/reactive.ts:128-134 | `m` notifications while consuming schedule the tags `uid+1 .. uid+m` in order |
| Debounce.ScheduleManyIdle | src/reactive.ts:131 | with no watcher consuming, any number of notifications schedule nothing |
| Debounce.FireAllStale | src/reactive.ts:122 | resolutions whose tags are all below the current `uid` do nothing |
| Debounce.Coalesce | src/reactive.ts:121-134 | `m >= 1` synchronous notifications while consuming resolve exactly once, on the last tag, then consuming is off and a new deferred is installed |
| Arena.Connect | src/reactive.ts:88-91 | `connect` sets the connection of that one node and leaves every other node and counter unchanged |
| Arena.Disconnect | src/reactive.ts:93-96 | `disconnect` clears the connection of that one node and nothing else |
| Arena.Read | src/reactive.ts:141-145 | the `get` trap reads the raw target; a key the node's kind does not have reads `undefined` |
| Arena.IsReactive | src/reactive.ts:5-7 | only a reference to a node of the arena is reactive; primitives and plain containers never are |
| Arena.IsConnected | src/reactive.ts:98-100 | a node is connected while it has a parent; `Arena.Connect` makes it connected and `Arena.Disconnect` unconnected |
| Arena.ReadResize | src/reactive.ts:157-165 | after `length` is set to `m`, indices below `m` read as before, later ones read `undefined`, and `length` reads `m` |
| Propagation.Path | src/reactive.ts:136-138 | the chain of a node is the node followed by its successive parents, without repeats, ending at a node with no parent; revisiting a node is a stack overflow |
| Propagation.PathOfChain | src/reactive.ts:136-138 | whenever a finite chain of distinct nodes leads from `id` through successive parents to a node without one, the walk succeeds and returns exactly that chain |
| Propagation.PathOkIff | src/reactive.ts:136-138 | the walk up the parents succeeds if and only if such a finite chain exists, so it fails only on a revisit or a parent missing from the arena |
| Propagation.MarkOne | src/reactive.ts:128-134 | `mark()` plus the debounce: the node becomes dirty and, iff consuming, a resolution with the new `uid` is queued; other nodes are untouched |
| Propagation.MarkAllDirty | src/reactive.ts:128-139 | marking a chain leaves every node of the chain dirty |
| Propagation.MarkAllQueue | src/reactive.ts:131-134 | marking a chain only appends resolutions, and only of chain nodes |
| Propagation.MarkAllScheduled | src/reactive.ts:128-139 | marking a chain of distinct nodes appends exactly one tagged resolution per consuming node, in chain order, and nothing else |
| Propagation.MarkAllDebs | src/reactive.ts:128-134 | marking a chain steps each chain node's debouncer exactly once |
| Propagation.Notify | src/reactive.ts:128-139 | `notify` succeeds iff the chain is finite; then the node and all its ancestors are dirty, nodes off the chain are unchanged, contents and connections are unchanged, and the queue grows by exactly one resolution, tagged with the bumped `uid`, per consuming chain node, in chain order; each chain node's debouncer is stepped once |
| Propagation.NotifyClosed | src/reactive.ts:128-139 | notifying keeps every child reference inside the arena |
| Snapshots.Compute | src/reactive.ts:53-65 | a clean node returns its cached snapshot and changes nothing; a dirty node gets a snapshot with a fresh id, of the same kind and keys, in which each leaf is copied and each child slot holds that child's current snapshot; afterwards the node is clean and caches it; only caches and dirty bits change, and clean nodes are untouched; the queue, subscriptions, registration stamps, stamp counter and delivered log are unchanged |
| Snapshots.ComputeSlots | src/reactive.ts:25-51 | the slots are rebuilt left to right: leaves as-is, each child replaced by its own (now clean) cached snapshot |
| Snapshots.GetState | src/reactive.ts:9-14 | `getState` fails with `NotReactive` exactly on non-reactive input; otherwise it returns the node's snapshot and leaves the node clean with that snapshot cached |
| Snapshots.OnlyCachesClosed | src/reactive.ts:53-65 | rebuilding caches keeps the arena closed, including every cached snapshot id below the counter |
| Snapshots.RebuildFresh | src/reactive.ts:53-65 | the snapshot rebuilt for a dirty node has an id different from every snapshot any node had cached, so it is never `===` to an earlier state |
| Snapshots.GetStateTwice | src/reactive.ts:53-54 | two `getState` calls with no write in between return the same snapshot, and the second changes nothing |
| Snapshots.CleanChildShared | src/reactive.ts:29-35 | rebuilding a dirty node puts into a clean child's slot the very snapshot that child had cached, so untouched siblings keep their identity |
| Write.DetachAt | src/reactive.ts:175-178 | the child held under the key, if any, loses its connection; no contents change and every other node is untouched |
| Write.Commit | src/reactive.ts:180-182 | storing new contents then notifying succeeds iff the chain is finite; then exactly the node's contents changed and its chain is dirty; no watcher runs, so subscriptions, registration stamps, the stamp counter and the delivered log are unchanged |
| Write.DisconnectFrom | src/reactive.ts:157-165 | shortening an array disconnects every child at or beyond the new length and changes nothing else |
| Write.WriteSlot | src/reactive.ts:175-182 | the previous child under the key is disconnected, the new slot is stored, and the node's chain is dirty |
| Write.SetLength | src/reactive.ts:157-165 | a `length` write needs a number in `[0, 2^32)`, and anything else fails with `InvalidLength`; otherwise the items become the resized list, the cut-off children are disconnected, and the chain is dirty |
| Write.Delete | src/reactive.ts:187-203 | a symbol delete only removes the symbol and marks nothing; deleting `length` or a key of the wrong kind fails; otherwise the child there is disconnected, the key is erased and the chain is dirty, succeeding iff the chain is finite |
| Write.Assign | src/reactive.ts:148-185 | the `set` trap only allocates fresh nodes, keeps every other node's contents, and disconnects nothing but the child it replaces (or the items a shorter length cuts off); a changing write under a name or an index stores the placed slot, connects a placed node under `(id, key)`, disconnects the previous child, and leaves the node and its whole chain dirty |
| Write.Place | src/reactive.ts:167-173 | the stored slot is the primitive itself, the unattached node itself, or a fresh copy, and a stored node is connected under `(parent, key)` |
| Write.Wrap | src/reactive.ts:73-81 | `reactive` of a container creates a fresh node of the same kind and leaves existing nodes' contents and connections alone |
| Write.Merge | src/util.ts:16-42 | a source of a different kind from the target fails with `KindMismatch`; otherwise only the target's contents change and only its own children may be disconnected; subscriptions, registration stamps, the stamp counter and the delivered log are unchanged |
| Write.MergeEntries | src/util.ts:18-20 | each entry is assigned in turn, with the same frame as `Merge` |
| WriteProperties.AssignLength | src/reactive.ts:157-165 | a changing `length` write is a number in `[0, 2^32)`, resizes the items, disconnects every cut-off child and leaves the chain dirty |
| WriteProperties.AssignSilent | src/reactive.ts:149-155 | writing the value already there, or under a symbol, always succeeds, marks nothing, queues nothing, and reads back the value |
| WriteProperties.AssignReads | src/reactive.ts:148-185 | after a write, the key reads as the primitive, the same value, or the node now standing for it; every other name or index reads as before |
| WriteProperties.AssignCopiesConnected | src/reactive.ts:167-173 | writing a node that already has a parent stores a fresh node connected under `(id, key)`, distinct from the node written, which keeps its own connection |
| WriteProperties.AssignConnectsUnattached | src/reactive.ts:167-169 | writing a node without a parent stores that very node and connects it under `(id, key)` |
| WriteProperties.AssignWrapsPlain | src/reactive.ts:170-173 | writing a plain container stores a fresh node connected under `(id, key)` |
| WriteProperties.DeleteErases | src/reactive.ts:187-203 | after a delete the key reads `undefined`, other keys read as before, the child there is disconnected and the chain is dirty |
| WriteProperties.RootNotifyLocal | src/reactive.ts:136-138 | a node with no parent is its own whole chain: notifying it succeeds and touches no other node |
| WriteProperties.AtomWriteKeepsOthers | src/reactive.ts:175-182 | a primitive write leaves every node off the chain, other than the replaced child, exactly as it was |
| MergeProperties.LastFor | src/util.ts:26-31 | the last entry under a key exists iff some entry has that key |
| MergeProperties.MergeEntriesReads | src/util.ts:18-31 | after merging, a key no entry has reads as before, and a key whose last entry is a primitive reads as that primitive |
| MergeProperties.MergeEntriesSplit | src/util.ts:18-20 | merging `es1 + es2` is merging `es1` and then `es2` into the result, and an error in `es1` stops the merge |
| MergeProperties.MergeItems | src/util.ts:17-22 | array merge: index `i < xs.length` holding a primitive reads `xs[i]`, and indices from `xs.length` on are untouched |
| MergeProperties.MergeFields | src/util.ts:25-38 | object merge: absent names are untouched, and a name whose last source field is a primitive reads as it |
| MergeProperties.WrapReads | src/reactive.ts:79-81 | the fresh node made from a plain container or a node reads, at every name or index, `undefined` where the source has no entry and the primitive where the source's last entry is one |
| MergeProperties.CopyReads | src/reactive.ts:167-173 | writing a node that already has a parent stores, under the key, a fresh node that reads the written node's primitive entries and `undefined` where the written node has none |
| Api.Reactive | src/reactive.ts:73-81 | a primitive is rejected; a container gets a fresh node of its own kind, and existing nodes keep their contents and connections |
| Api.MakeRef | src/reactive.ts:265 | `ref` makes a fresh mapping node |
| Api.Set | src/reactive.ts:148-185 | `state$[key] = v` runs the `set` trap with copying depth equal to the arena size; a successful write changes only the target's contents, keeps its kind, and disconnects only the child it replaces or the items a shorter length cuts off; it runs no watcher, so subscriptions, registration stamps, the stamp counter and the delivered log are unchanged and every stamp stays below the counter |
| Api.Get | src/reactive.ts:141-145 | `state$[key]` reads `undefined` for a key the node's kind does not have, and a container under a name or index comes back as a reactive node, never a plain value |
| Api.IndexOf | src/reactive.ts:108 | the first position holding the node, or -1 exactly when no position does |
| Api.SpliceStart | src/reactive.ts:109 | the start position `splice` uses: as given within bounds, counted from the end when negative |
| Api.Remove | src/reactive.ts:258-263 | non-reactive input fails with `NotReactive`; a node without a parent reports false and changes nothing; a successful removal reports true exactly when the node had a parent |
| Api.Watch | src/reactive.ts:229-251 | non-reactive target and non-function watcher fail as in the code; otherwise a new subscription on the current deferred is added and consuming is raised |
| Api.Unwatch | src/reactive.ts:253-255 | the unwatch function flags exactly its own subscription |
| Api.Waiting | src/reactive.ts:123 | exactly the subscriptions of that node waiting on that deferred, each once, in the order their `.then` reactions were registered (by stamp, then handle) |
| ApiProperties.WatchWaitsLast | src/reactive.ts:243-251 | `watch` puts the new subscription last in the waiting list of the node's current deferred and leaves every other waiting list as it was |
| ApiProperties.ConsumeWaitsLast | src/reactive.ts:240-247 | a live consumption re-registers its subscription after every watcher already waiting on the node's current deferred, so the next resolution reaches it last |
| ApiProperties.InOrderUnique | src/reactive.ts:123 | two lists holding the same subscriptions, each in registration order, are equal: the order of delivery is fixed by the registrations alone |
| Api.Step | src/reactive.ts:121-126 | running a microtask keeps the arena linked and drops only the head of the queue, possibly appending new tasks; a current resolution leaves the node clean with its computed snapshot cached, installs the next deferred with consuming off, and appends one consumption of that snapshot per waiting subscription, in registration order; either way the arena keeps its nodes, no node's contents, symbols or connection change, a closed arena stays closed, and every registration stamp stays below the counter |
| Api.Resolved | src/reactive.ts:123-125 | a current resolution computes the node's snapshot, installs the next deferred and clears the dirty bit; the node caches exactly that snapshot, every waiting subscription gets one consumption of it in registration order after the remaining queue, contents and connections of every node are kept, and subscriptions, stamps and the delivered log are unchanged |
| Api.Consumed | src/reactive.ts:242-248 | a live watcher's consumption appends `(h, snap)` to the delivered log, raises the node's `consuming` flag and re-registers only that watcher, on the node's current deferred, with the counter's stamp, which then advances; every other subscription, every node's contents and connection are kept, a closed arena stays closed and every stamp stays below the counter |
| ApiProperties.MakeRefHolds | src/reactive.ts:265 | `ref(p)` of a primitive reads `p` under `current` |
| ApiProperties.ReactiveReads | src/reactive.ts:73-81 | `reactive(v)` reads like `v`: `undefined` where `v` has no entry, the primitive where `v` holds one, for plain containers and reactive nodes alike |
| ApiProperties.WriteRefreshes | src/reactive.ts:175-182 | a `getState` after a write that changed an entry returns a snapshot whose id differs from the one returned before the write |
| ApiProperties.RemoveFromMapping | src/reactive.ts:110-114 | removing a node held by a mapping reports true, erases its key, disconnects it, marks the parent's chain, and leaves every other name of the parent reading as before |
| Api.ShiftDown | src/reactive.ts:109 | the shift of `splice`: indices before the start and from `len - 1` on are unchanged, each primitive later item moves down by one, the count stays |
| Api.Splice | src/reactive.ts:109 | `splice(i, 1)`: a start at the end changes nothing; otherwise indices before `i` unchanged, later primitives moved down one, length one less, and the parent's chain marked |
| ApiProperties.RemoveFromSequence | src/reactive.ts:107-110 | removing a node held by an array reports true, splices it out at its first position and marks the parent's chain; when that was its only position, no item holds it afterwards |
| ApiProperties.SplicedOut | src/reactive.ts:107-110 | after the splice of a node's only position, no item of the parent holds that node |
| ApiProperties.StepResolveStale | src/reactive.ts:121-122 | a superseded resolution does nothing but leave the queue |
| ApiProperties.StepResolveFires | src/reactive.ts:121-126 | the current resolution gives each subscription waiting on the current deferred exactly one consumption of the snapshot `getState` returns, and only those; it installs a fresh deferred and stops consuming |
| ApiProperties.StepConsumeCancelled | src/reactive.ts:240-241 | an unwatched subscription receives nothing |
| ApiProperties.StepConsumeDelivers | src/reactive.ts:240-249 | a live subscription receives the snapshot and waits again on the node's current deferred with a new registration stamp, raising consuming; other subscriptions are unchanged |
| ApiProperties.UnwatchSilences | src/reactive.ts:238-255 | after `watch` and then its unwatch function, the pending consumption delivers nothing |
| Delivery.CommitAll | src/reactive.ts:175-182 | a burst of writes to one node keeps the arena closed and allocates nothing |
| Delivery.CommitRoot | src/reactive.ts:128-139 | one write to a node without a parent succeeds, stores the contents, marks it dirty, steps its debouncer once and queues exactly the tagged resolution when a watcher is consuming |
| Delivery.CommitAllRoot | src/reactive.ts:128-134 | `m` writes to a watched node without a parent raise `uid` by `m` and queue the resolutions tagged `uid + 1` to `uid + m`, in order; the node holds the last contents written |
| Delivery.DrainStale | src/reactive.ts:121-122 | resolutions tagged behind the node's `uid` each run and leave only the rest of the queue |
| Delivery.DrainFire | src/reactive.ts:121-126 | a dirty node's `m` queued resolutions, run in turn, resolve its deferred once, with the rebuilt snapshot, and queue one consumption per waiting subscription |
| Delivery.FireLast | src/reactive.ts:121-126 | the current resolution of a dirty node resolves the deferred once, with a rebuilt snapshot carrying the node's leaves, queues one consumption per waiting subscription, and stops consuming |
| Delivery.RunKeeps | src/reactive.ts:240-249 | any number of microtasks, resolutions and watcher consumptions alike, keeps the nodes, their contents and connections, a closed arena closed, and every registration stamp below the counter |
| Delivery.DebouncedDelivery | test/reactive.test.ts:220-231 | a watched node written `m >= 1` times in one synchronous burst queues `m` resolutions; after they run, its deferred was resolved once, each waiting watcher gets exactly one consumption, and every one carries the same snapshot, whose leaves are those of the last write |

## Left out

- src/use-setup.ts (the React hook) is not part of this model. It is UI glue around `reactive` and `watch`.
- Promises and `createDeferred` (src/util.ts:44-60) are replaced by the explicit microtask queue. Each deferred is a generation number; rejection is never used by the code.
- Proxies and `Reflect` are not modelled. The `get` trap is `Api.Get`, which reads through `Arena.Read`. Its `INTERNAL` branch is the arena lookup itself.
- `isObject` (src/util.ts:5-14) walks the prototype chain. The model instead takes `Plain` values as plain objects and arrays, and everything else as a primitive.
- Accessor properties copied by `Object.defineProperty` (src/util.ts:33-34) are not modelled: every source field is a data field.
- Array holes are stored as `undefined` leaves. The code itself never tests for a hole. `Array.prototype.splice`, which `remove` calls (src/reactive.ts:109), does: it moves a hole by deleting the target index through the `deleteProperty` trap instead of assigning it through `set`.
- Keys are typed. An index on a mapping, a name on an array and `delete` of `length` give `UnsupportedKey` instead of the JavaScript behaviour of these unusual uses.
- `for ... in` order is the mapping's insertion order. Integer-like names are not moved first.
- A `length` write of a number outside `[0, 2^32)` fails with `InvalidLength`. The code first disconnects the items the comparison at line 157 selects, which for a negative number is every item, and only then `Reflect.set` throws. The model drops those disconnections along with the write.
- On a cyclic parent chain the code writes and then overflows the stack. The model returns `StackOverflow` and drops the partial state.
- Copies of connected nodes carry a fuel bound, the arena size at the top-level write. Running out gives `StackOverflow`. That this never happens on an acyclic arena is not proved.
- On a cyclic child graph, `compute` re-enters a node under rebuild. The model hands back that node's previous cached snapshot rather than the half-built one.
- Watcher callbacks are recorded in `delivered`. Any side effects they have on the state are not modelled.
- Number values are unbounded integers: no `NaN`, `-0` or fractions, so `===` is plain equality.
- Api.Remove: a connection whose parent is missing from the arena cannot arise from the code, and gives `NotReactive`.
- Write.SetLength: a numeric string such as `"2"` is a valid length in the code. Both the comparison at line 157 and `Reflect.set` convert it to a number. The model has no string-to-number conversion and rejects every non-number with `InvalidLength`. Index keys are likewise unbounded naturals, while JavaScript treats only integers below 2^32 - 1 as array indices.
- Write.Assign: when it succeeds is not characterised. What a `length` write stores is stated by WriteProperties.AssignLength, not by Assign's own contract.
- Write.Wrap: the copy's contents are stated by MergeProperties.WrapReads, for primitive entries only. That the fresh node starts unconnected is not stated.
- Api.Splice: only primitive items are followed through the shift. A moved node is re-wrapped by the `set` trap, because it is still connected, and the contract does not say which fresh node then holds it.
- Api.ShiftDown: states the same primitive-only movement as Api.Splice. It always moves an item through the `set` trap. Where the real splice meets a hole it deletes the target index instead, so for runs of holes the real code notifies and bumps `uid` differently.
- MergeProperties.MergeItems: states the outcome only for primitive items and the untouched indices. An item that is a container or a node is not characterised here; one write at a time, WriteProperties.AssignWrapsPlain and WriteProperties.AssignCopiesConnected describe it.
- MergeProperties.MergeFields: states the outcome only for primitive fields and absent names, for the same reason as MergeProperties.MergeItems.
- MergeProperties.CopyOf: a copy's container entries are not characterised, only its primitive entries and its absent keys. This weakens MergeProperties.WrapReads, MergeProperties.CopyReads and ApiProperties.ReactiveReads likewise.
- ApiProperties.ReactiveReads: does not state that the fresh node starts without a parent.
- ApiProperties.RemoveFromSequence: does not state that the removed node ends without a parent. The splice reassigns each later item, and whether the removed node is still connected afterwards depends on no other slot holding it, an invariant the model does not keep. That no item holds the removed node any more is stated when its first position was its only one.
- Delivery.DebouncedDelivery: covers a watched node without a parent, written by bursts of `Commit` (the common tail of both traps) into an empty microtask queue. A node with ancestors, the full `set` trap, and pending tasks of other nodes are not covered.
- MergeProperties.MergeEntriesReads: states the outcome only for primitive entries and untouched keys. A container entry is described by WriteProperties.AssignWrapsPlain and WriteProperties.AssignCopiesConnected, one write at a time.
- Arena.Read: its own contract states only that a key foreign to the node's kind reads `undefined`. What a key reads after each kind of write is stated by WriteProperties.AssignReads, WriteProperties.DeleteErases and Arena.ReadResize.
- ApiProperties.ConsumeWaitsLast: requires that the consumed subscription no longer waits on the node's current deferred. That holds for every consumption a resolution queues, because the resolution installs a new deferred, but the model keeps no invariant saying so.
- Api.MakeRef: states the kind only. The contents are stated by ApiProperties.MakeRefHolds for a primitive `current`.

=== FILE: api.dfy ===
/** The exported operations of src/reactive.ts: `reactive`, `ref`, the
    property traps as explicit `Set`/`Get`/`DeleteProperty`, `remove`,
    `watch` with its unwatch handle, and the microtask loop that delivers
    debounced snapshots to watchers. */
module Api {
  import opened Values
  import opened Debounce
  import opened Arena
  import opened Propagation
  import opened Snapshots
  import opened Write
  import opened WriteProperties

  // ---------------------------------------------------------------------
  // Creating nodes.

  /** `reactive(state)` (src/reactive.ts:73-81, 221): a primitive is
      rejected; any container, reactive or not, is copied into a fresh
      node. */
  function Reactive(st: Store, v: Value): (r: Result<(NodeId, Store)>)
    requires Closed(st) && RefsIn(st.nodes.Keys, v)
    ensures v.Atom? ==> r == Err(InvalidInput)
    ensures r.Ok? ==> r.value.0 == st.nextNode && st.nextNode !in st.nodes && r.value.0 in r.value.1.nodes
    ensures r.Ok? ==> Some(r.value.1.nodes[r.value.0].Kind()) == ValueKind(st, v)
    ensures r.Ok? ==> Extends(st, r.value.1) && KeepsContents(st, r.value.1, st.nextNode) && KeepsConns(st, r.value.1, {})
  {
    if v.Atom? then Err(InvalidInput)
    else Wrap(st, v, st.nextNode)
  }

  /** `ref(current)` (src/reactive.ts:265): a node `{ current }`. */
  function MakeRef(st: Store, current: Value): (r: Result<(NodeId, Store)>)
    requires Closed(st) && RefsIn(st.nodes.Keys, current)
    ensures r.Ok? ==> r.value.0 == st.nextNode && r.value.0 in r.value.1.nodes
    ensures r.Ok? ==> r.value.1.nodes[r.value.0].Kind() == Mapping
  {
    var fs := [("current", current)];
    assert FieldsRefsIn(st.nodes.Keys, fs) by {
      assert fs[1..] == [];
    }
    Reactive(st, Plain(Fields(fs)))
  }

  // ---------------------------------------------------------------------
  // The property traps.

  /** `state$[key] = v`: the set trap, with as much copying depth as the
      arena has nodes. */
  function Set(st: Store, id: NodeId, key: Key, v: Value): (r: Result<Store>)
    requires Closed(st) && id in st.nodes && RefsIn(st.nodes.Keys, v)
    ensures r.Ok? ==> WriteFrame(st, r.value, id, Detached(st.nodes[id], key, v))
    ensures r.Ok? ==> r.value.delivered == st.delivered && (RegsBelow(st) ==> RegsBelow(r.value))
  {
    Assign(st, id, key, v, st.nextNode)
  }

  /** `state$[key]`: the get trap reads the raw target
      (src/reactive.ts:141-145). A nested container comes back as the
      reactive node the set trap stored, never as a plain value. */
  function Get(st: Store, id: NodeId, key: Key): (r: Value)
    requires id in st.nodes
    ensures !Fits(st.nodes[id].Kind(), key) ==> r == Atom(Undef)
    ensures Linked(st) && !key.Sym? && !r.Atom? ==> IsReactive(st, r)
  {
    var v := Read(st.nodes[id], key);
    if !key.Sym? && v.Ref? then ReadChild(st.nodes[id], key); v else v
  }

  // ---------------------------------------------------------------------
  // remove (src/reactive.ts:102-115, 258-263).

  /** `Array.prototype.indexOf` on the items: the first position holding
      node `c`, or -1. */
  function IndexOf(xs: seq<Slot>, c: NodeId): (r: int)
    ensures -1 <= r < |xs|
    ensures r == -1 <==> forall j :: 0 <= j < |xs| ==> xs[j] != Child(c)
    ensures r >= 0 ==> xs[r] == Child(c) && forall j :: 0 <= j < r ==> xs[j] != Child(c)
    decreases |xs|
  {
    if xs == [] then -1
    else if xs[0] == Child(c) then 0
    else
      var i := IndexOf(xs[1..], c);
      if i == -1 then -1
      else
        assert forall j :: 1 <= j <= i ==> xs[j] == xs[1..][j - 1];
        i + 1
  }

  /** The position `splice(start, 1)` starts from in an array of `len`
      items: a negative start counts from the end. */
  function SpliceStart(start: int, len: nat): (r: nat)
    ensures r <= len
    ensures 0 <= start <= len ==> r == start
    ensures start < 0 && len + start >= 0 ==> r == len + start
  {
    if start < 0 then (if len + start < 0 then 0 else len + start)
    else if start > len then len else start
  }

  /** The shifting loop of `splice`: each item from `k + 1` up to `len - 1`
      is read and assigned, through the set trap, one position down. */
  function ShiftDown(st: Store, p: NodeId, k: nat, len: nat): (r: Result<Store>)
    requires Closed(st) && p in st.nodes
    ensures r.Ok? ==> WriteFrame(st, r.value, p, ChildIds(st.nodes[p]))
    ensures r.Ok? ==> ShiftedAll(st, p, k, len, r.value)
    decreases len - k
  {
    if k + 1 >= len then
      MergeNothing(st, p);
      Ok(st)
    else
      match ShiftOne(st, p, k)
      case Err(e) => Err(e)
      case Ok(st1) =>
        match ShiftDown(st1, p, k + 1, len)
        case Err(e) => Err(e)
        case Ok(st2) =>
          ShiftDownStep(st, p, k, k + 1, len, Detached(st.nodes[p], Index(k), Read(st.nodes[p], Index(k + 1))), st1, st2);
          Ok(st2)
  }

  /** One iteration of the loop: the item at `k + 1` is assigned to `k`. */
  function ShiftOne(st: Store, p: NodeId, k: nat): (r: Result<Store>)
    requires Closed(st) && p in st.nodes
    ensures r.Ok? ==> WriteFrame(st, r.value, p, Detached(st.nodes[p], Index(k), Read(st.nodes[p], Index(k + 1))))
    ensures r.Ok? && st.nodes[p].raw.Items? && k < |st.nodes[p].raw.items| ==>
              forall j: nat :: StepRead(st, p, k, j, r.value)
  {
    var v := Read(st.nodes[p], Index(k + 1));
    assert RefsIn(st.nodes.Keys, v) by {
      if v.Ref? {
        ReadChild(st.nodes[p], Index(k + 1));
      }
    }
    var st1 :- Assign(st, p, Index(k), v, st.nextNode);
    AssignStepReads(st, p, k, v, st.nextNode, st1);
    Ok(st1)
  }

  /** One assignment of the loop followed by the rest of it. */
  lemma ShiftDownStep(st: Store, p: NodeId, k: nat, k1: nat, len: nat, gone: set<NodeId>, st1: Store, st2: Store)
    requires p in st.nodes && k1 == k + 1 && k1 < len
    requires gone == Detached(st.nodes[p], Index(k), Read(st.nodes[p], Index(k1)))
    requires WriteFrame(st, st1, p, gone)
    requires st.nodes[p].raw.Items? && k < |st.nodes[p].raw.items| ==> forall j: nat :: StepRead(st, p, k, j, st1)
    requires WriteFrame(st1, st2, p, ChildIds(st1.nodes[p])) && ShiftedAll(st1, p, k1, len, st2)
    ensures WriteFrame(st, st2, p, ChildIds(st.nodes[p])) && ShiftedAll(st, p, k, len, st2)
  {
    DetachedChildren(st.nodes[p], Index(k), Read(st.nodes[p], Index(k1)));
    FrameTrans(st, st1, st2, p, gone);
    ShiftStepAll(st, p, k, k1, len, st1, st2);
  }

  /** The shifting loop, read back: indices below `k` and from `len - 1`
      on keep what they read; each index `j` from `k` to `len - 2` reads
      the primitive that was at `j + 1`; the item count stays. */
  predicate Shifted(st: Store, p: NodeId, k: nat, len: nat, j: nat, r: Store)
    requires p in st.nodes && st.nodes[p].raw.Items?
  {
    && p in r.nodes && r.nodes[p].raw.Items?
    && |r.nodes[p].raw.items| == |st.nodes[p].raw.items|
    && (j < k || j + 1 >= len ==> Read(r.nodes[p], Index(j)) == Read(st.nodes[p], Index(j)))
    && (k <= j && j + 1 < len && Read(st.nodes[p], Index(j + 1)).Atom? ==>
          Read(r.nodes[p], Index(j)) == Read(st.nodes[p], Index(j + 1)))
    && (k <= j && j + 1 < len ==> Moved(st.nodes[p], st.nextNode, j, Read(r.nodes[p], Index(j))))
  }

  /** What index `j` holds once the item at `j + 1` was assigned to it: that
      item, or a copy made then, which is a node allocated after `st`'s
      counter value `next`. */
  predicate Moved(n: Node, next: nat, j: nat, w: Value) {
    w == Read(n, Index(j + 1)) || (w.Ref? && w.id >= next)
  }

  /** The loop read back at every index, for an array of at least `len`
      items. */
  ghost predicate ShiftedAll(st: Store, p: NodeId, k: nat, len: nat, r: Store) {
    p in st.nodes && st.nodes[p].raw.Items? && len <= |st.nodes[p].raw.items| ==>
      forall j: nat :: Shifted(st, p, k, len, j, r)
  }

  /** One step of the loop composed with the rest of it. */
  lemma ShiftStepAll(st: Store, p: NodeId, k: nat, k1: nat, len: nat, st1: Store, st2: Store)
    requires p in st.nodes && k1 == k + 1 && k1 < len
    requires st.nodes[p].raw.Items? && k < |st.nodes[p].raw.items| ==> forall j: nat :: StepRead(st, p, k, j, st1)
    requires ShiftedAll(st1, p, k1, len, st2)
    ensures ShiftedAll(st, p, k, len, st2)
  {
    if st.nodes[p].raw.Items? && len <= |st.nodes[p].raw.items| {
      forall j: nat
        ensures Shifted(st, p, k, len, j, st2)
      {
        ShiftCombine(st, st1, st2, p, k, len, j);
      }
    }
  }

  /** One step of the loop, read back at every index. */
  lemma AssignStepReads(st: Store, p: NodeId, k: nat, v: Value, fuel: nat, st1: Store)
    requires Closed(st) && p in st.nodes && v == Read(st.nodes[p], Index(k + 1)) && RefsIn(st.nodes.Keys, v)
    requires Assign(st, p, Index(k), v, fuel) == Ok(st1)
    ensures st.nodes[p].raw.Items? && k < |st.nodes[p].raw.items| ==> forall j: nat :: StepRead(st, p, k, j, st1)
  {
    if st.nodes[p].raw.Items? && k < |st.nodes[p].raw.items| {
      forall j: nat
        ensures StepRead(st, p, k, j, st1)
      {
        AssignShiftStep(st, p, k, v, fuel, j);
      }
    }
  }

  /** One step of the shifting loop, read back at `j` and `j + 1`. */
  lemma AssignShiftStep(st: Store, p: NodeId, k: nat, v: Value, fuel: nat, j: nat)
    requires Closed(st) && p in st.nodes && st.nodes[p].raw.Items? && k < |st.nodes[p].raw.items|
    requires v == Read(st.nodes[p], Index(k + 1)) && RefsIn(st.nodes.Keys, v)
    requires Assign(st, p, Index(k), v, fuel).Ok?
    ensures StepRead(st, p, k, j, Assign(st, p, Index(k), v, fuel).value)
  {
    AssignReads(st, p, Index(k), v, fuel, Index(j));
    AssignReads(st, p, Index(k), v, fuel, Index(j + 1));
    AssignKeepsCount(st, p, k, v, fuel);
  }

  /** After position `k` received what was at `k + 1`. */
  predicate StepRead(st: Store, p: NodeId, k: nat, j: nat, st1: Store)
    requires p in st.nodes && st.nodes[p].raw.Items?
  {
    var v := Read(st.nodes[p], Index(k + 1));
    && Closed(st1) && p in st1.nodes && st1.nodes[p].raw.Items?
    && |st1.nodes[p].raw.items| == |st.nodes[p].raw.items|
    && st.nextNode <= st1.nextNode
    && (v.Atom? ==> Read(st1.nodes[p], Index(k)) == v)
    && (Read(st1.nodes[p], Index(k)) == v || Read(st1.nodes[p], Index(k)) == Ref(st.nextNode))
    && (j != k ==> Read(st1.nodes[p], Index(j)) == Read(st.nodes[p], Index(j)))
    && (j + 1 != k ==> Read(st1.nodes[p], Index(j + 1)) == Read(st.nodes[p], Index(j + 1)))
  }

  lemma ShiftCombine(st: Store, st1: Store, r: Store, p: NodeId, k: nat, len: nat, j: nat)
    requires p in st.nodes && st.nodes[p].raw.Items? && k + 1 < len
    requires StepRead(st, p, k, j, st1) && Shifted(st1, p, k + 1, len, j, r)
    ensures Shifted(st, p, k, len, j, r)
  {
  }

  /** Assigning an existing index keeps an array's item count. */
  lemma AssignKeepsCount(st: Store, p: NodeId, k: nat, v: Value, fuel: nat)
    requires Closed(st) && p in st.nodes && st.nodes[p].raw.Items? && k < |st.nodes[p].raw.items|
    requires RefsIn(st.nodes.Keys, v) && Assign(st, p, Index(k), v, fuel).Ok?
    ensures p in Assign(st, p, Index(k), v, fuel).value.nodes
    ensures Assign(st, p, Index(k), v, fuel).value.nodes[p].raw.Items?
    ensures |Assign(st, p, Index(k), v, fuel).value.nodes[p].raw.items| == |st.nodes[p].raw.items|
  {
  }

  /** `parent.splice(start, 1)` with no items to insert, following the
      steps of `Array.prototype.splice`: shift the later items down, delete
      the last one, then set the new length. */
  function Splice(st: Store, p: NodeId, start: int): (r: Result<Store>)
    requires Closed(st) && p in st.nodes && st.nodes[p].raw.Items?
    ensures SpliceStart(start, |st.nodes[p].raw.items|) == |st.nodes[p].raw.items| ==> r == Ok(st)
    ensures r.Ok? && SpliceStart(start, |st.nodes[p].raw.items|) < |st.nodes[p].raw.items| ==>
              forall j: nat :: Spliced(st, p, SpliceStart(start, |st.nodes[p].raw.items|), j, r.value)
    ensures r.Ok? && SpliceStart(start, |st.nodes[p].raw.items|) < |st.nodes[p].raw.items| ==>
              p in r.value.nodes && Notified(r.value, p)
  {
    var len := |st.nodes[p].raw.items|;
    var from := SpliceStart(start, len);
    if from == len then
      AssignSame(st, p, Length, Atom(Num(len)));
      Set(st, p, Length, Atom(Num(len)))
    else
      var st1 :- ShiftDown(st, p, from, len);
      assert Shifted(st, p, from, len, 0, st1);
      var st2 :- Delete(st1, p, Index(len - 1));
      DeleteLast(st1, p, len, st2);
      var st3 :- Set(st2, p, Length, Atom(Num(len - 1)));
      SetLast(st2, p, len, st3);
      SplicedAll(st, p, from, len, st1, st2, st3);
      Ok(st3)
  }

  /** `splice(i, 1)` read back at `j`: indices before `i` keep what they
      read, each later item moves down by one (a node possibly as a fresh
      copy), and there is one item less. */
  predicate Spliced(st: Store, p: NodeId, i: nat, j: nat, r: Store)
    requires p in st.nodes && st.nodes[p].raw.Items?
  {
    var len := |st.nodes[p].raw.items|;
    && p in r.nodes && r.nodes[p].raw.Items?
    && |r.nodes[p].raw.items| == len - 1
    && (j < i ==> Read(r.nodes[p], Index(j)) == Read(st.nodes[p], Index(j)))
    && (i <= j && j + 1 < len && Read(st.nodes[p], Index(j + 1)).Atom? ==>
          Read(r.nodes[p], Index(j)) == Read(st.nodes[p], Index(j + 1)))
    && (i <= j && j + 1 < len ==> Moved(st.nodes[p], st.nextNode, j, Read(r.nodes[p], Index(j))))
  }

  /** Deleting the last index leaves a hole: the count stays, the other
      indices read as before. */
  lemma DeleteLast(st1: Store, p: NodeId, len: nat, st2: Store)
    requires Closed(st1) && p in st1.nodes && st1.nodes[p].raw.Items? && |st1.nodes[p].raw.items| == len > 0
    requires Delete(st1, p, Index(len - 1)) == Ok(st2)
    ensures Closed(st2) && p in st2.nodes && st2.nodes[p].raw.Items? && |st2.nodes[p].raw.items| == len
    ensures forall j: nat :: j != len - 1 ==> Read(st2.nodes[p], Index(j)) == Read(st1.nodes[p], Index(j))
  {
    forall j: nat | j != len - 1
      ensures Read(st2.nodes[p], Index(j)) == Read(st1.nodes[p], Index(j))
    {
      DeleteErases(st1, p, Index(len - 1), Index(j));
    }
  }

  /** Shortening by one keeps the indices below the new length. */
  lemma SetLast(st2: Store, p: NodeId, len: nat, r: Store)
    requires Closed(st2) && p in st2.nodes && st2.nodes[p].raw.Items? && |st2.nodes[p].raw.items| == len > 0
    requires Set(st2, p, Length, Atom(Num(len - 1))) == Ok(r)
    ensures p in r.nodes && r.nodes[p].raw.Items? && |r.nodes[p].raw.items| == len - 1
    ensures forall j: nat :: j < len - 1 ==> Read(r.nodes[p], Index(j)) == Read(st2.nodes[p], Index(j))
    ensures Notified(r, p)
  {
    var v := Atom(Num(len - 1));
    assert Read(st2.nodes[p], Length) != v;
    AssignLength(st2, p, v, st2.nextNode);
    ShortenedReads(st2, p, len, r);
  }

  lemma ShortenedReads(st2: Store, p: NodeId, len: nat, r: Store)
    requires p in st2.nodes && st2.nodes[p].raw.Items? && |st2.nodes[p].raw.items| == len > 0
    requires LengthWritten(st2, p, len - 1, r)
    ensures p in r.nodes && r.nodes[p].raw.Items? && |r.nodes[p].raw.items| == len - 1
    ensures forall j: nat :: j < len - 1 ==> Read(r.nodes[p], Index(j)) == Read(st2.nodes[p], Index(j))
  {
    forall j: nat | j < len - 1
      ensures Read(r.nodes[p], Index(j)) == Read(st2.nodes[p], Index(j))
    {
      ReadResize(st2.nodes[p], len - 1, j);
    }
  }

  /** The three steps of a splice, composed. */
  lemma SplicedAll(st: Store, p: NodeId, i: nat, len: nat, st1: Store, st2: Store, st3: Store)
    requires p in st.nodes && st.nodes[p].raw.Items? && |st.nodes[p].raw.items| == len && i < len
    requires ShiftedAll(st, p, i, len, st1)
    requires p in st1.nodes && p in st2.nodes && st2.nodes[p].raw.Items? && |st2.nodes[p].raw.items| == len
    requires forall j: nat :: j != len - 1 ==> Read(st2.nodes[p], Index(j)) == Read(st1.nodes[p], Index(j))
    requires p in st3.nodes && st3.nodes[p].raw.Items? && |st3.nodes[p].raw.items| == len - 1
    requires forall j: nat :: j < len - 1 ==> Read(st3.nodes[p], Index(j)) == Read(st2.nodes[p], Index(j))
    ensures forall j: nat :: Spliced(st, p, i, j, st3)
  {
    forall j: nat
      ensures Spliced(st, p, i, j, st3)
    {
      assert Shifted(st, p, i, len, j, st1);
    }
  }

  /** `remove(state$)`: fails on anything not reactive; a node without a
      parent stays put and reports false; otherwise it leaves its parent,
      by `delete` on a mapping or by `splice` at its first position on a
      sequence, and reports true. */
  function Remove(st: Store, v: Value): (r: Result<(bool, Store)>)
    requires Closed(st)
    ensures !IsReactive(st, v) ==> r == Err(NotReactive)
    ensures IsReactive(st, v) && st.nodes[v.id].conn.None? ==> r == Ok((false, st))
    ensures r.Ok? ==> (r.value.0 <==> st.nodes[v.id].conn.Some?)
  {
    if !IsReactive(st, v) then Err(NotReactive)
    else
      match st.nodes[v.id].conn
      case None => Ok((false, st))
      case Some(Conn(p, key)) =>
        if p !in st.nodes then Err(NotReactive)
        else if st.nodes[p].raw.Items? then
          var r :- Splice(st, p, IndexOf(st.nodes[p].raw.items, v.id));
          Ok((true, r))
        else
          var r :- Delete(st, p, key);
          Ok((true, r))
  }

  // ---------------------------------------------------------------------
  // watch (src/reactive.ts:229-256) and the microtask loop.

  /** `watch(state$, watcher)`: fails on a non-reactive target or a
      watcher that is not a function; otherwise reads the node's promise
      (raising `consuming`) and registers a subscription waiting on the
      current deferred, stamped after every earlier registration. The
      handle is the subscription's index. */
  function Watch(st: Store, v: Value, isFunction: bool): (r: Result<(nat, Store)>)
    ensures !IsReactive(st, v) ==> r == Err(NotReactive)
    ensures IsReactive(st, v) && !isFunction ==> r == Err(InvalidArgument)
    ensures r.Ok? ==> IsReactive(st, v) && isFunction
    ensures r.Ok? ==> r.value.0 == |st.subs| && |r.value.1.subs| == |st.subs| + 1
    ensures r.Ok? ==> r.value.1.subs[r.value.0] == Sub(v.id, st.nodes[v.id].deb.gen, false, st.nextReg)
    ensures r.Ok? ==> r.value.1.nextReg == st.nextReg + 1
    ensures r.Ok? ==> v.id in r.value.1.nodes && r.value.1.nodes[v.id].deb.consuming
  {
    if !IsReactive(st, v) then Err(NotReactive)
    else if !isFunction then Err(InvalidArgument)
    else
      var n := st.nodes[v.id];
      var st1 := Update(st, v.id, n.(deb := Subscribe(n.deb)));
      Ok((|st.subs|, st1.(subs := st.subs + [Sub(v.id, n.deb.gen, false, st.nextReg)], nextReg := st.nextReg + 1)))
  }

  /** The function `watch` returns: sets the `unwatched` flag. */
  function Unwatch(st: Store, h: nat): (r: Store)
    ensures |r.subs| == |st.subs|
    ensures h < |st.subs| ==> r.subs[h].cancelled
    ensures forall j :: 0 <= j < |st.subs| && j != h ==> r.subs[j] == st.subs[j]
    ensures r == st.(subs := r.subs)
  {
    if h < |st.subs| then st.(subs := st.subs[h := st.subs[h].(cancelled := true)]) else st
  }

  /** Handle `a` registered before handle `b`: an earlier stamp, or the
      same stamp and a lower handle. */
  predicate Before(subs: seq<Sub>, a: nat, b: nat) {
    && a < |subs| && b < |subs|
    && (subs[a].reg < subs[b].reg || (subs[a].reg == subs[b].reg && a < b))
  }

  /** Every registration stamp was taken from the counter. */
  predicate RegsBelow(st: Store) {
    forall h :: 0 <= h < |st.subs| ==> st.subs[h].reg < st.nextReg
  }

  /** `hs` lists handles in registration order. */
  predicate InOrder(subs: seq<Sub>, hs: seq<nat>) {
    forall i, j :: 0 <= i < j < |hs| ==> Before(subs, hs[i], hs[j])
  }

  /** Places handle `h` among the ordered handles `hs`. */
  function Insert(subs: seq<Sub>, hs: seq<nat>, h: nat): (r: seq<nat>)
    requires h < |subs| && h !in hs && InOrder(subs, hs)
    requires forall i :: 0 <= i < |hs| ==> hs[i] < |subs|
    ensures forall k :: k in r <==> k in hs || k == h
    ensures |r| == |hs| + 1 && InOrder(subs, r)
  {
    if hs == [] then [h]
    else if Before(subs, h, hs[0]) then [h] + hs
    else
      var rest := Insert(subs, hs[1..], h);
      var r := [hs[0]] + rest;
      forall i, j | 0 <= i < j < |r| ensures Before(subs, r[i], r[j]) {
        assert r[j] == rest[j - 1] && rest[j - 1] in rest;
        if i == 0 {
          if r[j] == h {
            assert h != hs[0];
          } else {
            var k :| 0 <= k < |hs[1..]| && hs[1..][k] == r[j];
            assert hs[1 + k] == r[j];
          }
        } else {
          assert r[i] == rest[i - 1];
        }
      }
      r
  }

  /** The handles below `n` waiting on deferred `gen` of node `x`, in
      registration order. */
  function WaitingBelow(subs: seq<Sub>, x: NodeId, gen: nat, n: nat): (r: seq<nat>)
    requires n <= |subs|
    ensures forall i :: 0 <= i < |r| ==> r[i] < n && subs[r[i]].node == x && subs[r[i]].gen == gen
    ensures forall h :: 0 <= h < n && subs[h].node == x && subs[h].gen == gen ==> h in r
    ensures InOrder(subs, r)
  {
    if n == 0 then []
    else
      var rest := WaitingBelow(subs, x, gen, n - 1);
      if subs[n - 1].node == x && subs[n - 1].gen == gen then
        var r := Insert(subs, rest, n - 1);
        assert forall i :: 0 <= i < |r| ==> r[i] in rest || r[i] == n - 1;
        r
      else rest
  }

  /** The subscriptions waiting on deferred number `gen` of node `x`, each
      once, in the order their `.then` reactions were registered, which is
      the order a resolution runs them in. */
  function Waiting(subs: seq<Sub>, x: NodeId, gen: nat): (r: seq<nat>)
    ensures forall i :: 0 <= i < |r| ==> r[i] < |subs| && subs[r[i]].node == x && subs[r[i]].gen == gen
    ensures forall h :: 0 <= h < |subs| && subs[h].node == x && subs[h].gen == gen ==> h in r
    ensures InOrder(subs, r)
  {
    WaitingBelow(subs, x, gen, |subs|)
  }

  /** One consumption per waiting subscription, each carrying `snap`. */
  function Consumptions(hs: seq<nat>, snap: Snap): (r: seq<Task>)
    ensures |r| == |hs| && forall i :: 0 <= i < |hs| ==> r[i] == Consume(hs[i], snap)
  {
    seq(|hs|, i requires 0 <= i < |hs| => Consume(hs[i], snap))
  }

  /** A rebuild followed by a new debouncer for `x` keeps every node's
      contents and connection, the subscriptions, and closure. */
  lemma CachedFrame(st: Store, st1: Store, x: NodeId, d': Debouncer)
    requires Linked(st) && OnlyCaches(st, st1) && x in st.nodes
    ensures var st2 := Update(st1, x, st1.nodes[x].(deb := d'));
            && Linked(st2) && st2.nodes.Keys == st.nodes.Keys
            && (forall y :: y in st.nodes ==>
                  st2.nodes[y].raw == st.nodes[y].raw && st2.nodes[y].syms == st.nodes[y].syms && st2.nodes[y].conn == st.nodes[y].conn)
            && (Closed(st) ==> Closed(st2))
            && st2.subs == st.subs && st2.delivered == st.delivered && st2.nextReg == st.nextReg
  {
    ComputeKeepsLinked(st, st1);
    var st2 := Update(st1, x, st1.nodes[x].(deb := d'));
    assert forall y :: y in st2.nodes ==> SlotsOf(st2.nodes[y]) == SlotsOf(st1.nodes[y]);
    if Closed(st) {
      OnlyCachesClosed(st, st1);
      ClosedSameRaw(st1, st2);
    }
  }

  /** The firing branch of `doResolve` (src/reactive.ts:123-125) for node
      `x`, whose debouncer `Fire` has turned into `d'`: the snapshot is
      computed, the new debouncer installed, and every subscription waiting
      on the resolved deferred gets a consumption queued behind `rest`.
      Contents, connections and subscriptions stay as they were. */
  function Resolved(st: Store, x: NodeId, d': Debouncer, rest: seq<Task>): (r: Store)
    requires Linked(st) && x in st.nodes
    ensures Linked(r) && r.nodes.Keys == st.nodes.Keys
    ensures forall y :: y in st.nodes ==>
              r.nodes[y].raw == st.nodes[y].raw && r.nodes[y].syms == st.nodes[y].syms && r.nodes[y].conn == st.nodes[y].conn
    ensures Closed(st) ==> Closed(r)
    ensures r.subs == st.subs && r.delivered == st.delivered && r.nextReg == st.nextReg
    ensures var snap := Compute(st, x).0;
            && r.nodes[x].deb == d' && !r.nodes[x].dirty && r.nodes[x].cache == snap
            && r.queue == rest + Consumptions(Waiting(st.subs, x, st.nodes[x].deb.gen), snap)
  {
    var (snap, st1) := Compute(st, x);
    var st2 := Update(st1, x, st1.nodes[x].(deb := d'));
    CachedFrame(st, st1, x, d');
    st2.(queue := rest + Consumptions(Waiting(st.subs, x, st.nodes[x].deb.gen), snap))
  }

  /** The live branch of `consume` (src/reactive.ts:242-248) for watcher
      `h` of node `x`: the watcher receives `snap`, and `f` registers it
      again on the node's current deferred, raising `consuming`, with the
      next registration stamp. Contents and connections stay as they were. */
  function Consumed(st: Store, h: nat, snap: Snap, rest: seq<Task>): (r: Store)
    requires Linked(st) && h < |st.subs| && st.subs[h].node in st.nodes
    ensures Linked(r) && r.nodes.Keys == st.nodes.Keys
    ensures forall y :: y in st.nodes ==>
              r.nodes[y].raw == st.nodes[y].raw && r.nodes[y].syms == st.nodes[y].syms && r.nodes[y].conn == st.nodes[y].conn
    ensures Closed(st) ==> Closed(r)
    ensures RegsBelow(st) ==> RegsBelow(r)
    ensures r.queue == rest && r.delivered == st.delivered + [(h, snap)] && r.nextReg == st.nextReg + 1
    ensures var x := st.subs[h].node;
            && r.nodes[x].deb.consuming && r.nodes[x].deb.gen == st.nodes[x].deb.gen
            && |r.subs| == |st.subs| && r.subs[h].node == x
            && r.subs[h].gen == st.nodes[x].deb.gen && r.subs[h].reg == st.nextReg
    ensures forall k :: 0 <= k < |st.subs| && k != h ==> r.subs[k] == st.subs[k]
  {
    var x := st.subs[h].node;
    var n := st.nodes[x];
    var st1 := Update(st, x, n.(deb := Subscribe(n.deb)));
    assert forall y :: y in st1.nodes ==> SlotsOf(st1.nodes[y]) == SlotsOf(st.nodes[y]);
    assert Closed(st) ==> Closed(st1) by {
      if Closed(st) { ClosedSameRaw(st, st1); }
    }
    st1.(queue := rest, delivered := st.delivered + [(h, snap)], nextReg := st.nextReg + 1,
         subs := st.subs[h := st.subs[h].(gen := n.deb.gen, reg := st.nextReg)])
  }

  /** Runs the oldest pending microtask.
      - `Resolve(x, n)` is `doResolve(n)` of node `x`: unless `n` is the
        node's current `uid` nothing happens; otherwise the node's
        snapshot is computed, every subscription waiting on the current
        deferred gets a consumption carrying it, a fresh deferred is
        installed and `consuming` drops.
      - `Consume(h, snap)` is the `consume` continuation of watcher `h`:
        once unwatched it does nothing; otherwise the watcher receives
        `snap` and waits again on the node's current deferred, raising
        `consuming`, with a new registration stamp.
      Either way no node's contents or connection changes, the arena stays
      closed, and every stamp stays below the counter. */
  function Step(st: Store): (r: Store)
    requires Linked(st)
    ensures Linked(r)
    ensures r.nodes.Keys == st.nodes.Keys
    ensures forall y :: y in st.nodes ==>
              r.nodes[y].raw == st.nodes[y].raw && r.nodes[y].syms == st.nodes[y].syms && r.nodes[y].conn == st.nodes[y].conn
    ensures Closed(st) ==> Closed(r)
    ensures RegsBelow(st) ==> RegsBelow(r)
    ensures st.queue != [] ==> |st.queue| - 1 <= |r.queue| && r.queue[..|st.queue| - 1] == st.queue[1..]
    ensures st.queue != [] && st.queue[0].Resolve? && st.queue[0].node in st.nodes
            && st.queue[0].n == st.nodes[st.queue[0].node].deb.uid ==>
              var x := st.queue[0].node;
              var d := st.nodes[x].deb;
              var snap := Compute(st, x).0;
              && x in r.nodes && r.nodes[x].deb == Debouncer(d.uid, false, d.gen + 1)
              && !r.nodes[x].dirty && r.nodes[x].cache == snap
              && r.subs == st.subs && r.delivered == st.delivered
              && r.queue == st.queue[1..] + Consumptions(Waiting(st.subs, x, d.gen), snap)
  {
    if st.queue == [] then st
    else
      var rest := st.queue[1..];
      match st.queue[0]
      case Resolve(x, n) =>
        if x !in st.nodes then st.(queue := rest)
        else
          var (d', fired) := Fire(st.nodes[x].deb, n);
          if !fired then st.(queue := rest)
          else Resolved(st, x, d', rest)
      case Consume(h, snap) =>
        if h >= |st.subs| || st.subs[h].cancelled then st.(queue := rest)
        else if st.subs[h].node !in st.nodes then st.(queue := rest, delivered := st.delivered + [(h, snap)])
        else Consumed(st, h, snap, rest)
  }
}

=== FILE: apiprops.dfy ===
/** Properties of the exported operations: `ref`, `remove` and the
    debounced delivery to watchers. */
module ApiProperties {
  import opened Values
  import opened Debounce
  import opened Arena
  import opened Propagation
  import opened Snapshots
  import opened Write
  import opened WriteProperties
  import opened MergeProperties
  import opened Api

  // ---------------------------------------------------------------------
  // reactive

  /** `reactive(v)` reads like `v`: under every name or index, the fresh
      node holds undefined where `v` has no entry and the primitive where
      `v` holds one, whether `v` is a plain container or a reactive node
      (src/reactive.ts:73-81, 221; test/reactive.test.ts:183-195). */
  lemma ReactiveReads(st: Store, v: Value, k: Key)
    requires Closed(st) && RefsIn(st.nodes.Keys, v)
    requires (k.Name? || k.Index?) && Reactive(st, v).Ok?
    ensures var (n, r) := Reactive(st, v).value;
            n in r.nodes && CopyOf(st, v, r.nodes[n], k)
  {
    assert Reactive(st, v) == Wrap(st, v, st.nextNode);
    WrapReads(st, v, st.nextNode, k);
  }

  /** A `getState` after a write that changed an entry returns a new
      snapshot: its id differs from the one returned before the write
      (test/reactive.test.ts:251-270; src/reactive.ts:53-65, 175-182). */
  lemma WriteRefreshes(st: Store, x: NodeId, s0: Snap, st1: Store, key: Key, v: Value, fuel: nat)
    requires Closed(st) && GetState(st, Ref(x)) == Ok((s0, st1))
    requires RefsIn(st1.nodes.Keys, v) && (key.Name? || key.Index?)
    requires x in st1.nodes && Assign(st1, x, key, v, fuel).Ok? && Read(st1.nodes[x], key) != v
    ensures Closed(st1)
    ensures var st2 := Assign(st1, x, key, v, fuel).value;
            && GetState(st2, Ref(x)).Ok?
            && GetState(st2, Ref(x)).value.0.sid != s0.sid
  {
    OnlyCachesClosed(st, st1);
    var st2 := Assign(st1, x, key, v, fuel).value;
    assert st2.nodes[x].dirty;
    RebuildFresh(st2, x);
    assert s0.sid < st1.nextSnap <= st2.nextSnap;
  }

  // ---------------------------------------------------------------------
  // ref

  /** `ref(current)` holds `current` under the name "current" when it is
      a primitive (src/reactive.ts:265). */
  lemma MakeRefHolds(st: Store, p: Prim)
    requires Closed(st) && MakeRef(st, Atom(p)).Ok?
    ensures var (id, r) := MakeRef(st, Atom(p)).value;
            id in r.nodes && Read(r.nodes[id], Name("current")) == Atom(p)
  {
    var fs := [("current", Atom(p))];
    assert FieldsRefsIn(st.nodes.Keys, fs) by {
      assert fs[0].1 == Atom(p) && RefsIn(st.nodes.Keys, Atom(p));
      assert fs[1..] == [] && FieldsRefsIn(st.nodes.Keys, []);
    }
    var v := Plain(Fields(fs));
    var a := Alloc(st, Mapping);
    RefsInGrow(st.nodes.Keys, a.1.nodes.Keys, v);
    var st2 := Merge(a.1, a.0, v, st.nextNode).value;
    assert MakeRef(st, Atom(p)) == Ok((a.0, st2));
    MergeFields(a.1, a.0, fs, st.nextNode, "current");
    var es := Entries(Fields(fs));
    assert es[1..] == [];
    assert LastFor(es, Name("current")) == Some(Atom(p));
  }

  // ---------------------------------------------------------------------
  // remove

  /** Removing a node held by a mapping deletes its key from the parent,
      disconnects it, marks the parent's chain, leaves every other key of
      the parent as it was, and reports true (src/reactive.ts:111-114). */
  lemma RemoveFromMapping(st: Store, c: NodeId, k: string, other: Key)
    requires Closed(st) && c in st.nodes && st.nodes[c].conn.Some?
    requires st.nodes[c].conn.value.key == Name(k)
    requires st.nodes[c].conn.value.parent in st.nodes && st.nodes[st.nodes[c].conn.value.parent].raw.Fields?
    requires Read(st.nodes[st.nodes[c].conn.value.parent], Name(k)) == Ref(c)
    requires Remove(st, Ref(c)).Ok?
    ensures var (removed, r) := Remove(st, Ref(c)).value;
            var p := st.nodes[c].conn.value.parent;
            && removed
            && Read(r.nodes[p], Name(k)) == Atom(Undef)
            && r.nodes[c].conn.None?
            && Notified(r, p)
            && (other.Name? && other != Name(k) ==> Read(r.nodes[p], other) == Read(st.nodes[p], other))
  {
    var p := st.nodes[c].conn.value.parent;
    var r := Delete(st, p, Name(k)).value;
    assert Remove(st, Ref(c)) == Ok((true, r));
    DeleteErases(st, p, Name(k), other);
  }

  /** Removing a node held by a sequence at position `i` (its first
      position) splices it out: items before `i` stay, each later item
      moves down by one, the length drops by one, the parent's chain is
      marked, and, when `c` was held only at `i`, no item holds `c` any
      more (src/reactive.ts:107-110). */
  lemma RemoveFromSequence(st: Store, c: NodeId, i: nat, j: nat)
    requires Closed(st) && c in st.nodes && st.nodes[c].conn.Some?
    requires st.nodes[c].conn.value.parent in st.nodes && st.nodes[st.nodes[c].conn.value.parent].raw.Items?
    requires IndexOf(st.nodes[st.nodes[c].conn.value.parent].raw.items, c) == i
    requires Remove(st, Ref(c)).Ok?
    ensures var (removed, r) := Remove(st, Ref(c)).value;
            var p := st.nodes[c].conn.value.parent;
            var xs := st.nodes[p].raw.items;
            && removed
            && Spliced(st, p, i, j, r)
            && Notified(r, p)
            && ((forall m :: i < m < |xs| ==> xs[m] != Child(c)) ==>
                  forall m :: 0 <= m < |r.nodes[p].raw.items| ==> r.nodes[p].raw.items[m] != Child(c))
  {
    var p := st.nodes[c].conn.value.parent;
    var xs := st.nodes[p].raw.items;
    var r := Splice(st, p, i).value;
    assert Remove(st, Ref(c)) == Ok((true, r));
    if forall m :: i < m < |xs| ==> xs[m] != Child(c) {
      SplicedOut(st, p, c, i, r);
    }
  }

  lemma SplicedOut(st: Store, p: NodeId, c: NodeId, i: nat, r: Store)
    requires Closed(st) && p in st.nodes && c in st.nodes && st.nodes[p].raw.Items?
    requires var xs := st.nodes[p].raw.items;
             && i < |xs| && xs[i] == Child(c)
             && (forall m :: 0 <= m < i ==> xs[m] != Child(c))
             && (forall m :: i < m < |xs| ==> xs[m] != Child(c))
    requires forall m: nat :: Spliced(st, p, i, m, r)
    ensures p in r.nodes && r.nodes[p].raw.Items?
    ensures forall m :: 0 <= m < |r.nodes[p].raw.items| ==> r.nodes[p].raw.items[m] != Child(c)
  {
    assert Spliced(st, p, i, 0, r);
    forall m | 0 <= m < |r.nodes[p].raw.items|
      ensures r.nodes[p].raw.items[m] != Child(c)
    {
      assert Spliced(st, p, i, m, r);
      SplicedNotHeld(st, p, c, i, m, r);
    }
  }

  /** One position after the splice does not hold `c`: before `i` no item
      held it, and later ones hold a moved item or a newer copy. */
  lemma SplicedNotHeld(st: Store, p: NodeId, c: NodeId, i: nat, m: nat, r: Store)
    requires Closed(st) && p in st.nodes && c in st.nodes && st.nodes[p].raw.Items?
    requires var xs := st.nodes[p].raw.items;
             && i < |xs| && xs[i] == Child(c)
             && (forall m :: 0 <= m < i ==> xs[m] != Child(c))
             && (forall m :: i < m < |xs| ==> xs[m] != Child(c))
    requires Spliced(st, p, i, m, r) && m < |r.nodes[p].raw.items|
    ensures r.nodes[p].raw.items[m] != Child(c)
  {
    var xs := st.nodes[p].raw.items;
    if m < i {
      assert Read(st.nodes[p], Index(m)) == SlotValue(xs[m]) != Ref(c);
    } else {
      assert Read(st.nodes[p], Index(m + 1)) == SlotValue(xs[m + 1]) != Ref(c);
    }
    assert Read(r.nodes[p], Index(m)) != Ref(c);
  }

  // ---------------------------------------------------------------------
  // delivery to watchers

  /** A resolution whose number is not the node's current `uid` was
      superseded by a later notification and does nothing
      (src/reactive.ts:121-122). */
  lemma StepResolveStale(st: Store, x: NodeId, n: nat)
    requires Linked(st) && st.queue != [] && st.queue[0] == Resolve(x, n)
    requires x in st.nodes && n != st.nodes[x].deb.uid
    ensures Step(st) == st.(queue := st.queue[1..])
  {
  }

  /** The current resolution hands every subscription waiting on the
      current deferred exactly one consumption carrying the snapshot `getState`
      gives at that moment, installs a fresh deferred and stops consuming
      (src/reactive.ts:121-126). */
  lemma StepResolveFires(st: Store, x: NodeId)
    requires Linked(st) && x in st.nodes && st.queue != [] && st.queue[0] == Resolve(x, st.nodes[x].deb.uid)
    ensures var d := st.nodes[x].deb;
            var snap := GetState(st, Ref(x)).value.0;
            var r := Step(st);
            && x in r.nodes && r.nodes[x].deb == Debouncer(d.uid, false, d.gen + 1)
            && !r.nodes[x].dirty && r.nodes[x].cache == snap
            && r.subs == st.subs && r.delivered == st.delivered
            && |st.queue| - 1 <= |r.queue| && r.queue[..|st.queue| - 1] == st.queue[1..]
            && (forall h :: 0 <= h < |st.subs| && st.subs[h].node == x && st.subs[h].gen == d.gen ==>
                  Consume(h, snap) in r.queue[|st.queue| - 1..])
            && (forall t :: t in r.queue[|st.queue| - 1..] ==>
                  && t.Consume? && t.snap == snap && t.sub < |st.subs|
                  && st.subs[t.sub].node == x && st.subs[t.sub].gen == d.gen)
            && var added := r.queue[|st.queue| - 1..];
               forall i, j :: 0 <= i < j < |added| ==> added[i] != added[j]
  {
    var d := st.nodes[x].deb;
    var snap := Compute(st, x).0;
    assert Step(st).queue[|st.queue| - 1..] == Consumptions(Waiting(st.subs, x, d.gen), snap);
    WaitingConsumed(st.subs, x, d.gen, snap);
  }

  /** Each subscription waiting on the deferred gets exactly one
      consumption of `snap`, and no other does. */
  lemma WaitingConsumed(subs: seq<Sub>, x: NodeId, gen: nat, snap: Snap)
    ensures forall h :: 0 <= h < |subs| && subs[h].node == x && subs[h].gen == gen ==>
              Consume(h, snap) in Consumptions(Waiting(subs, x, gen), snap)
    ensures forall t :: t in Consumptions(Waiting(subs, x, gen), snap) ==>
              t.Consume? && t.snap == snap && t.sub < |subs| && subs[t.sub].node == x && subs[t.sub].gen == gen
    ensures var added := Consumptions(Waiting(subs, x, gen), snap);
            forall i, j :: 0 <= i < j < |added| ==> added[i] != added[j]
  {
    var hs := Waiting(subs, x, gen);
    var added := Consumptions(hs, snap);
    forall h | 0 <= h < |subs| && subs[h].node == x && subs[h].gen == gen
      ensures Consume(h, snap) in added
    {
      var i :| 0 <= i < |hs| && hs[i] == h;
      assert added[i] == Consume(h, snap);
    }
  }

  /** An unwatched subscription's consumption delivers nothing and does
      not wait again (src/reactive.ts:240-241). */
  lemma StepConsumeCancelled(st: Store, h: nat, snap: Snap)
    requires Linked(st) && st.queue != [] && st.queue[0] == Consume(h, snap)
    requires h < |st.subs| && st.subs[h].cancelled
    ensures Step(st) == st.(queue := st.queue[1..])
  {
  }

  /** A live subscription receives the snapshot and waits again on its
      node's current deferred, raising `consuming`; no other subscription
      changes (src/reactive.ts:240-249). */
  lemma StepConsumeDelivers(st: Store, h: nat, snap: Snap)
    requires Linked(st) && st.queue != [] && st.queue[0] == Consume(h, snap)
    requires h < |st.subs| && !st.subs[h].cancelled && st.subs[h].node in st.nodes
    ensures var x := st.subs[h].node;
            var r := Step(st);
            && r.delivered == st.delivered + [(h, snap)]
            && r.queue == st.queue[1..]
            && |r.subs| == |st.subs| && r.subs[h] == Sub(x, st.nodes[x].deb.gen, false, st.nextReg)
            && r.nextReg == st.nextReg + 1
            && (forall g :: 0 <= g < |st.subs| && g != h ==> r.subs[g] == st.subs[g])
            && x in r.nodes && r.nodes[x].deb.consuming
            && r.nodes[x].deb.uid == st.nodes[x].deb.uid && r.nodes[x].deb.gen == st.nodes[x].deb.gen
  {
  }

  /** After `watch` and then its unwatch function, the watcher never
      receives anything: its pending consumption is dropped
      (src/reactive.ts:238-255). */
  lemma UnwatchSilences(st: Store, v: Value, snap: Snap)
    requires Linked(st) && Watch(st, v, true).Ok?
    ensures var (h, st1) := Watch(st, v, true).value;
            var st2 := Unwatch(st1, h).(queue := [Consume(h, snap)] + st1.queue);
            Linked(st2) && Step(st2) == st2.(queue := st1.queue)
  {
    var (h, st1) := Watch(st, v, true).value;
    var st2 := Unwatch(st1, h).(queue := [Consume(h, snap)] + st1.queue);
    assert forall y :: y in st2.nodes ==> SlotsOf(st2.nodes[y]) == SlotsOf(st.nodes[y]);
    StepConsumeCancelled(st2, h, snap);
    assert st2.queue[1..] == st1.queue;
  }

  // ---------------------------------------------------------------------
  // Delivery order (src/reactive.ts:238-249): a resolution runs the
  // `.then` reactions of its promise in the order they were registered,
  // and every consumption registers its watcher again, behind all others.

  /** Registration order is a strict order: no handle precedes itself,
      and of two handles at most one precedes the other. */
  lemma BeforeStrict(subs: seq<Sub>, a: nat, b: nat)
    ensures !Before(subs, a, a)
    ensures Before(subs, a, b) ==> !Before(subs, b, a)
  {
  }

  /** Two lists of the same handles, each in registration order, are the
      same list: the order of delivery is determined. */
  lemma {:induction false} InOrderUnique(subs: seq<Sub>, a: seq<nat>, b: seq<nat>)
    requires InOrder(subs, a) && InOrder(subs, b)
    requires forall k :: k in a <==> k in b
    ensures a == b
    decreases |a|
  {
    SameEmpty(a, b);
    if a != [] {
      assert a[0] in a && b[0] in b;
      HeadFirst(subs, a, b[0]);
      HeadFirst(subs, b, a[0]);
      BeforeStrict(subs, a[0], b[0]);
      forall k ensures k in a[1..] <==> k in b[1..] {
        Tail(subs, a, k);
        Tail(subs, b, k);
      }
      InOrderUnique(subs, a[1..], b[1..]);
      assert a == [a[0]] + a[1..] && b == [b[0]] + b[1..];
    }
  }

  /** Lists with the same elements are empty together. */
  lemma SameEmpty(a: seq<nat>, b: seq<nat>)
    requires forall k :: k in a <==> k in b
    ensures a == [] <==> b == []
  {
    if a != [] {
      assert a[0] in a;
    }
    if b != [] {
      assert b[0] in b;
    }
  }

  /** The head of an ordered list precedes every other element. */
  lemma HeadFirst(subs: seq<Sub>, a: seq<nat>, k: nat)
    requires InOrder(subs, a) && k in a
    ensures k == a[0] || Before(subs, a[0], k)
  {
    var i :| 0 <= i < |a| && a[i] == k;
    if i > 0 {
      assert Before(subs, a[0], a[i]);
    }
  }

  /** The tail of an ordered list holds exactly its other elements. */
  lemma Tail(subs: seq<Sub>, a: seq<nat>, k: nat)
    requires InOrder(subs, a) && a != []
    ensures k in a[1..] <==> k in a && k != a[0]
  {
    if k in a[1..] {
      var j :| 0 <= j < |a[1..]| && a[1..][j] == k;
      assert Before(subs, a[0], a[1 + j]);
      BeforeStrict(subs, a[0], a[0]);
    }
    if k in a && k != a[0] {
      var j :| 0 <= j < |a| && a[j] == k;
      assert a[1..][j - 1] == k;
    }
  }

  /** Appending a handle stamped after every other keeps a list in
      registration order, judged on a list of subscriptions that agrees
      with `subs` on the listed handles. */
  lemma AppendLast(subs: seq<Sub>, subs': seq<Sub>, hs: seq<nat>, h: nat)
    requires InOrder(subs, hs) && |subs| <= |subs'| && h < |subs'|
    requires forall i :: 0 <= i < |hs| ==> hs[i] < |subs| && hs[i] != h && subs'[hs[i]] == subs[hs[i]]
    requires forall i :: 0 <= i < |hs| ==> subs[hs[i]].reg < subs'[h].reg
    ensures InOrder(subs', hs + [h])
  {
    var r := hs + [h];
    forall i, j | 0 <= i < j < |r| ensures Before(subs', r[i], r[j]) {
      if j < |hs| {
        assert Before(subs, hs[i], hs[j]);
      }
    }
  }

  /** Appending a subscription stamped after every other puts it last in
      its own waiting list and changes no other list. */
  lemma WaitingAppend(subs: seq<Sub>, s: Sub, x: NodeId, g: nat)
    requires forall i :: 0 <= i < |subs| ==> subs[i].reg < s.reg
    ensures Waiting(subs + [s], x, g) ==
            Waiting(subs, x, g) + if s.node == x && s.gen == g then [|subs|] else []
  {
    var subs' := subs + [s];
    var w := Waiting(subs, x, g);
    assert forall i :: 0 <= i < |subs| ==> subs'[i] == subs[i];
    if s.node == x && s.gen == g {
      AppendLast(subs, subs', w, |subs|);
      InOrderUnique(subs', Waiting(subs', x, g), w + [|subs|]);
    } else {
      assert InOrder(subs', w) by {
        forall i, j | 0 <= i < j < |w| ensures Before(subs', w[i], w[j]) {
          assert Before(subs, w[i], w[j]);
        }
      }
      InOrderUnique(subs', Waiting(subs', x, g), w);
      assert w + [] == w;
    }
  }

  /** `watch` puts the new handle last among the watchers of the node's
      current deferred, and leaves every other waiting list as it was
      (src/reactive.ts:243-251). */
  lemma WatchWaitsLast(st: Store, v: Value)
    requires RegsBelow(st) && Watch(st, v, true).Ok?
    ensures var (h, st1) := Watch(st, v, true).value;
            var gen := st.nodes[v.id].deb.gen;
            && RegsBelow(st1)
            && Waiting(st1.subs, v.id, gen) == Waiting(st.subs, v.id, gen) + [h]
            && forall x, g :: x != v.id || g != gen ==> Waiting(st1.subs, x, g) == Waiting(st.subs, x, g)
  {
    var (h, st1) := Watch(st, v, true).value;
    var gen := st.nodes[v.id].deb.gen;
    var s := Sub(v.id, gen, false, st.nextReg);
    assert st1.subs == st.subs + [s];
    forall x, g ensures Waiting(st1.subs, x, g) == Waiting(st.subs, x, g) + if x == v.id && g == gen then [h] else [] {
      WaitingAppend(st.subs, s, x, g);
    }
    assert Waiting(st1.subs, v.id, gen) == Waiting(st.subs, v.id, gen) + [h];
  }

  /** A live consumption puts its watcher last among the watchers of the
      node's current deferred: a watcher that has just been handed a
      snapshot runs after every watcher that was already waiting
      (src/reactive.ts:240-247). */
  lemma ConsumeWaitsLast(st: Store, h: nat, snap: Snap)
    requires Linked(st) && RegsBelow(st) && st.queue != [] && st.queue[0] == Consume(h, snap)
    requires h < |st.subs| && !st.subs[h].cancelled && st.subs[h].node in st.nodes
    requires st.subs[h].gen != st.nodes[st.subs[h].node].deb.gen
    ensures var x := st.subs[h].node;
            var gen := st.nodes[x].deb.gen;
            && RegsBelow(Step(st))
            && Waiting(Step(st).subs, x, gen) == Waiting(st.subs, x, gen) + [h]
  {
    var x := st.subs[h].node;
    var gen := st.nodes[x].deb.gen;
    StepConsumeDelivers(st, h, snap);
    var r := Step(st);
    var before := Waiting(st.subs, x, gen);
    AppendLast(st.subs, r.subs, before, h);
    InOrderUnique(r.subs, Waiting(r.subs, x, gen), before + [h]);
  }
}

=== FILE: arena.dfy ===
/** The arena of reactive nodes. Each node of the library is a closure
    over a raw target, a connection record, a snapshot cache and a debouncer
    (src/reactive.ts:16-139); here it is a record in a map keyed by
    `NodeId`, and references between nodes are ids. */
module Arena {
  import opened Values
  import opened Debounce

  /** What a node's raw storage holds under a non-symbol key: a primitive,
      or another node (plain containers are always wrapped on write). */
  datatype Slot = Leaf(p: Prim) | Child(id: NodeId)

  /** An immutable snapshot. `sid` is its identity: two snapshots are the
      same object exactly when their ids agree. */
  datatype Snap = Snap(sid: nat, body: Shape<SVal>)
  datatype SVal = SLeaf(p: Prim) | SSub(s: Snap)

  /** The `(parent, key)` pair of `connection` (src/reactive.ts:83-86). */
  datatype Conn = Conn(parent: NodeId, key: Key)

  datatype Node = Node(
    raw: Shape<Slot>,          // the proxy target: fields or items
    syms: map<nat, Value>,     // symbol-keyed properties, stored as-is
    dirty: bool,               // isDirty of createImmutable
    cache: Snap,               // immutableTarget of createImmutable
    conn: Option<Conn>,
    deb: Debouncer)
  {
    function Kind(): Kind { raw.KindOf() }
  }

  /** A pending microtask: a `doResolve(n)` of a node, or the `consume`
      continuation of a watcher receiving a resolved snapshot. */
  datatype Task = Resolve(node: NodeId, n: nat) | Consume(sub: nat, snap: Snap)

  /** A watch subscription: the node, the deferred it waits on, the
      `unwatched` flag, and the stamp of its latest `.then` registration on
      that deferred. A resolved promise runs its reactions in registration
      order, so the stamps order the consumptions a resolution queues. */
  datatype Sub = Sub(node: NodeId, gen: nat, cancelled: bool, reg: nat)

  datatype Store = Store(
    nodes: map<NodeId, Node>,
    nextNode: nat,                 // next fresh node id
    nextSnap: nat,                 // next fresh snapshot id
    queue: seq<Task>,              // the microtask queue, oldest first
    subs: seq<Sub>,                // watch subscriptions, indexed by handle
    nextReg: nat,                  // next registration stamp
    delivered: seq<(nat, Snap)>)   // watcher invocations so far: (handle, snapshot)

  const EmptyStore := Store(map[], 0, 0, [], [], 0, [])

  function SlotValue(s: Slot): Value {
    match s
    case Leaf(p) => Atom(p)
    case Child(id) => Ref(id)
  }

  function SlotsOf(n: Node): seq<Slot> { ValuesOf(n.raw) }

  /** The ids of the nodes a node holds. */
  function ChildIds(n: Node): set<NodeId> {
    var xs := SlotsOf(n);
    set i | 0 <= i < |xs| && xs[i].Child? :: xs[i].id
  }

  /** The raw value under `key`; absent keys and holes read as undefined,
      and an array's `length` reads as its item count. */
  function Read(n: Node, key: Key): (r: Value)
    ensures !Fits(n.Kind(), key) ==> r == Atom(Undef)
  {
    match key
    case Sym(t) => if t in n.syms then n.syms[t] else Atom(Undef)
    case Name(k) =>
      if n.raw.Fields? then
        match Lookup(n.raw.fields, k)
        case Some(s) => SlotValue(s)
        case None => Atom(Undef)
      else Atom(Undef)
    case Index(i) =>
      if n.raw.Items? && i < |n.raw.items| then SlotValue(n.raw.items[i]) else Atom(Undef)
    case Length =>
      if n.raw.Items? then Atom(Num(|n.raw.items|)) else Atom(Undef)
  }

  /** Keys the model gives a node: names on a mapping; indices and `length`
      on a sequence; symbols on both. */
  predicate Fits(k: Kind, key: Key) {
    match key
    case Sym(_) => true
    case Name(_) => k == Mapping
    case Index(_) => k == Sequence
    case Length => k == Sequence
  }

  /** `n` holes. */
  function Holes(n: nat): (r: seq<Slot>)
    ensures |r| == n && forall i :: 0 <= i < n ==> r[i] == Leaf(Undef)
  {
    seq(n, _ => Leaf(Undef))
  }

  /** Raw assignment of a slot under a name or an index; assigning past the
      end of an array grows it with holes. */
  function PutSlot(raw: Shape<Slot>, key: Key, s: Slot): (r: Shape<Slot>)
    requires Fits(raw.KindOf(), key) && (key.Name? || key.Index?)
    ensures r.KindOf() == raw.KindOf()
    ensures key.Name? ==> Lookup(r.fields, key.name) == Some(s)
    ensures key.Name? ==> forall k :: k != key.name ==> Lookup(r.fields, k) == Lookup(raw.fields, k)
    ensures key.Index? ==> |r.items| == if key.i < |raw.items| then |raw.items| else key.i + 1
    ensures key.Index? ==> r.items[key.i] == s
    ensures key.Index? ==> forall j :: 0 <= j < |raw.items| && j != key.i ==> r.items[j] == raw.items[j]
    ensures key.Index? ==> forall j :: |raw.items| <= j < |r.items| && j != key.i ==> r.items[j] == Leaf(Undef)
  {
    match key
    case Name(k) => Fields(Put(raw.fields, k, s))
    case Index(i) =>
      var xs := raw.items;
      if i < |xs| then Items(xs[i := s]) else Items(xs + Holes(i - |xs|) + [s])
  }

  /** Raw deletion under a name or an index: the field goes away; an item
      becomes a hole and the length stays. */
  function Erase(raw: Shape<Slot>, key: Key): (r: Shape<Slot>)
    requires Fits(raw.KindOf(), key) && (key.Name? || key.Index?)
    ensures r.KindOf() == raw.KindOf()
    ensures key.Name? ==> Lookup(r.fields, key.name).None?
    ensures key.Name? ==> forall k :: k != key.name ==> Lookup(r.fields, k) == Lookup(raw.fields, k)
    ensures key.Index? ==> |r.items| == |raw.items|
    ensures key.Index? ==> forall j :: 0 <= j < |raw.items| ==> r.items[j] == if j == key.i then Leaf(Undef) else raw.items[j]
  {
    match key
    case Name(k) => Fields(Drop(raw.fields, k))
    case Index(i) => if i < |raw.items| then Items(raw.items[i := Leaf(Undef)]) else raw
  }

  /** Setting an array's length: truncate, or grow with holes. */
  function Resize(xs: seq<Slot>, n: nat): (r: seq<Slot>)
    ensures |r| == n
    ensures forall j :: 0 <= j < n && j < |xs| ==> r[j] == xs[j]
    ensures forall j :: |xs| <= j < n ==> r[j] == Leaf(Undef)
  {
    if n <= |xs| then xs[..n] else xs + Holes(n - |xs|)
  }

  /** A fresh node of kind `k`: empty, clean, caching an empty snapshot with
      id `sid`, unconnected, with a new debouncer. */
  function Fresh(k: Kind, sid: nat): (n: Node)
    ensures n.Kind() == k && SlotsOf(n) == [] && n.syms == map[]
    ensures !n.dirty && n.cache.sid == sid && n.conn.None? && n.deb == Initial
  {
    Node(Empty(k), map[], false, Snap(sid, Empty(k)), None, Initial)
  }

  // ---------------------------------------------------------------------
  // Closure of the arena: every child a node holds is a node, and every
  // node id and cached snapshot id was taken from its counter.

  /** Every node's children are nodes of the arena. */
  predicate Linked(st: Store) {
    forall x :: x in st.nodes ==> ChildIds(st.nodes[x]) <= st.nodes.Keys
  }

  /** Every cached snapshot was numbered before the counter's value, so
      the next rebuild yields an id no node has cached. */
  predicate SnapsBelow(st: Store) {
    forall x :: x in st.nodes ==> st.nodes[x].cache.sid < st.nextSnap
  }

  predicate Closed(st: Store) {
    && (forall x :: x in st.nodes ==> x < st.nextNode)
    && Linked(st)
    && SnapsBelow(st)
  }

  /** `st'` extends `st`: no node disappears and the id counters only grow. */
  predicate Grows(st: Store, st': Store) {
    && st.nodes.Keys <= st'.nodes.Keys
    && st.nextNode <= st'.nextNode
    && st.nextSnap <= st'.nextSnap
  }

  /** Replaces the record of an existing node. */
  function Update(st: Store, id: NodeId, n: Node): (r: Store)
    requires id in st.nodes
    ensures r.nodes.Keys == st.nodes.Keys && r.nodes[id] == n
    ensures forall x :: x in st.nodes && x != id ==> r.nodes[x] == st.nodes[x]
    ensures r.nextNode == st.nextNode && r.nextSnap == st.nextSnap
    ensures r.queue == st.queue && r.subs == st.subs && r.delivered == st.delivered
  {
    st.(nodes := st.nodes[id := n])
  }

  // ---------------------------------------------------------------------
  // The connection graph (src/reactive.ts:83-100).

  /** `connect(parent, key)`: overwrites the connection unconditionally;
      the "first connection wins" guard lives in the write path. */
  function Connect(st: Store, c: NodeId, parent: NodeId, key: Key): (r: Store)
    requires c in st.nodes
    ensures r.nodes.Keys == st.nodes.Keys
    ensures r.nodes[c] == st.nodes[c].(conn := Some(Conn(parent, key))) && IsConnected(r, c)
    ensures forall x :: x in st.nodes && x != c ==> r.nodes[x] == st.nodes[x]
    ensures r.nextNode == st.nextNode && r.nextSnap == st.nextSnap
    ensures r.queue == st.queue && r.subs == st.subs && r.delivered == st.delivered
  {
    Update(st, c, st.nodes[c].(conn := Some(Conn(parent, key))))
  }

  /** `disconnect()`: clears the connection unconditionally. */
  function Disconnect(st: Store, c: NodeId): (r: Store)
    requires c in st.nodes
    ensures r.nodes.Keys == st.nodes.Keys
    ensures r.nodes[c] == st.nodes[c].(conn := None) && !IsConnected(r, c)
    ensures forall x :: x in st.nodes && x != c ==> r.nodes[x] == st.nodes[x]
    ensures r.nextNode == st.nextNode && r.nextSnap == st.nextSnap
    ensures r.queue == st.queue && r.subs == st.subs && r.delivered == st.delivered
  {
    Update(st, c, st.nodes[c].(conn := None))
  }

  /** `isReactive` (src/reactive.ts:5-7): only node references carry the
      internal tag; primitives and plain containers do not. */
  predicate IsReactive(st: Store, v: Value): (r: bool)
    ensures v.Atom? || v.Plain? ==> !r
    ensures r ==> v.id in st.nodes
  {
    v.Ref? && v.id in st.nodes
  }

  /** `isConnected` (src/reactive.ts:98-100): the node has a parent. */
  predicate IsConnected(st: Store, c: NodeId)
    requires c in st.nodes
  {
    st.nodes[c].conn.Some?
  }

  /** Allocates a fresh node of kind `k`, taking the next node id and the
      next snapshot id (the `immutableTarget` a new `createImmutable`
      starts with). */
  function Alloc(st: Store, k: Kind): (r: (NodeId, Store))
    requires Closed(st)
    ensures r.0 == st.nextNode && r.0 !in st.nodes
    ensures r.1.nodes == st.nodes[r.0 := Fresh(k, st.nextSnap)]
    ensures r.1 == st.(nodes := r.1.nodes, nextNode := st.nextNode + 1, nextSnap := st.nextSnap + 1)
    ensures Grows(st, r.1) && Closed(r.1)
  {
    var id := st.nextNode;
    assert ChildIds(Fresh(k, st.nextSnap)) == {};
    (id, st.(nodes := st.nodes[id := Fresh(k, st.nextSnap)], nextNode := id + 1, nextSnap := st.nextSnap + 1))
  }

  /** Replacing a node by one whose children are nodes, keeping its
      cache, keeps the arena closed. */
  lemma ClosedUpdate(st: Store, id: NodeId, n: Node)
    requires Closed(st) && id in st.nodes && ChildIds(n) <= st.nodes.Keys && n.cache == st.nodes[id].cache
    ensures Closed(Update(st, id, n))
  {
  }

  /** Closure depends only on the nodes' contents and caches. */
  lemma ClosedSameRaw(st: Store, r: Store)
    requires Closed(st) && r.nodes.Keys == st.nodes.Keys && r.nextNode == st.nextNode && r.nextSnap == st.nextSnap
    requires forall x :: x in st.nodes ==> r.nodes[x].raw == st.nodes[x].raw && r.nodes[x].cache == st.nodes[x].cache
    ensures Closed(r)
  {
    forall x | x in r.nodes
      ensures ChildIds(r.nodes[x]) <= r.nodes.Keys
    {
      assert SlotsOf(r.nodes[x]) == SlotsOf(st.nodes[x]);
    }
  }

  lemma ClosedConnect(st: Store, c: NodeId, parent: NodeId, key: Key)
    requires Closed(st) && c in st.nodes
    ensures Closed(Connect(st, c, parent, key))
  {
    assert SlotsOf(st.nodes[c].(conn := Some(Conn(parent, key)))) == SlotsOf(st.nodes[c]);
  }

  lemma ClosedDisconnect(st: Store, c: NodeId)
    requires Closed(st) && c in st.nodes
    ensures Closed(Disconnect(st, c))
  {
    assert SlotsOf(st.nodes[c].(conn := None)) == SlotsOf(st.nodes[c]);
  }

  /** The children an array loses when its length drops to `m`. */
  function Truncated(xs: seq<Slot>, m: nat): set<NodeId> {
    set i | m <= i < |xs| && xs[i].Child? :: xs[i].id
  }

  /** Writing slot `s` under a name or index: the node's children are its
      old ones plus, possibly, the node `s` refers to. */
  lemma ChildIdsPutSlot(n: Node, key: Key, s: Slot)
    requires Fits(n.Kind(), key) && (key.Name? || key.Index?)
    ensures ChildIds(n.(raw := PutSlot(n.raw, key, s))) <= ChildIds(n) + (if s.Child? then {s.id} else {})
  {
    var n' := n.(raw := PutSlot(n.raw, key, s));
    var xs, ys := SlotsOf(n), SlotsOf(n');
    forall x | x in ChildIds(n') && !(s.Child? && x == s.id)
      ensures x in ChildIds(n)
    {
      var i :| 0 <= i < |ys| && ys[i].Child? && ys[i].id == x;
      if key.Index? {
        assert i < |xs| && i != key.i && ys[i] == xs[i];
      } else {
        var f := n'.raw.fields[i];
        assert f != (key.name, s);
        assert f in n.raw.fields;
        var m :| 0 <= m < |n.raw.fields| && n.raw.fields[m] == f;
        assert xs[m] == ys[i];
      }
    }
  }

  /** Erasing keeps a subset of the children. */
  lemma ChildIdsErase(n: Node, key: Key)
    requires Fits(n.Kind(), key) && (key.Name? || key.Index?)
    ensures ChildIds(n.(raw := Erase(n.raw, key))) <= ChildIds(n)
  {
    var n' := n.(raw := Erase(n.raw, key));
    var xs, ys := SlotsOf(n), SlotsOf(n');
    forall x | x in ChildIds(n')
      ensures x in ChildIds(n)
    {
      var i :| 0 <= i < |ys| && ys[i].Child? && ys[i].id == x;
      if key.Index? {
        assert ys[i] == xs[i];
      } else {
        var f := n'.raw.fields[i];
        assert f in n.raw.fields;
        var m :| 0 <= m < |n.raw.fields| && n.raw.fields[m] == f;
        assert xs[m] == ys[i];
      }
    }
  }

  /** Resizing keeps a subset of the children. */
  lemma ChildIdsResize(n: Node, m: nat)
    requires n.raw.Items?
    ensures ChildIds(n.(raw := Items(Resize(n.raw.items, m)))) <= ChildIds(n)
  {
    var n' := n.(raw := Items(Resize(n.raw.items, m)));
    forall x | x in ChildIds(n')
      ensures x in ChildIds(n)
    {
      var ys := SlotsOf(n');
      var i :| 0 <= i < |ys| && ys[i].Child? && ys[i].id == x;
      assert ys[i] == n.raw.items[i];
    }
  }

  /** The child a non-symbol read returns is a child of the node. */
  lemma ReadChild(n: Node, key: Key)
    requires !key.Sym? && Read(n, key).Ref?
    ensures Read(n, key).id in ChildIds(n)
  {
    var xs := SlotsOf(n);
    if key.Name? {
      var i := Find(n.raw.fields, key.name).value;
      assert xs[i] == n.raw.fields[i].1;
    } else {
      assert xs[key.i].Child?;
    }
  }

  // ---------------------------------------------------------------------
  // Reading back what was written.

  /** A read sees only the raw contents and the symbol table. */
  lemma ReadSameContents(n: Node, n': Node, key: Key)
    requires n'.raw == n.raw && n'.syms == n.syms
    ensures Read(n', key) == Read(n, key)
  {
  }

  /** After storing `s` under `key`, a read of `key` gives `s` back and a
      read of any other name or index is unchanged. */
  lemma ReadPutSlot(n: Node, key: Key, s: Slot, other: Key)
    requires Fits(n.Kind(), key) && (key.Name? || key.Index?)
    ensures Read(n.(raw := PutSlot(n.raw, key, s)), key) == SlotValue(s)
    ensures (other.Name? || other.Index?) && other != key ==>
              Read(n.(raw := PutSlot(n.raw, key, s)), other) == Read(n, other)
  {
    var r := PutSlot(n.raw, key, s);
    if key.Index? && other.Index? && other != key && other.i >= |n.raw.items| && other.i < |r.items| {
      assert r.items[other.i] == Leaf(Undef);
    }
  }

  /** After erasing `key`, a read of it gives undefined and a read of any
      other name or index is unchanged. */
  lemma ReadErase(n: Node, key: Key, other: Key)
    requires Fits(n.Kind(), key) && (key.Name? || key.Index?)
    ensures Read(n.(raw := Erase(n.raw, key)), key) == Atom(Undef)
    ensures (other.Name? || other.Index?) && other != key ==>
              Read(n.(raw := Erase(n.raw, key)), other) == Read(n, other)
  {
  }

  /** After resizing to `m`, an index below `m` reads as before (or as a
      hole past the old end), and every index from `m` on reads undefined. */
  lemma ReadResize(n: Node, m: nat, i: nat)
    requires n.raw.Items?
    ensures Read(n.(raw := Items(Resize(n.raw.items, m))), Index(i)) == if i < m then Read(n, Index(i)) else Atom(Undef)
    ensures Read(n.(raw := Items(Resize(n.raw.items, m))), Length) == Atom(Num(m))
  {
  }
}

=== FILE: debounce.dfy ===
/** The per-node debouncer of `reactive` (src/reactive.ts:117-139): a
    sequence counter `uid`, a `consuming` flag raised when a watcher reads the
    current deferred, and `gen`, the number of the deferred currently
    installed (a fresh one replaces it after every resolution).

    The microtask queue of the library is made explicit: `Schedule` returns
    the tag to enqueue, and `Fire` is the microtask running later. */
module Debounce {
  import opened Values

  datatype Debouncer = Debouncer(uid: nat, consuming: bool, gen: nat)

  /** A node starts with uid 0, nobody consuming, and its first deferred. */
  const Initial := Debouncer(0, false, 0)

  /** The scheduling half of `notify`: while `consuming` holds, bump `uid`
      and schedule a resolution tagged with the bumped value. */
  function Schedule(d: Debouncer): (r: (Debouncer, Option<nat>))
    ensures r.0.consuming == d.consuming && r.0.gen == d.gen
    ensures r.1.Some? <==> d.consuming
    ensures r.1.Some? ==> r.1.value == r.0.uid == d.uid + 1
    ensures r.1.None? ==> r.0 == d
  {
    if d.consuming then
      var next := d.(uid := d.uid + 1);
      (next, Some(next.uid))
    else
      (d, None)
  }

  /** `doResolve(n)`: a resolution fires only when `n` is the latest tag;
      firing resolves the current deferred, installs the next one and stops
      consuming until a watcher asks again. */
  function Fire(d: Debouncer, n: nat): (r: (Debouncer, bool))
    ensures r.1 <==> n == d.uid
    ensures r.1 ==> r.0 == Debouncer(d.uid, false, d.gen + 1)
    ensures !r.1 ==> r.0 == d
  {
    if n != d.uid then (d, false)
    else (Debouncer(d.uid, false, d.gen + 1), true)
  }

  /** Reading `internal.promise` (src/reactive.ts:215-218). */
  function Subscribe(d: Debouncer): (r: Debouncer)
    ensures r.consuming && r.uid == d.uid && r.gen == d.gen
  {
    d.(consuming := true)
  }

  /** `m` synchronous notifications in a row: the new state and the tags
      scheduled, in order. */
  function ScheduleMany(d: Debouncer, m: nat): (Debouncer, seq<nat>)
    decreases m
  {
    if m == 0 then (d, [])
    else
      var step := Schedule(d);
      var rest := ScheduleMany(step.0, m - 1);
      (rest.0, (if step.1.Some? then [step.1.value] else []) + rest.1)
  }

  /** Running the scheduled microtasks in order: the final state and the
      positions (in `tags`) of the microtasks that resolved the deferred. */
  function FireAll(d: Debouncer, tags: seq<nat>): (Debouncer, seq<nat>)
    decreases |tags|
  {
    if tags == [] then (d, [])
    else
      var step := Fire(d, tags[0]);
      var rest := FireAll(step.0, tags[1..]);
      (rest.0, (if step.1 then [0] else []) + Shift(rest.1))
  }

  function Shift(ps: seq<nat>): (r: seq<nat>)
    ensures |r| == |ps|
    ensures forall i :: 0 <= i < |ps| ==> r[i] == ps[i] + 1
  {
    seq(|ps|, i requires 0 <= i < |ps| => ps[i] + 1)
  }

  /** While a watcher is consuming, `m` notifications schedule the tags
      uid+1 .. uid+m, in order, and leave `uid` at the last of them. */
  lemma {:induction false} ScheduleManyTags(d: Debouncer, m: nat)
    requires d.consuming
    ensures ScheduleMany(d, m).0 == d.(uid := d.uid + m)
    ensures |ScheduleMany(d, m).1| == m
    ensures forall i :: 0 <= i < m ==> ScheduleMany(d, m).1[i] == d.uid + 1 + i
    decreases m
  {
    if m > 0 {
      var d1 := d.(uid := d.uid + 1);
      ScheduleManyTags(d1, m - 1);
    }
  }

  /** With nobody consuming, notifications schedule nothing. */
  lemma {:induction false} ScheduleManyIdle(d: Debouncer, m: nat)
    requires !d.consuming
    ensures ScheduleMany(d, m) == (d, [])
    decreases m
  {
    if m > 0 {
      ScheduleManyIdle(d, m - 1);
      assert Schedule(d) == (d, None);
      assert ScheduleMany(d, m).1 == [] + [];
    }
  }

  /** Tags that are all older than the current uid never fire. */
  lemma {:induction false} FireAllStale(d: Debouncer, tags: seq<nat>)
    requires forall i :: 0 <= i < |tags| ==> tags[i] < d.uid
    ensures FireAll(d, tags) == (d, [])
    decreases |tags|
  {
    if tags != [] {
      FireAllStale(d, tags[1..]);
      assert Fire(d, tags[0]) == (d, false);
      assert FireAll(d, tags).1 == [] + Shift([]);
    }
  }

  /** Coalescing: `m >= 1` synchronous notifications while consuming yield
      exactly one resolution, carried by the last scheduled microtask; after
      it a fresh deferred is installed and consuming is reset. */
  lemma {:induction false} Coalesce(d: Debouncer, m: nat)
    requires d.consuming && m >= 1
    ensures var (d1, tags) := ScheduleMany(d, m);
            FireAll(d1, tags) == (Debouncer(d.uid + m, false, d.gen + 1), [m - 1])
  {
    ScheduleManyTags(d, m);
    var (d1, tags) := ScheduleMany(d, m);
    assert d1.uid == d.uid + m;
    FireAllLast(d1, tags);
  }

  /** Ascending tags ending with the current uid: only the last fires. */
  lemma {:induction false} FireAllLast(d: Debouncer, tags: seq<nat>)
    requires |tags| >= 1 && tags[|tags| - 1] == d.uid
    requires forall i :: 0 <= i < |tags| - 1 ==> tags[i] < d.uid
    ensures FireAll(d, tags) == (Debouncer(d.uid, false, d.gen + 1), [|tags| - 1])
    decreases |tags|
  {
    if |tags| == 1 {
      assert FireAll(Debouncer(d.uid, false, d.gen + 1), tags[1..]) == (Debouncer(d.uid, false, d.gen + 1), []);
      assert Fire(d, tags[0]).1;
      assert Shift([]) == [];
      assert FireAll(d, tags).1 == [0] + Shift([]);
      assert FireAll(d, tags).1 == [|tags| - 1];
      assert FireAll(d, tags).0 == Debouncer(d.uid, false, d.gen + 1);
    } else {
      assert Fire(d, tags[0]) == (d, false);
      FireAllLast(d, tags[1..]);
      assert FireAll(d, tags[1..]) == (Debouncer(d.uid, false, d.gen + 1), [|tags| - 2]);
      var tail: seq<nat> := [|tags| - 2];
      assert Shift(tail) == [|tags| - 1];
      assert FireAll(d, tags).1 == [] + Shift(tail);
      assert FireAll(d, tags).0 == Debouncer(d.uid, false, d.gen + 1);
      assert FireAll(d, tags).1 == [|tags| - 1];
    }
  }
}

=== FILE: delivery.dfy ===
/** Debounced delivery across a burst of writes (src/reactive.ts:117-139):
    every write to a watched node schedules a resolution, but only the last
    one fires, so each waiting watcher is handed one snapshot, taken after
    the whole burst. */
module Delivery {
  import opened Values
  import opened Debounce
  import opened Arena
  import opened Propagation
  import opened Snapshots
  import opened Write
  import opened Api
  import opened ApiProperties

  /** Contents whose child slots name only nodes of `ks`. */
  predicate HoldsIn(raw: Shape<Slot>, ks: set<NodeId>) {
    forall i :: 0 <= i < |ValuesOf(raw)| && ValuesOf(raw)[i].Child? ==> ValuesOf(raw)[i].id in ks
  }

  /** Every contents in `raws` holds only nodes of `ks`. */
  predicate AllHoldIn(raws: seq<Shape<Slot>>, ks: set<NodeId>) {
    forall i :: 0 <= i < |raws| ==> HoldsIn(raws[i], ks)
  }

  lemma AllHoldInTail(raws: seq<Shape<Slot>>, ks: set<NodeId>)
    requires AllHoldIn(raws, ks) && raws != []
    ensures HoldsIn(raws[0], ks) && AllHoldIn(raws[1..], ks)
  {
    assert forall i :: 0 <= i < |raws[1..]| ==> raws[1..][i] == raws[i + 1];
  }

  lemma HoldsInChildIds(n: Node, raw: Shape<Slot>, ks: set<NodeId>)
    requires HoldsIn(raw, ks)
    ensures ChildIds(n.(raw := raw)) <= ks
  {
    assert SlotsOf(n.(raw := raw)) == ValuesOf(raw);
  }

  /** The writes of one synchronous burst: each stores new contents in
      node `x` and notifies it (the common tail of the `set` and
      `deleteProperty` traps). */
  function CommitAll(st: Store, x: NodeId, raws: seq<Shape<Slot>>): (r: Result<Store>)
    requires Closed(st) && x in st.nodes && AllHoldIn(raws, st.nodes.Keys)
    ensures r.Ok? ==> Closed(r.value) && r.value.nodes.Keys == st.nodes.Keys
    decreases |raws|
  {
    if raws == [] then Ok(st)
    else
      AllHoldInTail(raws, st.nodes.Keys);
      HoldsInChildIds(st.nodes[x], raws[0], st.nodes.Keys);
      var st1 :- Commit(st, x, raws[0]);
      CommitAll(st1, x, raws[1..])
  }

  /** The first write of a burst, then the rest. */
  lemma CommitAllCons(st: Store, x: NodeId, raws: seq<Shape<Slot>>)
    requires Closed(st) && x in st.nodes && AllHoldIn(raws, st.nodes.Keys) && raws != []
    requires ChildIds(st.nodes[x].(raw := raws[0])) <= st.nodes.Keys
    requires Commit(st, x, raws[0]).Ok?
    ensures AllHoldIn(raws[1..], Commit(st, x, raws[0]).value.nodes.Keys)
    ensures CommitAll(st, x, raws) == CommitAll(Commit(st, x, raws[0]).value, x, raws[1..])
  {
    AllHoldInTail(raws, st.nodes.Keys);
  }

  /** The resolutions of node `x` tagged `u + 1` to `u + m`, in order. */
  function Resolutions(x: NodeId, u: nat, m: nat): (r: seq<Task>)
    ensures |r| == m && forall i :: 0 <= i < m ==> r[i] == Resolve(x, u + 1 + i)
  {
    seq(m, i requires 0 <= i < m => Resolve(x, u + 1 + i))
  }

  lemma ResolutionsCons(x: NodeId, u: nat, m: nat)
    ensures Resolutions(x, u, m + 1) == [Resolve(x, u + 1)] + Resolutions(x, u + 1, m)
  {
    var a := Resolutions(x, u, m + 1);
    var b := [Resolve(x, u + 1)] + Resolutions(x, u + 1, m);
    assert forall i :: 0 <= i < m + 1 ==> a[i] == b[i];
  }

  lemma ResolutionsSnoc(x: NodeId, u: nat, m: nat)
    ensures Resolutions(x, u, m + 1) == Resolutions(x, u, m) + [Resolve(x, u + 1 + m)]
  {
    var a := Resolutions(x, u, m + 1);
    var b := Resolutions(x, u, m) + [Resolve(x, u + 1 + m)];
    assert forall i :: 0 <= i < m + 1 ==> a[i] == b[i];
  }

  /** `x` is a parentless node of a closed arena, and a watcher is
      consuming its deferred. */
  predicate Ready(st: Store, x: NodeId) {
    Closed(st) && x in st.nodes && st.nodes[x].conn.None? && st.nodes[x].deb.consuming
  }

  /** `r` is `st` after one write of `raw` to the parentless node `x`. */
  predicate Written(st: Store, r: Store, x: NodeId, raw: Shape<Slot>)
    requires x in st.nodes
  {
    && Closed(r) && r.nodes.Keys == st.nodes.Keys
    && x in r.nodes && r.nodes[x].raw == raw && r.nodes[x].dirty && r.nodes[x].conn.None?
    && r.nodes[x].deb == Schedule(st.nodes[x].deb).0
    && r.queue == st.queue + Scheduling(x, st.nodes[x].deb)
    && r.subs == st.subs && r.delivered == st.delivered
  }

  /** One write to a parentless node: the contents are stored, the node is
      dirty, and while a watcher is consuming one resolution tagged with the
      bumped `uid` is queued (src/reactive.ts:128-139). */
  lemma CommitRoot(st: Store, x: NodeId, raw: Shape<Slot>)
    requires Closed(st) && x in st.nodes && st.nodes[x].conn.None? && HoldsIn(raw, st.nodes.Keys)
    ensures ChildIds(st.nodes[x].(raw := raw)) <= st.nodes.Keys
    ensures Commit(st, x, raw).Ok? && Written(st, Commit(st, x, raw).value, x, raw)
  {
    HoldsInChildIds(st.nodes[x], raw, st.nodes.Keys);
    var st1 := Update(st, x, st.nodes[x].(raw := raw));
    RootChain(st1, x);
    RootChain(st, x);
    assert Commit(st, x, raw) == Notify(st1, x);
    assert [x][1..] == [];
    assert Scheduled(st1, [x]) == Scheduling(x, st.nodes[x].deb);
  }

  /** Between `st` and `r`, node `x` was notified `m` times while a
      watcher consumed it: `uid` rose by `m`, the resolutions tagged with
      each new value were queued in order, and the node stayed a root. */
  predicate Burst(st: Store, r: Store, x: NodeId, m: nat)
    requires x in st.nodes
  {
    var d := st.nodes[x].deb;
    && x in r.nodes && r.nodes[x].conn.None?
    && r.nodes[x].deb == Debouncer(d.uid + m, true, d.gen)
    && r.queue == st.queue + Resolutions(x, d.uid, m)
    && r.subs == st.subs && r.delivered == st.delivered
  }

  /** `r` is `st` after the writes `raws` to `x`: closed, the burst
      recorded, and the last contents stored with the node dirty (or the
      node untouched when there was no write). */
  predicate BurstDone(st: Store, r: Store, x: NodeId, raws: seq<Shape<Slot>>)
    requires x in st.nodes
  {
    && Closed(r) && Burst(st, r, x, |raws|)
    && (|raws| == 0 ==> r.nodes[x] == st.nodes[x])
    && (|raws| > 0 ==> r.nodes[x].raw == raws[|raws| - 1] && r.nodes[x].dirty)
  }

  lemma BurstTrans(st: Store, st1: Store, r: Store, x: NodeId, m: nat)
    requires x in st.nodes && Burst(st, st1, x, 1) && Burst(st1, r, x, m)
    ensures Burst(st, r, x, m + 1)
  {
    var u := st.nodes[x].deb.uid;
    ResolutionsCons(x, u, m);
    assert Resolutions(x, u, 1) == [Resolve(x, u + 1)];
    Appended(st.queue, [Resolve(x, u + 1)], Resolutions(x, u + 1, m), st1.queue, r.queue);
  }

  /** The first write of a burst to a consumed root, and what is left. */
  lemma FirstWrite(st: Store, x: NodeId, raws: seq<Shape<Slot>>) returns (st1: Store)
    requires Ready(st, x) && AllHoldIn(raws, st.nodes.Keys) && raws != []
    ensures Written(st, st1, x, raws[0]) && AllHoldIn(raws[1..], st1.nodes.Keys)
    ensures CommitAll(st, x, raws) == CommitAll(st1, x, raws[1..])
  {
    AllHoldInTail(raws, st.nodes.Keys);
    CommitRoot(st, x, raws[0]);
    CommitAllCons(st, x, raws);
    st1 := Commit(st, x, raws[0]).value;
  }

  lemma WrittenReady(st: Store, st1: Store, x: NodeId, raw: Shape<Slot>)
    requires Ready(st, x) && Written(st, st1, x, raw)
    ensures Ready(st1, x) && Burst(st, st1, x, 1)
  {
    var u := st.nodes[x].deb.uid;
    assert Scheduling(x, st.nodes[x].deb) == [Resolve(x, u + 1)];
    assert Resolutions(x, u, 1) == [Resolve(x, u + 1)];
  }

  /** A burst of `m` writes to a parentless node a watcher consumes: `uid`
      rises by `m` and the resolutions tagged `uid + 1` to `uid + m` are
      queued, in order; the node holds the last contents written. */
  lemma {:induction false} CommitAllRoot(st: Store, x: NodeId, raws: seq<Shape<Slot>>) returns (r: Store)
    requires Ready(st, x) && AllHoldIn(raws, st.nodes.Keys)
    ensures CommitAll(st, x, raws) == Ok(r) && BurstDone(st, r, x, raws)
    decreases |raws|
  {
    if raws == [] {
      assert st.queue + Resolutions(x, st.nodes[x].deb.uid, 0) == st.queue;
      r := st;
    } else {
      var st1 := FirstWrite(st, x, raws);
      WrittenReady(st, st1, x, raws[0]);
      r := CommitAllRoot(st1, x, raws[1..]);
      BurstStep(st, x, raws, st1, r);
    }
  }

  /** The first write of a burst followed by the rest is the whole burst. */
  lemma BurstStep(st: Store, x: NodeId, raws: seq<Shape<Slot>>, st1: Store, r: Store)
    requires x in st.nodes && raws != [] && x in st1.nodes
    requires Written(st, st1, x, raws[0]) && Burst(st, st1, x, 1)
    requires BurstDone(st1, r, x, raws[1..])
    ensures BurstDone(st, r, x, raws)
  {
    BurstTrans(st, st1, r, x, |raws| - 1);
    if |raws| > 1 {
      assert raws[1..][|raws| - 2] == raws[|raws| - 1];
    }
  }

  /** The next `k` microtasks, run in order. This names `Run` without
      recursion of its own, so that a statement about `Steps` unfolds
      the run by one level only. */
  function Steps(st: Store, k: nat): (r: Store)
    requires Linked(st)
    ensures Linked(r)
  {
    Run(st, k)
  }

  /** The recursion behind `Steps`: the first microtask, then the next
      `k - 1`. */
  function Run(st: Store, k: nat): (r: Store)
    requires Linked(st)
    ensures Linked(r)
    decreases k
  {
    if k == 0 then st else Run(Step(st), k - 1)
  }

  lemma {:induction false} RunLast(st: Store, k: nat)
    requires Linked(st)
    ensures Run(st, k + 1) == Step(Run(st, k))
    decreases k
  {
    if k > 0 {
      RunLast(Step(st), k - 1);
    }
  }

  /** Draining microtasks changes no node's contents or connection, keeps
      the arena closed, and keeps every registration stamp below the
      counter, so the delivery-order lemmas apply again after any drain. */
  lemma {:induction false} RunKeeps(st: Store, k: nat)
    requires Linked(st)
    ensures Run(st, k).nodes.Keys == st.nodes.Keys
    ensures forall y :: y in st.nodes ==>
              Run(st, k).nodes[y].raw == st.nodes[y].raw && Run(st, k).nodes[y].conn == st.nodes[y].conn
    ensures Closed(st) ==> Closed(Run(st, k))
    ensures RegsBelow(st) ==> RegsBelow(Run(st, k))
    decreases k
  {
    if k > 0 {
      RunKeeps(Step(st), k - 1);
    }
  }

  lemma StepsLast(st: Store, k: nat)
    requires Linked(st)
    ensures Steps(st, k + 1) == Step(Steps(st, k))
  {
    RunLast(st, k);
  }

  /** Resolutions whose tags are behind the node's `uid` run and do
      nothing: each is dropped from the queue (src/reactive.ts:121-122). */
  lemma {:induction false} DrainStale(st: Store, x: NodeId, v: nat, j: nat, tail: seq<Task>)
    requires Linked(st) && x in st.nodes && v + j < st.nodes[x].deb.uid
    requires st.queue == Resolutions(x, v, j) + tail
    ensures Steps(st, j) == st.(queue := tail)
    decreases j
  {
    if j == 0 {
      assert st.queue == tail;
    } else {
      StepResolveStale(st, x, v + 1);
      var st1 := st.(queue := st.queue[1..]);
      ResolutionsCons(x, v, j - 1);
      assert st1.queue == Resolutions(x, v + 1, j - 1) + tail;
      DrainStale(st1, x, v + 1, j - 1, tail);
    }
  }

  /** The leaves of `snap` are those of `raw`, position for position. */
  predicate LeavesOf(raw: Shape<Slot>, snap: Snap) {
    && |ValuesOf(snap.body)| == |ValuesOf(raw)|
    && forall i :: 0 <= i < |ValuesOf(raw)| && ValuesOf(raw)[i].Leaf? ==>
         ValuesOf(snap.body)[i] == SLeaf(ValuesOf(raw)[i].p)
  }

  lemma SnapOfLeaves(id: NodeId, n: Node, snap: Snap, st: Store)
    requires SnapOf(id, n, snap, st)
    ensures LeavesOf(n.raw, snap)
  {
    forall i | 0 <= i < |ValuesOf(n.raw)| && ValuesOf(n.raw)[i].Leaf?
      ensures ValuesOf(snap.body)[i] == SLeaf(ValuesOf(n.raw)[i].p)
    {
      assert SlotSnap(SlotsOf(n)[i], ValuesOf(snap.body)[i], id, n.cache, st);
    }
  }

  lemma DrainToLast(c: Store, x: NodeId, u: nat, m: nat)
    requires Linked(c) && x in c.nodes && m >= 1 && c.nodes[x].deb.uid == u + m
    requires c.queue == Resolutions(x, u, m)
    ensures Steps(c, m) == Step(c.(queue := [Resolve(x, c.nodes[x].deb.uid)]))
  {
    ResolutionsSnoc(x, u, m - 1);
    DrainStale(c, x, u, m - 1, [Resolve(x, u + m)]);
    StepsLast(c, m - 1);
  }

  /** The current resolution of a dirty node, run with nothing else
      queued: the deferred is resolved with the rebuilt snapshot, which
      carries the node's leaves (src/reactive.ts:121-126). */
  lemma FireLast(c: Store, x: NodeId) returns (r: Store)
    requires Linked(c) && x in c.nodes && c.nodes[x].dirty
    ensures r == Step(c.(queue := [Resolve(x, c.nodes[x].deb.uid)]))
    ensures var d := c.nodes[x].deb;
            && x in r.nodes && r.nodes[x].deb == Debouncer(d.uid, false, d.gen + 1)
            && r.queue == Consumptions(Waiting(c.subs, x, d.gen), r.nodes[x].cache)
            && r.subs == c.subs && r.delivered == c.delivered
            && LeavesOf(c.nodes[x].raw, r.nodes[x].cache)
  {
    var st := c.(queue := [Resolve(x, c.nodes[x].deb.uid)]);
    var snap := Compute(st, x).0;
    SnapOfLeaves(x, st.nodes[x], snap, Compute(st, x).1);
    assert st.queue[1..] == [];
    r := Step(st);
  }

  /** What the watchers of `x` are owed once a burst of `m` writes, the
      last of contents `raw`, has been delivered: the deferred was resolved
      once, each subscription waiting on it gets one consumption, and all
      carry the node's snapshot, whose leaves are those of `raw`. */
  predicate Delivered(st: Store, x: NodeId, m: nat, raw: Shape<Slot>, r: Store)
    requires x in st.nodes
  {
    var d := st.nodes[x].deb;
    && x in r.nodes && r.nodes[x].deb == Debouncer(d.uid + m, false, d.gen + 1)
    && r.queue == Consumptions(Waiting(st.subs, x, d.gen), r.nodes[x].cache)
    && r.subs == st.subs && r.delivered == st.delivered
    && LeavesOf(raw, r.nodes[x].cache)
  }

  /** A dirty node's `m` queued resolutions, run: the stale ones are
      dropped and the current one fires, so the deferred the watchers wait
      on is resolved once with the node's rebuilt snapshot. */
  lemma DrainFire(c: Store, x: NodeId, u: nat, m: nat) returns (r: Store)
    requires Linked(c) && x in c.nodes && c.nodes[x].dirty && m >= 1
    requires c.nodes[x].deb.uid == u + m && c.queue == Resolutions(x, u, m)
    ensures Steps(c, m) == r
    ensures var e := c.nodes[x].deb;
            && x in r.nodes && r.nodes[x].deb == Debouncer(e.uid, false, e.gen + 1)
            && r.queue == Consumptions(Waiting(c.subs, x, e.gen), r.nodes[x].cache)
            && r.subs == c.subs && r.delivered == c.delivered
            && LeavesOf(c.nodes[x].raw, r.nodes[x].cache)
  {
    DrainToLast(c, x, u, m);
    r := FireLast(c, x);
  }

  lemma Drain(st: Store, x: NodeId, raws: seq<Shape<Slot>>, c: Store) returns (r: Store)
    requires x in st.nodes && st.nodes[x].deb.consuming && st.queue == [] && |raws| >= 1
    requires BurstDone(st, c, x, raws)
    ensures Linked(c) && Steps(c, |raws|) == r
    ensures |c.queue| == |raws| && Delivered(st, x, |raws|, raws[|raws| - 1], r)
  {
    assert c.queue == Resolutions(x, st.nodes[x].deb.uid, |raws|);
    r := DrainFire(c, x, st.nodes[x].deb.uid, |raws|);
  }

  /** Debouncing (test/reactive.test.ts:220-231; src/reactive.ts:117-139):
      a watched parentless node written `m` times in one synchronous burst
      queues `m` resolutions; once they have run, the deferred was resolved
      once, every watcher waiting on it gets one consumption, and all carry
      the same snapshot, rebuilt from the contents of the last write. */
  lemma DebouncedDelivery(st: Store, x: NodeId, raws: seq<Shape<Slot>>) returns (c: Store, r: Store)
    requires Ready(st, x) && st.queue == [] && |raws| >= 1 && AllHoldIn(raws, st.nodes.Keys)
    ensures CommitAll(st, x, raws) == Ok(c) && |c.queue| == |raws|
    ensures Linked(c) && Steps(c, |raws|) == r
    ensures Delivered(st, x, |raws|, raws[|raws| - 1], r)
  {
    c := CommitAllRoot(st, x, raws);
    r := Drain(st, x, raws, c);
  }
}

=== FILE: mergeprops.dfy ===
/** What `merge` (src/util.ts:16-42) does to its target: the source's
    entries are assigned one after another, in enumeration order, so the
    last entry under a key decides what the key holds, and keys the source
    does not have are left alone. */
module MergeProperties {
  import opened Values
  import opened Arena
  import opened Write
  import opened WriteProperties

  /** The value of the last entry under `k`, if any. */
  function LastFor(es: seq<(Key, Value)>, k: Key): (r: Option<Value>)
    ensures r.None? <==> forall j :: 0 <= j < |es| ==> es[j].0 != k
    decreases |es|
  {
    if es == [] then None
    else
      match LastFor(es[1..], k)
      case Some(v) => Some(v)
      case None => if es[0].0 == k then Some(es[0].1) else None
  }

  /** Every entry of an array sits under its own index. */
  lemma {:induction false} LastForItems(xs: seq<Value>, i: nat)
    ensures LastFor(Entries(Items(xs)), Index(i)) == if i < |xs| then Some(xs[i]) else None
    decreases |xs|
  {
    var es := Entries(Items(xs));
    if i < |xs| {
      LastForUnique(es, i);
    }
  }

  /** When only entry `i` has its key, that entry decides. */
  lemma {:induction false} LastForUnique(es: seq<(Key, Value)>, i: nat)
    requires i < |es| && forall j :: 0 <= j < |es| && j != i ==> es[j].0 != es[i].0
    ensures LastFor(es, es[i].0) == Some(es[i].1)
    decreases |es|
  {
    if i > 0 {
      LastForUnique(es[1..], i - 1);
    } else {
      assert LastFor(es[1..], es[0].0).None?;
    }
  }

  /** Merging entries, read back at any name or index `k`: a key no entry
      has keeps what it read before; a key whose last entry is a primitive
      reads as that primitive. */
  lemma {:induction false} MergeEntriesReads(st: Store, t: NodeId, es: seq<(Key, Value)>, fuel: nat, k: Key)
    requires Closed(st) && t in st.nodes && EntriesRefsIn(st.nodes.Keys, es)
    requires forall j :: 0 <= j < |es| ==> es[j].0.Name? || es[j].0.Index?
    requires (k.Name? || k.Index?) && MergeEntries(st, t, es, fuel).Ok?
    ensures t in MergeEntries(st, t, es, fuel).value.nodes
    ensures LastFor(es, k).None? ==>
              Read(MergeEntries(st, t, es, fuel).value.nodes[t], k) == Read(st.nodes[t], k)
    ensures LastFor(es, k).Some? && LastFor(es, k).value.Atom? ==>
              Read(MergeEntries(st, t, es, fuel).value.nodes[t], k) == LastFor(es, k).value
    decreases |es|
  {
    if es != [] {
      var st1 := Assign(st, t, es[0].0, es[0].1, fuel).value;
      EntriesRefsInGrow(st.nodes.Keys, st1.nodes.Keys, es[1..]);
      assert MergeEntries(st, t, es, fuel) == MergeEntries(st1, t, es[1..], fuel);
      MergeEntriesReads(st1, t, es[1..], fuel, k);
      AssignReads(st, t, es[0].0, es[0].1, fuel, k);
    }
  }

  /** `merge` runs the source's entries strictly one after another: merging
      `es1 + es2` is merging `es1`, then `es2` into the result. */
  lemma {:induction false} MergeEntriesSplit(st: Store, t: NodeId, es1: seq<(Key, Value)>, es2: seq<(Key, Value)>, fuel: nat)
    requires Closed(st) && t in st.nodes && EntriesRefsIn(st.nodes.Keys, es1 + es2)
    ensures EntriesRefsIn(st.nodes.Keys, es1) && EntriesRefsIn(st.nodes.Keys, es2)
    ensures match MergeEntries(st, t, es1, fuel)
            case Err(e) => MergeEntries(st, t, es1 + es2, fuel) == Err(e)
            case Ok(st1) =>
              && EntriesRefsIn(st1.nodes.Keys, es2)
              && MergeEntries(st1, t, es2, fuel) == MergeEntries(st, t, es1 + es2, fuel)
    decreases |es1|
  {
    EntriesRefsInAppend(st.nodes.Keys, es1, es2);
    if es1 == [] {
      assert es1 + es2 == es2;
    } else {
      var st1 := Assign(st, t, es1[0].0, es1[0].1, fuel);
      assert (es1 + es2)[1..] == es1[1..] + es2;
      assert (es1 + es2)[0] == es1[0];
      if st1.Ok? {
        EntriesRefsInGrow(st.nodes.Keys, st1.value.nodes.Keys, es1[1..] + es2);
        MergeEntriesSplit(st1.value, t, es1[1..], es2, fuel);
        match MergeEntries(st1.value, t, es1[1..], fuel)
        case Err(_) =>
        case Ok(st2) =>
          EntriesRefsInGrow(st.nodes.Keys, st2.nodes.Keys, es2);
      }
    }
  }

  lemma EntriesRefsInAppend(ks: set<NodeId>, es1: seq<(Key, Value)>, es2: seq<(Key, Value)>)
    requires EntriesRefsIn(ks, es1 + es2)
    ensures EntriesRefsIn(ks, es1) && EntriesRefsIn(ks, es2)
  {
    assert forall j :: 0 <= j < |es1| ==> es1[j] == (es1 + es2)[j];
    assert forall j :: 0 <= j < |es2| ==> es2[j] == (es1 + es2)[|es1| + j];
  }

  /** Array merge: after `merge(target, xs)` each index below `xs.length`
      whose item is a primitive holds that item, and every index from
      `xs.length` on is untouched (src/util.ts:17-20). */
  lemma MergeItems(st: Store, t: NodeId, xs: seq<Value>, fuel: nat, i: nat)
    requires Closed(st) && t in st.nodes && RefsIn(st.nodes.Keys, Plain(Items(xs)))
    requires Merge(st, t, Plain(Items(xs)), fuel).Ok?
    ensures st.nodes[t].Kind() == Sequence && t in Merge(st, t, Plain(Items(xs)), fuel).value.nodes
    ensures i < |xs| && xs[i].Atom? ==> Read(Merge(st, t, Plain(Items(xs)), fuel).value.nodes[t], Index(i)) == xs[i]
    ensures i >= |xs| ==> Read(Merge(st, t, Plain(Items(xs)), fuel).value.nodes[t], Index(i)) == Read(st.nodes[t], Index(i))
  {
    var es := Entries(Items(xs));
    SourceEntriesRefsIn(st, Plain(Items(xs)));
    assert Merge(st, t, Plain(Items(xs)), fuel) == MergeEntries(st, t, es, fuel);
    LastForItems(xs, i);
    MergeEntriesReads(st, t, es, fuel, Index(i));
  }

  /** Object merge: a name the source does not have is untouched; a name
      whose (last) source field is a primitive holds it (src/util.ts:25-31). */
  lemma MergeFields(st: Store, t: NodeId, fs: seq<(string, Value)>, fuel: nat, name: string)
    requires Closed(st) && t in st.nodes && RefsIn(st.nodes.Keys, Plain(Fields(fs)))
    requires Merge(st, t, Plain(Fields(fs)), fuel).Ok?
    ensures st.nodes[t].Kind() == Mapping && t in Merge(st, t, Plain(Fields(fs)), fuel).value.nodes
    ensures (forall j :: 0 <= j < |fs| ==> fs[j].0 != name) ==>
              Read(Merge(st, t, Plain(Fields(fs)), fuel).value.nodes[t], Name(name)) == Read(st.nodes[t], Name(name))
    ensures var last := LastFor(Entries(Fields(fs)), Name(name));
            last.Some? && last.value.Atom? ==>
              Read(Merge(st, t, Plain(Fields(fs)), fuel).value.nodes[t], Name(name)) == last.value
  {
    var es := Entries(Fields(fs));
    SourceEntriesRefsIn(st, Plain(Fields(fs)));
    assert Merge(st, t, Plain(Fields(fs)), fuel) == MergeEntries(st, t, es, fuel);
    MergeEntriesReads(st, t, es, fuel, Name(name));
  }
  // ---------------------------------------------------------------------
  // What a copy holds.

  /** The entries `merge` visits sit under names or indices. */
  lemma SourceKeys(st: Store, v: Value)
    ensures forall j :: 0 <= j < |SourceEntries(st, v)| ==>
              SourceEntries(st, v)[j].0.Name? || SourceEntries(st, v)[j].0.Index?
  {
    match v
    case Atom(_) =>
    case Plain(c) =>
    case Ref(c) =>
      if c in st.nodes {
        var es := SourceEntries(st, v);
        forall j | 0 <= j < |es|
          ensures es[j].0.Name? || es[j].0.Index?
        {
          assert es[j].0 == Entries(st.nodes[c].raw)[j].0;
        }
      }
  }

  /** Node `n` reads, at name or index `k`, what a copy of source `v`
      holds there: undefined when no entry of `v` has the key, the primitive
      when the key's last entry is one. */
  predicate CopyOf(st: Store, v: Value, n: Node, k: Key) {
    var last := LastFor(SourceEntries(st, v), k);
    && (last.None? ==> Read(n, k) == Atom(Undef))
    && (last.Some? && last.value.Atom? ==> Read(n, k) == last.value)
  }

  /** The fresh node `reactive(v)` makes is a copy of `v`: an empty node
      of the same kind into which `v`'s entries were merged
      (src/reactive.ts:79-81, 221). */
  lemma WrapReads(st: Store, v: Value, fuel: nat, k: Key)
    requires Closed(st) && RefsIn(st.nodes.Keys, v) && (v.Plain? || v.Ref?)
    requires (k.Name? || k.Index?) && Wrap(st, v, fuel).Ok?
    ensures var (n, r) := Wrap(st, v, fuel).value;
            n in r.nodes && CopyOf(st, v, r.nodes[n], k)
  {
    var a := Alloc(st, ValueKind(st, v).value);
    RefsInGrow(st.nodes.Keys, a.1.nodes.Keys, v);
    var f := if v.Ref? then fuel - 1 else fuel;
    assert SourceEntries(a.1, v) == SourceEntries(st, v);
    assert ValueKind(a.1, v) == ValueKind(st, v);
    var es := SourceEntries(st, v);
    SourceEntriesRefsIn(a.1, v);
    SourceKeys(st, v);
    assert Merge(a.1, a.0, v, f) == MergeEntries(a.1, a.0, es, f);
    MergeEntriesReads(a.1, a.0, es, f, k);
    assert Read(a.1.nodes[a.0], k) == Atom(Undef);
  }

  /** Writing a node that already has a parent stores a copy of it: the
      new node holds the node's primitive entries
      (test/reactive.test.ts:168-195). */
  lemma CopyReads(st: Store, id: NodeId, key: Key, c: NodeId, fuel: nat, k: Key)
    requires Closed(st) && id in st.nodes && c in st.nodes && st.nodes[c].conn.Some?
    requires (key.Name? || key.Index?) && Read(st.nodes[id], key) != Ref(c)
    requires (k.Name? || k.Index?) && Assign(st, id, key, Ref(c), fuel).Ok?
    ensures var r := Assign(st, id, key, Ref(c), fuel).value;
            && id in r.nodes && st.nextNode in r.nodes
            && Read(r.nodes[id], key) == Ref(st.nextNode)
            && CopyOf(st, Ref(c), r.nodes[st.nextNode], k)
  {
    var r := Assign(st, id, key, Ref(c), fuel).value;
    AssignPlaced(st, id, key, Ref(c), fuel);
    AssignViaPlace(st, id, key, Ref(c), fuel);
    PlaceCopy(st, id, key, c, fuel);
    var w := Wrap(st, Ref(c), fuel).value;
    var p1 := Connect(w.1, w.0, id, key);
    AssignReads(st, id, key, Ref(c), fuel, key);
    WrapReads(st, Ref(c), fuel, k);
    CopyKept(p1, id, key, w.0, r);
    ReadSameContents(w.1.nodes[w.0], r.nodes[w.0], k);
  }

  /** A changing write under a name or an index succeeds only if placing
      the value does (src/reactive.ts:167-173). */
  lemma AssignPlaced(st: Store, id: NodeId, key: Key, v: Value, fuel: nat)
    requires Closed(st) && id in st.nodes && RefsIn(st.nodes.Keys, v)
    requires (key.Name? || key.Index?) && Read(st.nodes[id], key) != v
    requires Assign(st, id, key, v, fuel).Ok?
    ensures Fits(st.nodes[id].Kind(), key) && Place(st, id, key, v, fuel).Ok?
  {
  }

  /** Once placed, the write stores the slot (src/reactive.ts:175-182). */
  lemma AssignViaPlace(st: Store, id: NodeId, key: Key, v: Value, fuel: nat)
    requires Closed(st) && id in st.nodes && RefsIn(st.nodes.Keys, v)
    requires (key.Name? || key.Index?) && Read(st.nodes[id], key) != v
    requires Fits(st.nodes[id].Kind(), key) && Place(st, id, key, v, fuel).Ok?
    ensures var p := Place(st, id, key, v, fuel).value;
            && id in p.1.nodes && p.1.nodes[id].Kind() == st.nodes[id].Kind() && Closed(p.1)
            && (p.0.Child? ==> p.0.id in p.1.nodes)
            && WriteSlot(p.1, id, key, p.0) == Assign(st, id, key, v, fuel)
  {
  }

  /** A node that already has a parent is placed as a fresh copy
      (src/reactive.ts:167-173). */
  lemma PlaceCopy(st: Store, id: NodeId, key: Key, c: NodeId, fuel: nat)
    requires Closed(st) && id in st.nodes && c in st.nodes && st.nodes[c].conn.Some?
    requires Place(st, id, key, Ref(c), fuel).Ok?
    ensures Wrap(st, Ref(c), fuel).Ok?
    ensures var w := Wrap(st, Ref(c), fuel).value;
            && w.0 != id
            && Place(st, id, key, Ref(c), fuel).value == (Child(w.0), Connect(w.1, w.0, id, key))
  {
  }

  /** Storing the copy under `key` keeps the copy's contents. */
  lemma CopyKept(p1: Store, id: NodeId, key: Key, w: NodeId, r: Store)
    requires Closed(p1) && id in p1.nodes && w in p1.nodes && w != id
    requires (key.Name? || key.Index?) && Fits(p1.nodes[id].Kind(), key)
    requires WriteSlot(p1, id, key, Child(w)) == Ok(r)
    ensures w in r.nodes && r.nodes[w].raw == p1.nodes[w].raw && r.nodes[w].syms == p1.nodes[w].syms
  {
    var d := DetachAt(p1, id, key);
    assert d.nodes[w].raw == p1.nodes[w].raw && d.nodes[w].syms == p1.nodes[w].syms;
  }
}

=== FILE: notify.dfy ===
/** `notify` (src/reactive.ts:128-139): mark the node dirty, schedule a
    debounced resolution while a watcher is consuming, and repeat on the
    parent, all the way up the connection chain. */
module Propagation {
  import opened Values
  import opened Debounce
  import opened Arena

  /** The connection chain from `id`: the node, its parent, its grandparent,
      ... up to a node with no parent. Revisiting a node means the chain is
      a cycle, on which the code recurses until the stack is exhausted. */
  function Path(st: Store, id: NodeId, seen: set<NodeId>): (r: Result<seq<NodeId>>)
    requires id in st.nodes
    ensures r.Ok? ==> |r.value| >= 1 && r.value[0] == id
    ensures r.Ok? ==> forall i :: 0 <= i < |r.value| ==> r.value[i] in st.nodes && r.value[i] !in seen
    ensures r.Ok? ==> forall i, j :: 0 <= i < j < |r.value| ==> r.value[i] != r.value[j]
    ensures r.Ok? ==> forall i :: 0 <= i < |r.value| - 1 ==>
              st.nodes[r.value[i]].conn.Some? && st.nodes[r.value[i]].conn.value.parent == r.value[i + 1]
    ensures r.Ok? ==> st.nodes[r.value[|r.value| - 1]].conn.None?
    ensures id in seen ==> r.Err?
    decreases |st.nodes.Keys - seen|
  {
    if id in seen then Err(StackOverflow)
    else
      match st.nodes[id].conn
      case None => Ok([id])
      case Some(c) =>
        if c.parent !in st.nodes then Err(StackOverflow)
        else
          var unseen := st.nodes.Keys - seen;
          assert st.nodes.Keys - (seen + {id}) == unseen - {id};
          assert |unseen - {id}| == |unseen| - 1;
          var rest :- Path(st, c.parent, seen + {id});
          PathCons(st, id, seen, rest);
          Ok([id] + rest)
  }

  /** Prefixing a node to the chain of its parent. */
  lemma PathCons(st: Store, id: NodeId, seen: set<NodeId>, rest: seq<NodeId>)
    requires id in st.nodes && id !in seen && st.nodes[id].conn.Some?
    requires |rest| >= 1 && rest[0] == st.nodes[id].conn.value.parent
    requires forall i :: 0 <= i < |rest| ==> rest[i] in st.nodes && rest[i] !in seen + {id}
    requires forall i, j :: 0 <= i < j < |rest| ==> rest[i] != rest[j]
    requires forall i :: 0 <= i < |rest| - 1 ==>
               st.nodes[rest[i]].conn.Some? && st.nodes[rest[i]].conn.value.parent == rest[i + 1]
    ensures forall i :: 0 <= i < |[id] + rest| ==> ([id] + rest)[i] in st.nodes && ([id] + rest)[i] !in seen
    ensures forall i, j :: 0 <= i < j < |[id] + rest| ==> ([id] + rest)[i] != ([id] + rest)[j]
    ensures forall i :: 0 <= i < |[id] + rest| - 1 ==>
              st.nodes[([id] + rest)[i]].conn.Some? && st.nodes[([id] + rest)[i]].conn.value.parent == ([id] + rest)[i + 1]
  {
    var r := [id] + rest;
    forall i | 1 <= i < |r|
      ensures r[i] == rest[i - 1]
    {
    }
  }

  /** `ps` is a finite connection chain avoiding `seen`: distinct nodes,
      each connected to the next, the last connected to nothing. */
  predicate IsChain(st: Store, ps: seq<NodeId>, seen: set<NodeId>) {
    && |ps| >= 1
    && (forall i :: 0 <= i < |ps| ==> ps[i] in st.nodes && ps[i] !in seen)
    && (forall i, j :: 0 <= i < j < |ps| ==> ps[i] != ps[j])
    && (forall i :: 0 <= i < |ps| - 1 ==>
          st.nodes[ps[i]].conn.Some? && st.nodes[ps[i]].conn.value.parent == ps[i + 1])
    && st.nodes[ps[|ps| - 1]].conn.None?
  }

  /** Completeness of `Path`: whenever a finite chain from `id` exists,
      `Path` succeeds and returns exactly that chain, so the code's
      recursion ends after visiting it. */
  lemma {:induction false} PathOfChain(st: Store, id: NodeId, seen: set<NodeId>, ps: seq<NodeId>)
    requires IsChain(st, ps, seen) && ps[0] == id
    ensures Path(st, id, seen) == Ok(ps)
    decreases |ps|
  {
    if |ps| == 1 {
      assert ps == [id];
    } else {
      var rest := ps[1..];
      assert IsChain(st, rest, seen + {id}) by {
        forall i | 0 <= i < |rest|
          ensures rest[i] in st.nodes && rest[i] !in seen + {id}
        {
          assert rest[i] == ps[i + 1] && ps[0] != ps[i + 1];
        }
        forall i | 0 <= i < |rest| - 1
          ensures st.nodes[rest[i]].conn.Some? && st.nodes[rest[i]].conn.value.parent == rest[i + 1]
        {
          assert rest[i] == ps[i + 1] && rest[i + 1] == ps[i + 2];
        }
      }
      PathOfChain(st, ps[1], seen + {id}, rest);
      assert [id] + rest == ps;
    }
  }

  /** `Path` fails exactly when no finite chain from `id` avoids `seen`:
      the chain revisits a node or reaches a parent outside the arena. */
  lemma PathOkIff(st: Store, id: NodeId, seen: set<NodeId>)
    requires id in st.nodes
    ensures Path(st, id, seen).Ok? <==> exists ps :: IsChain(st, ps, seen) && ps[0] == id
  {
    if Path(st, id, seen).Ok? {
      assert IsChain(st, Path(st, id, seen).value, seen);
    } else if ps :| IsChain(st, ps, seen) && ps[0] == id {
      PathOfChain(st, id, seen, ps);
    }
  }

  function Ancestors(st: Store, id: NodeId): Result<seq<NodeId>>
    requires id in st.nodes
  {
    Path(st, id, {})
  }

  /** A node without a parent is its own whole chain. */
  lemma RootChain(st: Store, c: NodeId)
    requires c in st.nodes && st.nodes[c].conn.None?
    ensures Ancestors(st, c) == Ok([c])
  {
  }

  /** The two stores have the same nodes, connected the same way. */
  predicate SameConns(st: Store, st': Store) {
    && st'.nodes.Keys == st.nodes.Keys
    && forall x :: x in st.nodes ==> st'.nodes[x].conn == st.nodes[x].conn
  }

  /** The chain depends only on the connections. */
  lemma {:induction false} PathSame(st: Store, st': Store, id: NodeId, seen: set<NodeId>)
    requires id in st.nodes && SameConns(st, st')
    ensures Path(st, id, seen) == Path(st', id, seen)
    decreases |st.nodes.Keys - seen|
  {
    if id !in seen && st.nodes[id].conn.Some? {
      var c := st.nodes[id].conn.value;
      if c.parent in st.nodes {
        var unseen := st.nodes.Keys - seen;
        assert st.nodes.Keys - (seen + {id}) == unseen - {id};
        assert |unseen - {id}| == |unseen| - 1;
        PathSame(st, st', c.parent, seen + {id});
      }
    }
  }

  /** Only dirty bits and debouncers differ between the two stores. */
  predicate SameContents(st: Store, st': Store) {
    && st'.nodes.Keys == st.nodes.Keys
    && (forall x :: x in st.nodes ==>
          && st'.nodes[x].raw == st.nodes[x].raw
          && st'.nodes[x].syms == st.nodes[x].syms
          && st'.nodes[x].cache == st.nodes[x].cache
          && st'.nodes[x].conn == st.nodes[x].conn)
    && st'.nextNode == st.nextNode && st'.nextSnap == st.nextSnap
    && st'.subs == st.subs && st'.delivered == st.delivered && st'.nextReg == st.nextReg
  }

  lemma SameContentsTrans(st: Store, st1: Store, st2: Store)
    requires SameContents(st, st1) && SameContents(st1, st2)
    ensures SameContents(st, st2)
  {
  }

  /** What notifying `x` with debouncer `d` enqueues: a resolution
      numbered with the next `uid` while a watcher is consuming. */
  function Scheduling(x: NodeId, d: Debouncer): seq<Task> {
    if d.consuming then [Resolve(x, d.uid + 1)] else []
  }

  /** Marks one node dirty and schedules its debounced resolution. */
  function MarkOne(st: Store, id: NodeId): (r: Store)
    requires id in st.nodes
    ensures SameContents(st, r)
    ensures r.nodes[id].dirty && r.nodes[id].deb == Schedule(st.nodes[id].deb).0
    ensures forall x :: x in st.nodes && x != id ==> r.nodes[x] == st.nodes[x]
    ensures r.queue == st.queue + Scheduling(id, st.nodes[id].deb)
  {
    var n := st.nodes[id];
    var (deb, tag) := Schedule(n.deb);
    var st1 := Update(st, id, n.(dirty := true, deb := deb));
    match tag
    case None => st1
    case Some(t) => st1.(queue := st1.queue + [Resolve(id, t)])
  }

  /** The resolutions marking `path` schedules, in order: one per node a
      watcher is consuming, numbered with that node's next `uid`. */
  function Scheduled(st: Store, path: seq<NodeId>): seq<Task>
    requires forall i :: 0 <= i < |path| ==> path[i] in st.nodes
    decreases |path|
  {
    if path == [] then []
    else Scheduling(path[0], st.nodes[path[0]].deb) + Scheduled(st, path[1..])
  }

  lemma Appended<T>(q: seq<T>, a: seq<T>, b: seq<T>, q1: seq<T>, q2: seq<T>)
    requires q1 == q + a && q2 == q1 + b
    ensures q2 == q + (a + b)
  {
  }

  /** `Scheduled` reads only the debouncers of the chain's nodes. */
  lemma {:induction false} ScheduledSame(st: Store, st': Store, path: seq<NodeId>)
    requires forall i :: 0 <= i < |path| ==> path[i] in st.nodes && path[i] in st'.nodes
    requires forall i :: 0 <= i < |path| ==> st'.nodes[path[i]].deb == st.nodes[path[i]].deb
    ensures Scheduled(st', path) == Scheduled(st, path)
    decreases |path|
  {
    if path != [] {
      ScheduledSame(st, st', path[1..]);
    }
  }

  /** Marks every node of a chain, in order. */
  function MarkAll(st: Store, path: seq<NodeId>): Store
    requires forall i :: 0 <= i < |path| ==> path[i] in st.nodes
    decreases |path|
  {
    if path == [] then st
    else
      var st1 := MarkOne(st, path[0]);
      MarkAll(st1, path[1..])
  }

  /** Marking a chain changes nothing but dirty bits and debouncers, and
      leaves the nodes off the chain alone. */
  lemma {:induction false} MarkAllFrame(st: Store, path: seq<NodeId>)
    requires forall i :: 0 <= i < |path| ==> path[i] in st.nodes
    ensures SameContents(st, MarkAll(st, path))
    ensures forall x :: x in st.nodes && x !in path ==> MarkAll(st, path).nodes[x] == st.nodes[x]
    decreases |path|
  {
    if path != [] {
      var st1 := MarkOne(st, path[0]);
      MarkAllFrame(st1, path[1..]);
      SameContentsTrans(st, st1, MarkAll(st1, path[1..]));
    }
  }

  /** Every node of the chain ends up dirty. */
  lemma {:induction false} MarkAllDirty(st: Store, path: seq<NodeId>)
    requires forall i :: 0 <= i < |path| ==> path[i] in st.nodes
    ensures MarkAll(st, path).nodes.Keys == st.nodes.Keys
    ensures forall i :: 0 <= i < |path| ==> MarkAll(st, path).nodes[path[i]].dirty
    decreases |path|
  {
    MarkAllFrame(st, path);
    if path != [] {
      var st1 := MarkOne(st, path[0]);
      var tail := path[1..];
      MarkAllDirty(st1, tail);
      MarkAllFrame(st1, tail);
      var r := MarkAll(st1, tail);
      forall i | 0 <= i < |path|
        ensures r.nodes[path[i]].dirty
      {
        if i > 0 {
          assert path[i] == tail[i - 1];
        } else if path[0] !in tail {
          assert r.nodes[path[0]] == st1.nodes[path[0]];
        } else {
          var j :| 0 <= j < |tail| && tail[j] == path[0];
        }
      }
    }
  }

  /** The queue only grows, by resolutions of chain nodes. */
  lemma {:induction false} MarkAllQueue(st: Store, path: seq<NodeId>)
    requires forall i :: 0 <= i < |path| ==> path[i] in st.nodes
    ensures |st.queue| <= |MarkAll(st, path).queue|
    ensures MarkAll(st, path).queue[..|st.queue|] == st.queue
    ensures forall i :: |st.queue| <= i < |MarkAll(st, path).queue| ==>
              MarkAll(st, path).queue[i].Resolve? && MarkAll(st, path).queue[i].node in path
    decreases |path|
  {
    if path != [] {
      var st1 := MarkOne(st, path[0]);
      var tail := path[1..];
      MarkAllQueue(st1, tail);
      var r := MarkAll(st1, tail);
      assert r.queue[..|st1.queue|] == st1.queue;
      assert r.queue[..|st.queue|] == st1.queue[..|st.queue|] == st.queue;
      forall i | |st.queue| <= i < |r.queue|
        ensures r.queue[i].Resolve? && r.queue[i].node in path
      {
        if i >= |st1.queue| {
          var q := r.queue[i];
          assert q.node in tail;
        } else {
          assert r.queue[i] == st1.queue[i];
        }
      }
    }
  }

  /** Marking a chain of distinct nodes appends exactly the scheduled
      resolutions, in chain order. */
  lemma {:induction false} MarkAllScheduled(st: Store, path: seq<NodeId>)
    requires forall i :: 0 <= i < |path| ==> path[i] in st.nodes
    requires forall i, j :: 0 <= i < j < |path| ==> path[i] != path[j]
    ensures MarkAll(st, path).queue == st.queue + Scheduled(st, path)
    decreases |path|
  {
    if path != [] {
      var x := path[0];
      var st1 := MarkOne(st, x);
      var tail := path[1..];
      assert forall i :: 0 <= i < |tail| ==> tail[i] == path[i + 1] && tail[i] != x;
      MarkAllScheduled(st1, tail);
      ScheduledSame(st, st1, tail);
      Appended(st.queue, Scheduling(x, st.nodes[x].deb), Scheduled(st, tail), st1.queue, MarkAll(st1, tail).queue);
    }
  }

  /** Marking a chain of distinct nodes steps each node's debouncer
      exactly once. */
  lemma {:induction false} MarkAllDebs(st: Store, path: seq<NodeId>)
    requires forall i :: 0 <= i < |path| ==> path[i] in st.nodes
    requires forall i, j :: 0 <= i < j < |path| ==> path[i] != path[j]
    ensures MarkAll(st, path).nodes.Keys == st.nodes.Keys
    ensures forall i :: 0 <= i < |path| ==>
              MarkAll(st, path).nodes[path[i]].deb == Schedule(st.nodes[path[i]].deb).0
    decreases |path|
  {
    if path != [] {
      var x := path[0];
      var st1 := MarkOne(st, x);
      var tail := path[1..];
      assert forall i :: 0 <= i < |tail| ==> tail[i] == path[i + 1] && tail[i] != x;
      MarkAllDebs(st1, tail);
      MarkAllFrame(st1, tail);
      var r := MarkAll(st1, tail);
      assert r.nodes[x] == st1.nodes[x] by {
        assert x !in tail;
      }
      forall i | 1 <= i < |path|
        ensures r.nodes[path[i]].deb == Schedule(st.nodes[path[i]].deb).0
      {
        assert path[i] == tail[i - 1];
        assert st1.nodes[path[i]] == st.nodes[path[i]];
      }
    }
  }

  /** `notify()` on node `id`: every node on its connection chain ends up
      dirty, nothing else changes but debouncers and the queue; a cyclic
      chain exhausts the stack. */
  function Notify(st: Store, id: NodeId): (r: Result<Store>)
    requires id in st.nodes
    ensures r.Ok? <==> Ancestors(st, id).Ok?
    ensures r.Ok? ==> SameContents(st, r.value)
    ensures r.Ok? ==> forall x :: x in Ancestors(st, id).value ==> r.value.nodes[x].dirty
    ensures r.Ok? ==> forall x :: x in st.nodes && x !in Ancestors(st, id).value ==> r.value.nodes[x] == st.nodes[x]
    ensures r.Ok? ==> r.value.nodes[id].dirty
    ensures r.Ok? ==> Ancestors(r.value, id) == Ancestors(st, id)
    ensures r.Ok? ==> |st.queue| <= |r.value.queue| && r.value.queue[..|st.queue|] == st.queue
    ensures r.Ok? ==> forall i :: |st.queue| <= i < |r.value.queue| ==>
              r.value.queue[i].Resolve? && r.value.queue[i].node in Ancestors(st, id).value
    ensures r.Ok? ==> r.value.queue == st.queue + Scheduled(st, Ancestors(st, id).value)
    ensures r.Ok? ==> forall x :: x in Ancestors(st, id).value ==>
              r.value.nodes[x].deb == Schedule(st.nodes[x].deb).0
  {
    var path :- Ancestors(st, id);
    MarkAllFrame(st, path);
    MarkAllDirty(st, path);
    MarkAllQueue(st, path);
    MarkAllScheduled(st, path);
    MarkAllDebs(st, path);
    PathSame(st, MarkAll(st, path), id, {});
    Ok(MarkAll(st, path))
  }

  /** Notifying keeps the arena closed: contents are untouched. */
  lemma NotifyClosed(st: Store, id: NodeId)
    requires Closed(st) && id in st.nodes && Notify(st, id).Ok?
    ensures Closed(Notify(st, id).value)
  {
    var r := Notify(st, id).value;
    forall x | x in r.nodes
      ensures ChildIds(r.nodes[x]) <= r.nodes.Keys
    {
      assert SlotsOf(r.nodes[x]) == SlotsOf(st.nodes[x]);
    }
  }
}

=== FILE: setprops.dfy ===
/** What one write or delete does to the node written, the value written
    and the nodes around them (src/reactive.ts:148-203). */
module WriteProperties {
  import opened Values
  import opened Arena
  import opened Propagation
  import opened Write

  /** A changing write to an array's `length`: the value is a valid length,
      the items become the resized list, every child cut off is
      disconnected, and `id` and its chain are dirty
      (src/reactive.ts:157-165, 180-182). */
  lemma AssignLength(st: Store, id: NodeId, v: Value, fuel: nat)
    requires Closed(st) && id in st.nodes && RefsIn(st.nodes.Keys, v)
    requires Read(st.nodes[id], Length) != v && Assign(st, id, Length, v, fuel).Ok?
    ensures st.nodes[id].raw.Items? && v.Atom? && v.p.Num? && 0 <= v.p.n < LengthBound
    ensures LengthWritten(st, id, v.p.n, Assign(st, id, Length, v, fuel).value)
  {
    var r := SetLength(st, id, v).value;
    assert Assign(st, id, Length, v, fuel) == Ok(r);
    var st1 := DisconnectFrom(st, st.nodes[id].raw.items, v.p.n);
    LengthWrittenHolds(st, st1, id, v.p.n, r);
  }

  /** The effect of a changing `length` write. */
  predicate LengthWritten(st: Store, id: NodeId, m: nat, r: Store)
    requires id in st.nodes && st.nodes[id].raw.Items?
  {
    && id in r.nodes
    && r.nodes[id].raw == Items(Resize(st.nodes[id].raw.items, m))
    && (forall x :: x in st.nodes && x in Truncated(st.nodes[id].raw.items, m) ==> x in r.nodes && r.nodes[x].conn.None?)
    && Notified(r, id)
  }

  lemma LengthWrittenHolds(st: Store, st1: Store, id: NodeId, m: nat, r: Store)
    requires id in st.nodes && st.nodes[id].raw.Items? && st1.nodes.Keys == st.nodes.Keys
    requires forall x :: x in st.nodes && x in Truncated(st.nodes[id].raw.items, m) ==> st1.nodes[x].conn.None?
    requires Stored(st1, id, Items(Resize(st.nodes[id].raw.items, m)), r) && Marked(st1, id, r)
    ensures LengthWritten(st, id, m, r)
  {
  }

  /** Writing the value already stored, or writing under a symbol key,
      marks nothing and queues nothing; a symbol write stores the value
      as-is (src/reactive.ts:149-155). */
  lemma AssignSilent(st: Store, id: NodeId, key: Key, v: Value, fuel: nat)
    requires Closed(st) && id in st.nodes && RefsIn(st.nodes.Keys, v)
    requires Read(st.nodes[id], key) == v || key.Sym?
    ensures Assign(st, id, key, v, fuel).Ok?
    ensures SymbolsOnly(st, id, Assign(st, id, key, v, fuel).value)
    ensures Read(Assign(st, id, key, v, fuel).value.nodes[id], key) == v
  {
    if Read(st.nodes[id], key) != v {
      var n := st.nodes[id];
      var r := Update(st, id, n.(syms := n.syms[key.tag := v]));
      assert Assign(st, id, key, v, fuel) == Ok(r);
    }
  }

  /** Read-back after a write under a name or an index: the key reads as
      the value written, or as the node that now stands for it; every other
      name or index reads as before. */
  lemma AssignReads(st: Store, id: NodeId, key: Key, v: Value, fuel: nat, other: Key)
    requires Closed(st) && id in st.nodes && RefsIn(st.nodes.Keys, v)
    requires (key.Name? || key.Index?) && Assign(st, id, key, v, fuel).Ok?
    ensures var r := Assign(st, id, key, v, fuel).value;
            && id in r.nodes
            && Read(r.nodes[id], key) == (if v.Atom? || Read(st.nodes[id], key) == v then v else Ref(Placement(st, v).id))
            && ((other.Name? || other.Index?) && other != key ==> Read(r.nodes[id], other) == Read(st.nodes[id], other))
  {
    if Read(st.nodes[id], key) != v {
      SlotReads(st, id, key, v, Assign(st, id, key, v, fuel).value, other);
    }
  }

  lemma SlotReads(st: Store, id: NodeId, key: Key, v: Value, r: Store, other: Key)
    requires id in st.nodes && (key.Name? || key.Index?) && Fits(st.nodes[id].Kind(), key)
    requires SlotWritten(st, id, key, v, r)
    ensures Read(r.nodes[id], key) == SlotValue(Placement(st, v))
    ensures (other.Name? || other.Index?) && other != key ==> Read(r.nodes[id], other) == Read(st.nodes[id], other)
  {
    var n := st.nodes[id];
    var s := Placement(st, v);
    ReadPutSlot(n, key, s, other);
    ReadSameContents(n.(raw := PutSlot(n.raw, key, s)), r.nodes[id].(syms := n.syms), key);
    ReadSameContents(n.(raw := PutSlot(n.raw, key, s)), r.nodes[id].(syms := n.syms), other);
  }

  /** Placing a node that already has a parent stores a fresh node, not
      the node itself, and leaves the node where it was: the two slots
      hold different nodes from then on (src/reactive.ts:167-173). */
  lemma AssignCopiesConnected(st: Store, id: NodeId, key: Key, c: NodeId, fuel: nat)
    requires Closed(st) && id in st.nodes && c in st.nodes && st.nodes[c].conn.Some?
    requires (key.Name? || key.Index?) && Read(st.nodes[id], key) != Ref(c)
    requires Assign(st, id, key, Ref(c), fuel).Ok?
    ensures Copied(st, id, key, c, Assign(st, id, key, Ref(c), fuel).value)
  {
    var r := Assign(st, id, key, Ref(c), fuel).value;
    var gone := Detached(st.nodes[id], key, Ref(c));
    AssignReads(st, id, key, Ref(c), fuel, key);
    assert Placement(st, Ref(c)) == Child(st.nextNode);
    assert c !in gone;
    CopiedFrom(st, id, key, c, r, gone);
  }

  lemma CopiedFrom(st: Store, id: NodeId, key: Key, c: NodeId, r: Store, gone: set<NodeId>)
    requires Closed(st) && c in st.nodes && st.nodes[c].conn.Some?
    requires id in r.nodes && Read(r.nodes[id], key) == Ref(st.nextNode)
    requires st.nextNode in r.nodes && r.nodes[st.nextNode].conn == Some(Conn(id, key))
    requires KeepsConns(st, r, gone) && c !in gone
    ensures Copied(st, id, key, c, r)
  {
  }

  /** `id` holds under `key` a new node connected there, while `c` keeps
      the connection it had. */
  predicate Copied(st: Store, id: NodeId, key: Key, c: NodeId, r: Store)
    requires c in st.nodes
  {
    && id in r.nodes && st.nextNode in r.nodes && c in r.nodes && st.nextNode != c
    && Read(r.nodes[id], key) == Ref(st.nextNode)
    && r.nodes[st.nextNode].conn == Some(Conn(id, key))
    && r.nodes[c].conn == st.nodes[c].conn
  }

  /** Placing a node that has no parent stores the node itself and
      connects it under `(id, key)` (src/reactive.ts:167-169). */
  lemma AssignConnectsUnattached(st: Store, id: NodeId, key: Key, c: NodeId, fuel: nat)
    requires Closed(st) && id in st.nodes && c in st.nodes && st.nodes[c].conn.None?
    requires (key.Name? || key.Index?) && Read(st.nodes[id], key) != Ref(c)
    requires Assign(st, id, key, Ref(c), fuel).Ok?
    ensures var r := Assign(st, id, key, Ref(c), fuel).value;
            id in r.nodes && c in r.nodes && Read(r.nodes[id], key) == Ref(c) && r.nodes[c].conn == Some(Conn(id, key))
  {
    AssignReads(st, id, key, Ref(c), fuel, key);
  }

  /** Placing a plain container stores a fresh node connected under
      `(id, key)` (src/reactive.ts:170-173). */
  lemma AssignWrapsPlain(st: Store, id: NodeId, key: Key, c: Shape<Value>, fuel: nat)
    requires Closed(st) && id in st.nodes && RefsIn(st.nodes.Keys, Plain(c))
    requires (key.Name? || key.Index?) && Assign(st, id, key, Plain(c), fuel).Ok?
    ensures var r := Assign(st, id, key, Plain(c), fuel).value;
            && st.nextNode !in st.nodes && id in r.nodes && st.nextNode in r.nodes
            && Read(r.nodes[id], key) == Ref(st.nextNode) && r.nodes[st.nextNode].conn == Some(Conn(id, key))
  {
    assert Read(st.nodes[id], key) != Plain(c);
    AssignReads(st, id, key, Plain(c), fuel, key);
  }

  /** A delete under a name or an index: the key reads as undefined, every
      other name or index reads as before, the child held there is
      disconnected, and `id` and its chain are dirty
      (src/reactive.ts:192-200). */
  lemma DeleteErases(st: Store, id: NodeId, key: Key, other: Key)
    requires Closed(st) && id in st.nodes && (key.Name? || key.Index?) && Delete(st, id, key).Ok?
    ensures Fits(st.nodes[id].Kind(), key)
    ensures Erased(st, id, key, other, Delete(st, id, key).value)
  {
    var r := Delete(st, id, key).value;
    var n := st.nodes[id];
    ReadErase(n, key, other);
    ReadSameContents(n.(raw := Erase(n.raw, key)), r.nodes[id].(syms := n.syms), key);
    ReadSameContents(n.(raw := Erase(n.raw, key)), r.nodes[id].(syms := n.syms), other);
  }

  /** The effect of a delete under a name or an index. */
  predicate Erased(st: Store, id: NodeId, key: Key, other: Key, r: Store)
    requires id in st.nodes
  {
    var prev := Read(st.nodes[id], key);
    && id in r.nodes
    && Read(r.nodes[id], key) == Atom(Undef)
    && ((other.Name? || other.Index?) && other != key ==> Read(r.nodes[id], other) == Read(st.nodes[id], other))
    && (prev.Ref? && prev.id in st.nodes ==> prev.id in r.nodes && r.nodes[prev.id].conn.None?)
    && Notified(r, id)
  }

  /** A node without a parent is the whole of its own chain: notifying it
      succeeds and touches no other node. So a node once disconnected never
      again marks its former parent, and stays writable
      (src/reactive.ts:136-138). */
  lemma RootNotifyLocal(st: Store, c: NodeId)
    requires c in st.nodes && st.nodes[c].conn.None?
    ensures Ancestors(st, c) == Ok([c])
    ensures Notify(st, c).Ok? && Notify(st, c).value.nodes[c].dirty
    ensures forall x :: x in st.nodes && x != c ==> Notify(st, c).value.nodes[x] == st.nodes[x]
  {
    RootChain(st, c);
  }

  /** A changing write of a primitive touches only the written node, the
      nodes on its chain, and the child it replaces: every other node keeps
      its record (src/reactive.ts:175-182). */
  lemma AtomWriteKeepsOthers(st: Store, id: NodeId, key: Key, p: Prim, fuel: nat, x: NodeId)
    requires Closed(st) && id in st.nodes && (key.Name? || key.Index?) && Read(st.nodes[id], key) != Atom(p)
    requires Assign(st, id, key, Atom(p), fuel).Ok?
    requires x in st.nodes && x != id && x !in Detached(st.nodes[id], key, Atom(p))
    requires x !in Chain(Assign(st, id, key, Atom(p), fuel).value, id)
    ensures x in Assign(st, id, key, Atom(p), fuel).value.nodes
    ensures Assign(st, id, key, Atom(p), fuel).value.nodes[x] == st.nodes[x]
  {
    AtomAssign(st, id, key, p, fuel);
    var r := Assign(st, id, key, Atom(p), fuel).value;
    DetachedIgnoresValue(st.nodes[id], key, Atom(p), Atom(Undef));
    MarkedKeeps(st, DetachAt(st, id, key), id, key, r, x);
  }

  /** A changing write of a primitive is a `WriteSlot` of its leaf. */
  lemma AtomAssign(st: Store, id: NodeId, key: Key, p: Prim, fuel: nat)
    requires Closed(st) && id in st.nodes && (key.Name? || key.Index?) && Read(st.nodes[id], key) != Atom(p)
    requires Assign(st, id, key, Atom(p), fuel).Ok?
    ensures Fits(st.nodes[id].Kind(), key)
    ensures WriteSlot(st, id, key, Leaf(p)) == Assign(st, id, key, Atom(p), fuel)
  {
  }

  lemma DetachedIgnoresValue(n: Node, key: Key, v: Value, w: Value)
    requires key.Name? || key.Index?
    ensures Detached(n, key, v) == Detached(n, key, w)
  {
  }

  lemma MarkedKeeps(st: Store, st1: Store, id: NodeId, key: Key, r: Store, x: NodeId)
    requires id in st.nodes && x in st.nodes && x != id && st1.nodes.Keys == st.nodes.Keys
    requires st1.nodes[x] == st.nodes[x] && st1.nodes.Keys <= r.nodes.Keys
    requires Marked(st1, id, r) && x !in Chain(r, id)
    ensures r.nodes[x] == st.nodes[x]
  {
  }
}

=== FILE: snapshots.dfy ===
/** The snapshot cache of `createImmutable` (src/reactive.ts:16-71) and
    `getState` (src/reactive.ts:9-14). A dirty node rebuilds a fresh shallow
    copy of its contents, pulling each child's own (possibly cached)
    snapshot; a clean node hands back its cached snapshot. */
module Snapshots {
  import opened Values
  import opened Arena

  /** The nodes whose cached snapshot is stale. */
  function Dirty(st: Store): set<NodeId> {
    set x | x in st.nodes && st.nodes[x].dirty
  }

  /** Between `st` and `st'` only dirty bits, cached snapshots and the
      snapshot counter may have changed; clean nodes are untouched; a
      rebuilt cache carries an id taken from the counter in between. */
  predicate OnlyCaches(st: Store, st': Store) {
    && st'.nodes.Keys == st.nodes.Keys
    && (forall x :: x in st.nodes ==>
          && st'.nodes[x].raw == st.nodes[x].raw
          && st'.nodes[x].syms == st.nodes[x].syms
          && st'.nodes[x].conn == st.nodes[x].conn
          && st'.nodes[x].deb == st.nodes[x].deb)
    && (forall x :: x in st.nodes && !st.nodes[x].dirty ==> st'.nodes[x] == st.nodes[x])
    && Dirty(st') <= Dirty(st)
    && (forall x :: x in st.nodes && st'.nodes[x].cache != st.nodes[x].cache ==>
          st.nextSnap <= st'.nodes[x].cache.sid < st'.nextSnap)
    && st'.nextNode == st.nextNode && st.nextSnap <= st'.nextSnap
    && st'.queue == st.queue && st'.subs == st.subs && st'.delivered == st.delivered
    && st'.nextReg == st.nextReg
  }

  lemma OnlyCachesTrans(st: Store, st1: Store, st2: Store)
    requires OnlyCaches(st, st1) && OnlyCaches(st1, st2)
    ensures OnlyCaches(st, st2)
  {
  }

  lemma SubsetCard<T>(a: set<T>, b: set<T>)
    requires a <= b
    ensures |a| <= |b|
    decreases b
  {
    if a != {} {
      var x :| x in a;
      SubsetCard(a - {x}, b - {x});
    }
  }

  /** `compute()`: the cached snapshot while clean; otherwise a rebuilt one
      with a fresh id, in which a child node's slot holds that child's own
      snapshot and any other slot holds its value as-is. */
  function Compute(st: Store, id: NodeId): (r: (Snap, Store))
    requires id in st.nodes && Linked(st)
    ensures OnlyCaches(st, r.1)
    ensures !r.1.nodes[id].dirty && r.1.nodes[id].cache == r.0
    ensures !st.nodes[id].dirty ==> r == (st.nodes[id].cache, st)
    ensures st.nodes[id].dirty ==> r.0.sid == st.nextSnap < r.1.nextSnap
    ensures st.nodes[id].dirty ==> SnapOf(id, st.nodes[id], r.0, r.1)
    decreases |Dirty(st)|, 0
  {
    var n := st.nodes[id];
    if !n.dirty then (n.cache, st)
    else
      var sid := st.nextSnap;
      var st1 := Update(st, id, n.(dirty := false)).(nextSnap := sid + 1);
      assert Dirty(st1) == Dirty(st) - {id};
      assert OnlyCaches(st, st1);
      var slots := SlotsOf(n);
      assert forall i :: 0 <= i < |slots| && slots[i].Child? ==> slots[i].id in ChildIds(n);
      var (vals, st2) := ComputeSlots(st1, slots);
      var snap := Snap(sid, Rebuild(n.raw, vals));
      var st3 := Update(st2, id, st2.nodes[id].(cache := snap));
      OnlyCachesTrans(st, st1, st2);
      StoreCache(st, st2, id, snap);
      RebuiltSlots(id, n, st1, vals, st2, snap, st3);
      (snap, st3)
  }

  /** Installing the rebuilt snapshot of a node that was clean since the
      rebuild began. */
  lemma StoreCache(st: Store, st2: Store, id: NodeId, snap: Snap)
    requires id in st.nodes && st.nodes[id].dirty && OnlyCaches(st, st2)
    requires st.nextSnap <= snap.sid < st2.nextSnap
    ensures OnlyCaches(st, Update(st2, id, st2.nodes[id].(cache := snap)))
  {
    var st3 := Update(st2, id, st2.nodes[id].(cache := snap));
    assert Dirty(st3) == Dirty(st2);
  }

  /** `snap` is a rebuild of node `id` (whose record was `n`): same kind
      and keys, a leaf copied as-is, a child replaced by its snapshot in
      `st`. */
  predicate SnapOf(id: NodeId, n: Node, snap: Snap, st: Store) {
    && snap.body.KindOf() == n.Kind()
    && (n.raw.Fields? ==>
          && |snap.body.fields| == |n.raw.fields|
          && forall i :: 0 <= i < |n.raw.fields| ==> snap.body.fields[i].0 == n.raw.fields[i].0)
    && |ValuesOf(snap.body)| == |SlotsOf(n)|
    && forall i :: 0 <= i < |SlotsOf(n)| ==> SlotSnap(SlotsOf(n)[i], ValuesOf(snap.body)[i], id, n.cache, st)
  }

  /** One slot of a rebuild: a leaf as-is; a child's current snapshot, or,
      for the node itself, the snapshot it cached before the rebuild. */
  predicate SlotSnap(s: Slot, v: SVal, id: NodeId, before: Snap, st: Store) {
    match s
    case Leaf(p) => v == SLeaf(p)
    case Child(c) =>
      && c in st.nodes
      && (c != id ==> v == SSub(st.nodes[c].cache) && !st.nodes[c].dirty)
      && (c == id ==> v == SSub(before))
  }

  /** The snapshots of a run of slots, left to right. */
  function ComputeSlots(st: Store, slots: seq<Slot>): (r: (seq<SVal>, Store))
    requires Linked(st)
    requires forall i :: 0 <= i < |slots| && slots[i].Child? ==> slots[i].id in st.nodes
    ensures OnlyCaches(st, r.1)
    ensures |r.0| == |slots|
    ensures forall i :: 0 <= i < |slots| && slots[i].Leaf? ==> r.0[i] == SLeaf(slots[i].p)
    ensures forall i :: 0 <= i < |slots| && slots[i].Child? ==>
              !r.1.nodes[slots[i].id].dirty && r.0[i] == SSub(r.1.nodes[slots[i].id].cache)
    decreases |Dirty(st)|, |slots| + 1
  {
    if slots == [] then ([], st)
    else
      var (head, st1) :=
        match slots[0]
        case Leaf(p) => (SLeaf(p), st)
        case Child(c) =>
          var (s, st') := Compute(st, c);
          (SSub(s), st');
      assert OnlyCaches(st, st1);
      SubsetCard(Dirty(st1), Dirty(st));
      var (rest, st2) := ComputeSlots(st1, slots[1..]);
      OnlyCachesTrans(st, st1, st2);
      SlotsCons(st1, st2, slots, head, rest);
      ([head] + rest, st2)
  }

  /** The first slot's snapshot, taken before the rest were computed,
      still stands after them. */
  lemma SlotsCons(st1: Store, st2: Store, slots: seq<Slot>, head: SVal, rest: seq<SVal>)
    requires |slots| > 0 && OnlyCaches(st1, st2)
    requires forall i :: 0 <= i < |slots| && slots[i].Child? ==> slots[i].id in st1.nodes
    requires slots[0].Leaf? ==> head == SLeaf(slots[0].p)
    requires slots[0].Child? ==>
               !st1.nodes[slots[0].id].dirty && head == SSub(st1.nodes[slots[0].id].cache)
    requires |rest| == |slots| - 1
    requires forall i :: 0 <= i < |rest| && slots[1..][i].Leaf? ==> rest[i] == SLeaf(slots[1..][i].p)
    requires forall i :: 0 <= i < |rest| && slots[1..][i].Child? ==>
               !st2.nodes[slots[1..][i].id].dirty && rest[i] == SSub(st2.nodes[slots[1..][i].id].cache)
    ensures forall i :: 0 <= i < |slots| && slots[i].Leaf? ==> ([head] + rest)[i] == SLeaf(slots[i].p)
    ensures forall i :: 0 <= i < |slots| && slots[i].Child? ==>
              !st2.nodes[slots[i].id].dirty && ([head] + rest)[i] == SSub(st2.nodes[slots[i].id].cache)
  {
    var vals := [head] + rest;
    forall i | 0 <= i < |slots|
      ensures slots[i].Leaf? ==> vals[i] == SLeaf(slots[i].p)
      ensures slots[i].Child? ==> !st2.nodes[slots[i].id].dirty && vals[i] == SSub(st2.nodes[slots[i].id].cache)
    {
      if i > 0 {
        assert slots[i] == slots[1..][i - 1] && vals[i] == rest[i - 1];
      }
    }
  }

  /** The slots a rebuild produced satisfy `SnapOf`. */
  lemma RebuiltSlots(id: NodeId, n: Node, st1: Store, vals: seq<SVal>, st2: Store, snap: Snap, st3: Store)
    requires id in st1.nodes && st1.nodes[id].cache == n.cache && !st1.nodes[id].dirty
    requires OnlyCaches(st1, st2)
    requires |vals| == |SlotsOf(n)|
    requires forall i :: 0 <= i < |vals| && SlotsOf(n)[i].Child? ==> SlotsOf(n)[i].id in st2.nodes
    requires forall i :: 0 <= i < |vals| && SlotsOf(n)[i].Leaf? ==> vals[i] == SLeaf(SlotsOf(n)[i].p)
    requires forall i :: 0 <= i < |vals| && SlotsOf(n)[i].Child? ==>
               !st2.nodes[SlotsOf(n)[i].id].dirty && vals[i] == SSub(st2.nodes[SlotsOf(n)[i].id].cache)
    requires snap.body == Rebuild(n.raw, vals)
    requires st3 == Update(st2, id, st2.nodes[id].(cache := snap))
    ensures SnapOf(id, n, snap, st3)
  {
    assert st2.nodes[id] == st1.nodes[id];
    var slots := SlotsOf(n);
    forall i | 0 <= i < |slots|
      ensures SlotSnap(slots[i], vals[i], id, n.cache, st3)
    {
      if slots[i].Child? && slots[i].id != id {
        assert st3.nodes[slots[i].id] == st2.nodes[slots[i].id];
      }
    }
  }

  /** `getState(input)`: fails on anything that is not reactive, otherwise
      computes the node's snapshot. */
  function GetState(st: Store, v: Value): (r: Result<(Snap, Store)>)
    requires Linked(st)
    ensures r.Err? <==> !IsReactive(st, v)
    ensures r.Err? ==> r.error == NotReactive
    ensures r.Ok? ==> OnlyCaches(st, r.value.1) && !r.value.1.nodes[v.id].dirty
    ensures r.Ok? ==> r.value.1.nodes[v.id].cache == r.value.0
  {
    if !IsReactive(st, v) then Err(NotReactive)
    else Ok(Compute(st, v.id))
  }

  lemma ComputeKeepsLinked(st: Store, st': Store)
    requires Linked(st) && OnlyCaches(st, st')
    ensures Linked(st')
  {
    forall x | x in st'.nodes
      ensures ChildIds(st'.nodes[x]) <= st'.nodes.Keys
    {
      assert st'.nodes[x].raw == st.nodes[x].raw;
    }
  }

  /** Rebuilding caches keeps the arena closed: every cached snapshot id
      stays below the counter. */
  lemma OnlyCachesClosed(st: Store, st': Store)
    requires Closed(st) && OnlyCaches(st, st')
    ensures Closed(st')
  {
    ComputeKeepsLinked(st, st');
    forall x | x in st'.nodes
      ensures st'.nodes[x].cache.sid < st'.nextSnap
    {
      if st'.nodes[x].cache == st.nodes[x].cache {
        assert st.nodes[x].cache.sid < st.nextSnap;
      }
    }
  }

  /** A dirty node's rebuilt snapshot is new: its id differs from that of
      every snapshot any node had cached, so it is never `===` to an
      earlier state (src/reactive.ts:53-65). */
  lemma RebuildFresh(st: Store, id: NodeId)
    requires Closed(st) && id in st.nodes && st.nodes[id].dirty
    ensures Closed(Compute(st, id).1)
    ensures forall y :: y in st.nodes ==> Compute(st, id).0.sid != st.nodes[y].cache.sid
  {
    OnlyCachesClosed(st, Compute(st, id).1);
  }

  /** Two `getState` calls with no mutation in between return the same
      snapshot, and the second changes nothing (src/reactive.ts:53-54). */
  lemma GetStateTwice(st: Store, v: Value)
    requires Linked(st) && IsReactive(st, v)
    ensures var st1 := GetState(st, v).value.1;
            Linked(st1) && GetState(st1, v) == Ok((GetState(st, v).value.0, st1))
  {
    var r := GetState(st, v).value;
    ComputeKeepsLinked(st, r.1);
  }

  /** Structural sharing: rebuilding a dirty node reuses, slot for slot,
      the very snapshot a clean child had cached, so an untouched sibling
      keeps its identity across the rebuild (src/reactive.ts:25-51). */
  lemma CleanChildShared(st: Store, id: NodeId, i: nat)
    requires Linked(st) && id in st.nodes && st.nodes[id].dirty
    requires i < |SlotsOf(st.nodes[id])| && SlotsOf(st.nodes[id])[i].Child?
    requires var c := SlotsOf(st.nodes[id])[i].id; c != id && c in st.nodes && !st.nodes[c].dirty
    ensures ValuesOf(Compute(st, id).0.body)[i] == SSub(st.nodes[SlotsOf(st.nodes[id])[i].id].cache)
  {
    var c := SlotsOf(st.nodes[id])[i].id;
    var r := Compute(st, id);
    assert SlotSnap(SlotsOf(st.nodes[id])[i], ValuesOf(r.0.body)[i], id, st.nodes[id].cache, r.1);
    assert r.1.nodes[c] == st.nodes[c];
  }
}

=== FILE: values.dfy ===
/** Values handled by the reactive store: primitive leaves, references to
    reactive nodes, plain (not yet wrapped) containers, property keys, and
    the error outcomes of the public operations. */
module Values {

  datatype Option<+T> = None | Some(value: T)

  /** Why an operation fails. `StackOverflow` stands for the unbounded
      recursion the code runs into on a cyclic parent chain. */
  datatype Error =
    | InvalidInput      // reactive() on something that is neither object nor array
    | NotReactive       // getState / watch / remove on a non-reactive value
    | InvalidArgument   // watch() with a watcher that is not a function
    | KindMismatch      // merge() of an array with a non-array (or a non-container)
    | UnsupportedKey    // a key the model does not give this container kind
    | InvalidLength     // array length set to something that is not a valid length
    | StackOverflow     // the call stack of the code would be exhausted

  datatype Result<+T> = Ok(value: T) | Err(error: Error) {
    predicate IsFailure() { Err? }
    function PropagateFailure<U>(): Result<U>
      requires Err?
    {
      Err(error)
    }
    function Extract(): T
      requires Ok?
    {
      value
    }
  }

  datatype Kind = Mapping | Sequence

  /** Anything stored as-is: numbers, strings, `undefined`, and opaque
      objects that are neither plain objects nor arrays (functions, class
      instances). */
  datatype Prim = Undef | Num(n: int) | Str(s: string) | Opaque(tag: nat)

  type NodeId = nat

  /** The shape of a container: an insertion-ordered list of named fields
      (a plain object) or a list of items (an array). */
  datatype Shape<T> = Fields(fields: seq<(string, T)>) | Items(items: seq<T>)
  {
    function KindOf(): Kind {
      if Fields? then Mapping else Sequence
    }
  }

  /** A value handed to the store by its caller. */
  datatype Value =
    | Atom(p: Prim)
    | Ref(id: NodeId)          // a reactive node (the proxy of the library)
    | Plain(c: Shape<Value>)   // a plain object or array, not reactive

  /** A property key. `Sym` is a symbol key: invisible to reactivity. */
  datatype Key = Name(name: string) | Index(i: nat) | Length | Sym(tag: nat)

  /** Number of constructors in a value; bounds the wrapping recursion. */
  function Size(v: Value): nat
    decreases v, 1
  {
    match v
    case Plain(c) => 1 + ShapeSize(c)
    case _ => 1
  }

  function ShapeSize(c: Shape<Value>): nat
    decreases c, 0
  {
    match c
    case Fields(fs) => FieldsSize(fs)
    case Items(xs) => ItemsSize(xs)
  }

  function ItemsSize(xs: seq<Value>): nat
    decreases xs
  {
    if xs == [] then 0 else 1 + Size(xs[0]) + ItemsSize(xs[1..])
  }

  function FieldsSize(fs: seq<(string, Value)>): nat
    decreases fs
  {
    if fs == [] then 0
    else
      var f := fs[0];
      assert f.1 < f;
      1 + Size(f.1) + FieldsSize(fs[1..])
  }

  /** The keys of a value's references, at any depth, all lie in `ks`. */
  predicate RefsIn(ks: set<NodeId>, v: Value)
    decreases v, 1
  {
    match v
    case Atom(_) => true
    case Ref(id) => id in ks
    case Plain(c) => ShapeRefsIn(ks, c)
  }

  predicate ShapeRefsIn(ks: set<NodeId>, c: Shape<Value>)
    decreases c, 0
  {
    match c
    case Fields(fs) => FieldsRefsIn(ks, fs)
    case Items(xs) => forall i :: 0 <= i < |xs| ==> RefsIn(ks, xs[i])
  }

  predicate FieldsRefsIn(ks: set<NodeId>, fs: seq<(string, Value)>)
    decreases fs
  {
    if fs == [] then true
    else
      var f := fs[0];
      assert f.1 < f;
      RefsIn(ks, f.1) && FieldsRefsIn(ks, fs[1..])
  }

  lemma {:induction false} RefsInGrow(ks: set<NodeId>, ks': set<NodeId>, v: Value)
    requires ks <= ks' && RefsIn(ks, v)
    ensures RefsIn(ks', v)
    decreases v, 1
  {
    match v
    case Atom(_) =>
    case Ref(_) =>
    case Plain(c) => ShapeRefsInGrow(ks, ks', c);
  }

  lemma {:induction false} ShapeRefsInGrow(ks: set<NodeId>, ks': set<NodeId>, c: Shape<Value>)
    requires ks <= ks' && ShapeRefsIn(ks, c)
    ensures ShapeRefsIn(ks', c)
    decreases c, 0
  {
    match c
    case Fields(fs) => FieldsRefsInGrow(ks, ks', fs);
    case Items(xs) =>
      forall i | 0 <= i < |xs|
        ensures RefsIn(ks', xs[i])
      {
        RefsInGrow(ks, ks', xs[i]);
      }
  }

  lemma {:induction false} FieldsRefsInGrow(ks: set<NodeId>, ks': set<NodeId>, fs: seq<(string, Value)>)
    requires ks <= ks' && FieldsRefsIn(ks, fs)
    ensures FieldsRefsIn(ks', fs)
    decreases fs
  {
    if fs != [] {
      var f := fs[0];
      assert f.1 < f;
      RefsInGrow(ks, ks', f.1);
      FieldsRefsInGrow(ks, ks', fs[1..]);
    }
  }

  // ---------------------------------------------------------------------
  // Insertion-ordered field lists (the own enumerable string keys of an
  // object, in the order `for ... in` visits them).

  /** Position of the first field named `k`. */
  function Find<T>(fs: seq<(string, T)>, k: string): (r: Option<nat>)
    ensures r.Some? ==> r.value < |fs| && fs[r.value].0 == k
    ensures r.Some? ==> forall j :: 0 <= j < r.value ==> fs[j].0 != k
    ensures r.None? <==> forall j :: 0 <= j < |fs| ==> fs[j].0 != k
    decreases |fs|
  {
    if fs == [] then None
    else if fs[0].0 == k then Some(0)
    else
      match Find(fs[1..], k)
      case None => None
      case Some(i) => Some(i + 1)
  }

  function Lookup<T>(fs: seq<(string, T)>, k: string): Option<T> {
    match Find(fs, k)
    case None => None
    case Some(i) => Some(fs[i].1)
  }

  /** Assignment to a field: overwrite in place, or append a new field. */
  function Put<T>(fs: seq<(string, T)>, k: string, v: T): (r: seq<(string, T)>)
    ensures Lookup(r, k) == Some(v)
    ensures forall k' :: k' != k ==> Lookup(r, k') == Lookup(fs, k')
    ensures Find(fs, k).Some? ==> |r| == |fs| && forall j :: 0 <= j < |fs| ==> r[j].0 == fs[j].0
    ensures Find(fs, k).None? ==> r == fs + [(k, v)]
    ensures forall j :: 0 <= j < |r| ==> r[j] == (k, v) || r[j] in fs
  {
    match Find(fs, k)
    case Some(i) =>
      var r := fs[i := (k, v)];
      FindSameKeys(fs, r, k);
      assert forall k' :: k' != k ==> Find(r, k') == Find(fs, k') by {
        forall k' | k' != k
          ensures Find(r, k') == Find(fs, k')
        {
          FindSameKeys(fs, r, k');
        }
      }
      r
    case None =>
      var r := fs + [(k, v)];
      assert Find(r, k) == Some(|fs|) by {
        FindAppended(fs, k, v);
      }
      assert forall k' :: k' != k ==> Find(r, k') == Find(fs, k') by {
        forall k' | k' != k
          ensures Find(r, k') == Find(fs, k')
        {
          FindAppendedOther(fs, k, v, k');
        }
      }
      r
  }

  /** `delete obj[k]`: no field named `k` remains. */
  function Drop<T>(fs: seq<(string, T)>, k: string): (r: seq<(string, T)>)
    ensures Find(r, k).None?
    ensures forall k' :: k' != k ==> Lookup(r, k') == Lookup(fs, k')
    ensures Find(fs, k).None? ==> r == fs
    ensures forall j :: 0 <= j < |r| ==> r[j] in fs
    decreases |fs|
  {
    if fs == [] then []
    else
      var rest := Drop(fs[1..], k);
      if fs[0].0 == k then rest
      else
        var r := [fs[0]] + rest;
        assert r[1..] == rest;
        assert forall k' :: k' != k ==> Lookup(r, k') == Lookup(fs, k') by {
          forall k' | k' != k
            ensures Lookup(r, k') == Lookup(fs, k')
          {
            if fs[0].0 != k' {
              LookupTail(r, k');
              LookupTail(fs, k');
            }
          }
        }
        r
  }

  lemma {:induction false} FindSameKeys<T>(fs: seq<(string, T)>, gs: seq<(string, T)>, k: string)
    requires |fs| == |gs| && forall j :: 0 <= j < |fs| ==> fs[j].0 == gs[j].0
    ensures Find(fs, k) == Find(gs, k)
    decreases |fs|
  {
    if fs != [] {
      FindSameKeys(fs[1..], gs[1..], k);
    }
  }

  lemma {:induction false} FindAppended<T>(fs: seq<(string, T)>, k: string, v: T)
    requires Find(fs, k).None?
    ensures Find(fs + [(k, v)], k) == Some(|fs|)
    decreases |fs|
  {
    if fs != [] {
      assert (fs + [(k, v)])[1..] == fs[1..] + [(k, v)];
      FindAppended(fs[1..], k, v);
    }
  }

  lemma {:induction false} FindAppendedOther<T>(fs: seq<(string, T)>, k: string, v: T, k': string)
    requires k' != k
    ensures Find(fs + [(k, v)], k') == Find(fs, k')
    decreases |fs|
  {
    if fs != [] {
      assert (fs + [(k, v)])[1..] == fs[1..] + [(k, v)];
      FindAppendedOther(fs[1..], k, v, k');
    }
  }

  lemma LookupTail<T>(fs: seq<(string, T)>, k: string)
    requires fs != [] && fs[0].0 != k
    ensures Lookup(fs, k) == Lookup(fs[1..], k)
  {
  }

  // ---------------------------------------------------------------------
  // Shapes as sequences of entries.

  /** The values of a container, in enumeration order. */
  function ValuesOf<T>(c: Shape<T>): (r: seq<T>)
    ensures c.Items? ==> r == c.items
    ensures c.Fields? ==> |r| == |c.fields| && forall i :: 0 <= i < |r| ==> r[i] == c.fields[i].1
  {
    match c
    case Items(xs) => xs
    case Fields(fs) => seq(|fs|, i requires 0 <= i < |fs| => fs[i].1)
  }

  /** A container of the same kind and keys as `c` holding the values `vs`. */
  function Rebuild<T, U>(c: Shape<T>, vs: seq<U>): (r: Shape<U>)
    requires |vs| == |ValuesOf(c)|
    ensures r.KindOf() == c.KindOf() && ValuesOf(r) == vs
    ensures c.Fields? ==> |r.fields| == |c.fields| && forall i :: 0 <= i < |vs| ==> r.fields[i].0 == c.fields[i].0
  {
    match c
    case Items(_) => Items(vs)
    case Fields(fs) => Fields(seq(|fs|, i requires 0 <= i < |fs| => (fs[i].0, vs[i])))
  }

  function Empty<T>(k: Kind): (r: Shape<T>)
    ensures r.KindOf() == k && ValuesOf(r) == []
  {
    match k
    case Mapping => Fields([])
    case Sequence => Items([])
  }

  /** The (key, value) pairs a `for ... in` loop (or an index loop) visits. */
  function Entries<T>(c: Shape<T>): (es: seq<(Key, T)>)
    ensures |es| == |ValuesOf(c)|
    ensures forall i :: 0 <= i < |es| ==> es[i].1 == ValuesOf(c)[i]
    ensures c.Items? ==> forall i :: 0 <= i < |es| ==> es[i].0 == Index(i)
    ensures c.Fields? ==> forall i :: 0 <= i < |es| ==> es[i].0 == Name(c.fields[i].0)
  {
    match c
    case Items(xs) => seq(|xs|, i requires 0 <= i < |xs| => (Index(i), xs[i]))
    case Fields(fs) => seq(|fs|, i requires 0 <= i < |fs| => (Name(fs[i].0), fs[i].1))
  }

  function EntriesSize(es: seq<(Key, Value)>): nat
    decreases |es|
  {
    if es == [] then 0 else 1 + Size(es[0].1) + EntriesSize(es[1..])
  }

  function Seconds(es: seq<(Key, Value)>): (r: seq<Value>)
    ensures |r| == |es| && forall i :: 0 <= i < |es| ==> r[i] == es[i].1
  {
    seq(|es|, i requires 0 <= i < |es| => es[i].1)
  }

  lemma {:induction false} EntriesSizeIsItemsSize(es: seq<(Key, Value)>)
    ensures EntriesSize(es) == ItemsSize(Seconds(es))
    decreases |es|
  {
    if es != [] {
      EntriesSizeIsItemsSize(es[1..]);
      assert Seconds(es)[1..] == Seconds(es[1..]);
    }
  }

  lemma {:induction false} FieldsSizeIsItemsSize(fs: seq<(string, Value)>)
    ensures FieldsSize(fs) == ItemsSize(ValuesOf(Fields(fs)))
    decreases |fs|
  {
    if fs != [] {
      FieldsSizeIsItemsSize(fs[1..]);
      assert ValuesOf(Fields(fs))[1..] == ValuesOf(Fields(fs[1..]));
    }
  }

  /** Merging the entries of a plain container costs less than wrapping it. */
  lemma EntriesSmaller(c: Shape<Value>)
    ensures EntriesSize(Entries(c)) < Size(Plain(c))
  {
    var es := Entries(c);
    EntriesSizeIsItemsSize(es);
    assert Seconds(es) == ValuesOf(c);
    if c.Fields? {
      FieldsSizeIsItemsSize(c.fields);
    }
  }

  /** The first entry costs less than all of them. */
  lemma HeadSmaller(es: seq<(Key, Value)>)
    requires es != []
    ensures Size(es[0].1) < EntriesSize(es) && EntriesSize(es[1..]) < EntriesSize(es)
  {
  }
}

=== FILE: write.dfy ===
/** The write path of `reactive`: the `set` and `deleteProperty` traps
    (src/reactive.ts:148-203) and `merge` (src/util.ts:16-42), which
    `reactive` uses to copy its input into a fresh node
    (src/reactive.ts:73-81, 221). */
module Write {
  import opened Values
  import opened Debounce
  import opened Arena
  import opened Propagation

  // ---------------------------------------------------------------------
  // What a write may change.

  /** `st'` is a later state of `st` that is still closed. A write runs
      no watcher: the subscriptions, their stamps and what watchers
      received are untouched (watchers run only from a `.then`,
      src/reactive.ts:240-249). */
  predicate Extends(st: Store, st': Store) {
    && Grows(st, st') && Closed(st')
    && st'.subs == st.subs && st'.delivered == st.delivered && st'.nextReg == st.nextReg
  }

  /** Every node of `st` but `id` keeps its raw contents and symbols. */
  predicate KeepsContents(st: Store, st': Store, id: NodeId) {
    && st.nodes.Keys <= st'.nodes.Keys
    && forall x :: x in st.nodes && x != id ==>
         st'.nodes[x].raw == st.nodes[x].raw && st'.nodes[x].syms == st.nodes[x].syms
  }

  /** Every node connected in `st`, apart from those in `gone`, keeps its
      connection. */
  predicate KeepsConns(st: Store, st': Store, gone: set<NodeId>) {
    && st.nodes.Keys <= st'.nodes.Keys
    && forall x :: x in st.nodes && st.nodes[x].conn.Some? && x !in gone ==>
         st'.nodes[x].conn == st.nodes[x].conn
  }

  /** The nodes of `st` that no parent holds. */
  function Unattached(st: Store): set<NodeId> {
    set x | x in st.nodes && st.nodes[x].conn.None?
  }

  /** The children `id` gained are new nodes or nodes that were unattached. */
  predicate NewChildren(st: Store, st': Store, id: NodeId)
    requires id in st.nodes && id in st'.nodes
  {
    ChildIds(st'.nodes[id]) <= ChildIds(st.nodes[id]) + (st'.nodes.Keys - st.nodes.Keys) + Unattached(st)
  }

  /** The ancestors of `id` in `st`: the chain without `id` itself. */
  function Chain(st: Store, id: NodeId): set<NodeId>
    requires id in st.nodes
  {
    match Ancestors(st, id)
    case Ok(path) => set i | 0 <= i < |path| :: path[i]
    case Err(_) => {}
  }

  // ---------------------------------------------------------------------
  // The common tail of both traps.

  /** Between `st` and `r` the contents of `id` became `raw'`; nothing
      else changed but dirty bits, debouncers, cached snapshots and the
      microtask queue. */
  predicate Stored(st: Store, id: NodeId, raw': Shape<Slot>, r: Store)
    requires id in st.nodes
  {
    && Extends(st, r) && r.nodes.Keys == st.nodes.Keys
    && r.nodes[id].raw == raw' && r.nodes[id].syms == st.nodes[id].syms && r.nodes[id].conn == st.nodes[id].conn
    && (forall x :: x in st.nodes && x != id ==>
          && r.nodes[x].raw == st.nodes[x].raw && r.nodes[x].syms == st.nodes[x].syms
          && r.nodes[x].conn == st.nodes[x].conn)
  }

  /** `id` and every node on its chain are dirty; no cache was rebuilt; every
      node off the chain is untouched. */
  predicate Marked(st: Store, id: NodeId, r: Store)
    requires id in st.nodes && st.nodes.Keys <= r.nodes.Keys
  {
    && r.nodes[id].dirty
    && Chain(r, id) == Chain(st, id)
    && (forall x :: x in Chain(st, id) ==> r.nodes[x].dirty)
    && (forall x :: x in st.nodes ==> r.nodes[x].cache == st.nodes[x].cache)
    && (forall x :: x in st.nodes && x != id && x !in Chain(st, id) ==> r.nodes[x] == st.nodes[x])
  }

  /** `id` and every node on its resulting connection chain are dirty. */
  predicate Notified(r: Store, id: NodeId)
    requires id in r.nodes
  {
    r.nodes[id].dirty && forall x :: x in Chain(r, id) ==> r.nodes[x].dirty
  }

  /** Stores `raw'` as the contents of `id` and notifies it. */
  function Commit(st: Store, id: NodeId, raw': Shape<Slot>): (r: Result<Store>)
    requires Closed(st) && id in st.nodes && ChildIds(st.nodes[id].(raw := raw')) <= st.nodes.Keys
    ensures r.Ok? <==> Ancestors(st, id).Ok?
    ensures r.Ok? ==> Stored(st, id, raw', r.value) && Marked(st, id, r.value)
  {
    var st1 := Update(st, id, st.nodes[id].(raw := raw'));
    ClosedUpdate(st, id, st.nodes[id].(raw := raw'));
    PathSame(st, st1, id, {});
    var r := Notify(st1, id);
    if r.Err? then r
    else
      CommitFrame(st, id, raw', st1, r.value);
      r
  }

  lemma CommitFrame(st: Store, id: NodeId, raw': Shape<Slot>, st1: Store, r: Store)
    requires id in st.nodes && Closed(st1)
    requires st1 == Update(st, id, st.nodes[id].(raw := raw'))
    requires Ancestors(st1, id) == Ancestors(st, id)
    requires Notify(st1, id) == Ok(r)
    ensures Stored(st, id, raw', r) && Marked(st, id, r)
  {
    NotifyClosed(st1, id);
    assert Chain(st, id) == Chain(st1, id);
  }

  /** Disconnects every child held at position `i` or later. */
  function DisconnectFrom(st: Store, xs: seq<Slot>, i: nat): (r: Store)
    ensures r == st.(nodes := r.nodes) && r.nodes.Keys == st.nodes.Keys
    ensures forall x :: x in st.nodes ==> r.nodes[x].raw == st.nodes[x].raw && r.nodes[x].syms == st.nodes[x].syms
    ensures forall x :: x in st.nodes && x in Truncated(xs, i) ==> r.nodes[x] == st.nodes[x].(conn := None)
    ensures forall x :: x in st.nodes && x !in Truncated(xs, i) ==> r.nodes[x] == st.nodes[x]
    decreases |xs| - i
  {
    if i >= |xs| then
      assert Truncated(xs, i) == {};
      st
    else
      var st1 := if xs[i].Child? && xs[i].id in st.nodes then Disconnect(st, xs[i].id) else st;
      assert Truncated(xs, i) == Truncated(xs, i + 1) + (if xs[i].Child? then {xs[i].id} else {});
      DisconnectFrom(st1, xs, i + 1)
  }

  /** What the previous value under `key` was, if a write detaches it:
      the child held there, or the items a shorter `length` cuts off. */
  function Detached(n: Node, key: Key, v: Value): set<NodeId> {
    match key
    case Sym(_) => {}
    case Length =>
      if n.raw.Items? && v.Atom? && v.p.Num? && v.p.n >= 0 then Truncated(n.raw.items, v.p.n) else {}
    case _ =>
      var prev := Read(n, key);
      if prev.Ref? then {prev.id} else {}
  }

  lemma DetachedChildren(n: Node, key: Key, v: Value)
    ensures Detached(n, key, v) <= ChildIds(n)
  {
    if key.Name? || key.Index? {
      if Read(n, key).Ref? {
        ReadChild(n, key);
      }
    } else if key.Length? && n.raw.Items? && v.Atom? && v.p.Num? && v.p.n >= 0 {
      forall x | x in Truncated(n.raw.items, v.p.n)
        ensures x in ChildIds(n)
      {
        var i :| v.p.n <= i < |n.raw.items| && n.raw.items[i].Child? && n.raw.items[i].id == x;
        assert SlotsOf(n)[i] == n.raw.items[i];
      }
    }
  }

  /** Disconnects the child held under `key`, if any. */
  function DetachAt(st: Store, id: NodeId, key: Key): (r: Store)
    requires Closed(st) && id in st.nodes && (key.Name? || key.Index?)
    ensures Closed(r) && r == st.(nodes := r.nodes) && r.nodes.Keys == st.nodes.Keys
    ensures r.nodes[id].raw == st.nodes[id].raw && r.nodes[id].syms == st.nodes[id].syms
    ensures forall x :: x in st.nodes && x in Detached(st.nodes[id], key, Atom(Undef)) ==>
              r.nodes[x] == st.nodes[x].(conn := None)
    ensures forall x :: x in st.nodes && x !in Detached(st.nodes[id], key, Atom(Undef)) ==> r.nodes[x] == st.nodes[x]
  {
    var prev := Read(st.nodes[id], key);
    if prev.Ref? then
      assert prev.id in st.nodes by {
        ReadChild(st.nodes[id], key);
      }
      ClosedDisconnect(st, prev.id);
      Disconnect(st, prev.id)
    else st
  }

  /** Detaching changes connections only. */
  lemma DetachKeepsContents(st: Store, id: NodeId, key: Key)
    requires Closed(st) && id in st.nodes && (key.Name? || key.Index?)
    ensures forall x :: x in st.nodes ==>
              DetachAt(st, id, key).nodes[x].raw == st.nodes[x].raw && DetachAt(st, id, key).nodes[x].syms == st.nodes[x].syms
  {
  }

  /** The tail of the `set` trap once the new slot is known: disconnect
      the previous child, store the slot, notify (src/reactive.ts:175-182). */
  function WriteSlot(st: Store, id: NodeId, key: Key, s: Slot): (r: Result<Store>)
    requires Closed(st) && id in st.nodes && (key.Name? || key.Index?) && Fits(st.nodes[id].Kind(), key)
    requires s.Child? ==> s.id in st.nodes
    ensures r.Ok? <==> Ancestors(DetachAt(st, id, key), id).Ok?
    ensures r.Ok? ==> Stored(DetachAt(st, id, key), id, PutSlot(st.nodes[id].raw, key, s), r.value)
    ensures r.Ok? ==> Marked(DetachAt(st, id, key), id, r.value)
  {
    var st1 := DetachAt(st, id, key);
    ChildIdsPutSlot(st1.nodes[id], key, s);
    Commit(st1, id, PutSlot(st.nodes[id].raw, key, s))
  }

  /** Array lengths are below 2^32: `Reflect.set` of `length` throws a
      `RangeError` for a number outside `[0, 2^32)`. */
  const LengthBound: nat := 0x1_0000_0000

  /** A value `Reflect.set` accepts as an array length. */
  predicate ValidLength(v: Value) {
    v.Atom? && v.p.Num? && 0 <= v.p.n < LengthBound
  }

  /** `length` assignment on a sequence node: the value must be a valid
      length; items cut off are disconnected first
      (src/reactive.ts:157-165). */
  function SetLength(st: Store, id: NodeId, v: Value): (r: Result<Store>)
    requires Closed(st) && id in st.nodes && st.nodes[id].raw.Items?
    ensures !ValidLength(v) ==> r == Err(InvalidLength)
    ensures r.Ok? ==> v.Atom? && v.p.Num? && 0 <= v.p.n < LengthBound
    ensures r.Ok? ==> Stored(DisconnectFrom(st, st.nodes[id].raw.items, v.p.n), id,
                             Items(Resize(st.nodes[id].raw.items, v.p.n)), r.value)
    ensures r.Ok? ==> Marked(DisconnectFrom(st, st.nodes[id].raw.items, v.p.n), id, r.value)
  {
    if !ValidLength(v) then Err(InvalidLength)
    else
      var xs := st.nodes[id].raw.items;
      var st1 := DisconnectFrom(st, xs, v.p.n);
      ClosedSameRaw(st, st1);
      ChildIdsResize(st1.nodes[id], v.p.n);
      Commit(st1, id, Items(Resize(xs, v.p.n)))
  }

  /** Only the symbol table of `id` differs between `st` and `r`: no node
      is marked, nothing is queued. */
  predicate SymbolsOnly(st: Store, id: NodeId, r: Store)
    requires id in st.nodes
  {
    && r == st.(nodes := r.nodes) && r.nodes.Keys == st.nodes.Keys
    && r.nodes[id] == st.nodes[id].(syms := r.nodes[id].syms)
    && forall x :: x in st.nodes && x != id ==> r.nodes[x] == st.nodes[x]
  }

  /** The `deleteProperty` trap of node `id` (src/reactive.ts:187-203): a
      symbol key is removed silently; otherwise the child held under the
      key is disconnected, the key is erased and `id` notifies. An array's
      `length` cannot be deleted. */
  function Delete(st: Store, id: NodeId, key: Key): (r: Result<Store>)
    requires Closed(st) && id in st.nodes
    ensures key.Sym? ==> r.Ok? && SymbolsOnly(st, id, r.value) && r.value.nodes[id].syms == st.nodes[id].syms - {key.tag}
    ensures (key.Length? || !Fits(st.nodes[id].Kind(), key)) ==> r == Err(UnsupportedKey)
    ensures r.Ok? && !key.Sym? ==> (key.Name? || key.Index?) && Fits(st.nodes[id].Kind(), key)
    ensures r.Ok? && !key.Sym? ==> Stored(DetachAt(st, id, key), id, Erase(st.nodes[id].raw, key), r.value)
    ensures r.Ok? && !key.Sym? ==> Marked(DetachAt(st, id, key), id, r.value)
    ensures (key.Name? || key.Index?) && Fits(st.nodes[id].Kind(), key) ==>
              (r.Ok? <==> Ancestors(DetachAt(st, id, key), id).Ok?)
  {
    var n := st.nodes[id];
    match key
    case Sym(t) => Ok(Update(st, id, n.(syms := n.syms - {t})))
    case Length => Err(UnsupportedKey)
    case _ =>
      if !Fits(n.Kind(), key) then Err(UnsupportedKey)
      else
        var st1 := DetachAt(st, id, key);
        ChildIdsErase(st1.nodes[id], key);
        Commit(st1, id, Erase(n.raw, key))
  }

  // ---------------------------------------------------------------------
  // Sources of a copy.

  /** The kind of a container value; primitives have none. */
  function ValueKind(st: Store, v: Value): Option<Kind> {
    match v
    case Atom(_) => None
    case Plain(c) => Some(c.KindOf())
    case Ref(c) => if c in st.nodes then Some(st.nodes[c].Kind()) else None
  }

  /** The entries a copy of node `n` visits: what its proxy returns for each
      index below its length, or for each of its own names. */
  function NodeEntries(n: Node): (es: seq<(Key, Value)>)
    ensures |es| == |SlotsOf(n)|
    ensures forall i :: 0 <= i < |es| ==> es[i] == (Entries(n.raw)[i].0, SlotValue(SlotsOf(n)[i]))
  {
    var en := Entries(n.raw);
    seq(|en|, i requires 0 <= i < |en| => (en[i].0, SlotValue(en[i].1)))
  }

  /** The entries `merge` visits in a source value. */
  function SourceEntries(st: Store, v: Value): seq<(Key, Value)> {
    match v
    case Atom(_) => []
    case Plain(c) => Entries(c)
    case Ref(c) => if c in st.nodes then NodeEntries(st.nodes[c]) else []
  }

  predicate EntriesRefsIn(ks: set<NodeId>, es: seq<(Key, Value)>) {
    forall i :: 0 <= i < |es| ==> RefsIn(ks, es[i].1)
  }

  lemma EntriesRefsInGrow(ks: set<NodeId>, ks': set<NodeId>, es: seq<(Key, Value)>)
    requires ks <= ks' && EntriesRefsIn(ks, es)
    ensures EntriesRefsIn(ks', es)
  {
    forall i | 0 <= i < |es|
      ensures RefsIn(ks', es[i].1)
    {
      RefsInGrow(ks, ks', es[i].1);
    }
  }

  lemma {:induction false} FieldsRefsInAll(ks: set<NodeId>, fs: seq<(string, Value)>)
    requires FieldsRefsIn(ks, fs)
    ensures forall i :: 0 <= i < |fs| ==> RefsIn(ks, fs[i].1)
    decreases |fs|
  {
    if fs != [] {
      FieldsRefsInAll(ks, fs[1..]);
      forall i | 1 <= i < |fs|
        ensures RefsIn(ks, fs[i].1)
      {
        assert fs[i] == fs[1..][i - 1];
      }
    }
  }

  /** Every reference a source's entries hold names a node. */
  lemma SourceEntriesRefsIn(st: Store, v: Value)
    requires Closed(st) && RefsIn(st.nodes.Keys, v)
    ensures EntriesRefsIn(st.nodes.Keys, SourceEntries(st, v))
  {
    match v
    case Atom(_) =>
    case Plain(c) =>
      if c.Fields? {
        FieldsRefsInAll(st.nodes.Keys, c.fields);
      }
    case Ref(c) =>
      var es := SourceEntries(st, v);
      forall i | 0 <= i < |es|
        ensures RefsIn(st.nodes.Keys, es[i].1)
      {
        var xs := SlotsOf(st.nodes[c]);
        if xs[i].Child? {
          assert xs[i].id in ChildIds(st.nodes[c]);
        }
      }
  }

  lemma SourceEntriesSmaller(st: Store, v: Value)
    ensures v.Plain? ==> EntriesSize(SourceEntries(st, v)) < Size(v)
  {
    if v.Plain? {
      EntriesSmaller(v.c);
    }
  }

  // ---------------------------------------------------------------------
  // The set trap, `reactive` and `merge`, mutually recursive.

  /** The slot the set trap stores for `v`: a primitive as-is, an
      unattached node itself, anything else a fresh copy (the node the next
      allocation yields). */
  function Placement(st: Store, v: Value): Slot {
    match v
    case Atom(p) => Leaf(p)
    case Ref(c) => if c in st.nodes && st.nodes[c].conn.None? then Child(c) else Child(st.nextNode)
    case Plain(_) => Child(st.nextNode)
  }

  /** A placed node is never the child a changing write replaces: it is
      fresh, or it is the written node itself. */
  lemma PlacementNotPrev(st: Store, id: NodeId, key: Key, v: Value)
    requires Closed(st) && id in st.nodes && !key.Sym?
    requires Read(st.nodes[id], key) != v && Read(st.nodes[id], key).Ref? && Placement(st, v).Child?
    ensures Placement(st, v).id != Read(st.nodes[id], key).id
  {
    ReadChild(st.nodes[id], key);
  }

  /** The frame of a write into `id`: the arena stays closed; other nodes
      keep their contents; `id` keeps its kind; connected nodes outside
      `gone` stay connected where they were; `id` gains only new or
      unattached children. */
  predicate WriteFrame(st: Store, st': Store, id: NodeId, gone: set<NodeId>)
    requires id in st.nodes
  {
    && Extends(st, st') && KeepsContents(st, st', id)
    && st'.nodes[id].Kind() == st.nodes[id].Kind()
    && KeepsConns(st, st', gone)
    && NewChildren(st, st', id)
  }

  /** The effect of placing a value: the arena grew; old nodes keep their
      contents and connections, except that an unattached node may have
      been attached; a placed node is attached under `(id, key)`. */
  predicate PlaceFrame(st: Store, id: NodeId, key: Key, s: Slot, st': Store) {
    && Extends(st, st') && KeepsContents(st, st', st.nextNode) && KeepsConns(st, st', {})
    && (s.Child? ==> s.id in st'.nodes && st'.nodes[s.id].conn == Some(Conn(id, key)))
  }

  /** The `set` trap of node `id` (src/reactive.ts:148-185). `fuel` bounds
      the depth of copies of connected nodes. */
  function Assign(st: Store, id: NodeId, key: Key, v: Value, fuel: nat): (r: Result<Store>)
    requires Closed(st) && id in st.nodes && RefsIn(st.nodes.Keys, v)
    ensures r.Ok? ==> WriteFrame(st, r.value, id, Detached(st.nodes[id], key, v))
    ensures r.Ok? && (key.Name? || key.Index?) && Read(st.nodes[id], key) != v ==>
              Fits(st.nodes[id].Kind(), key) && SlotWritten(st, id, key, v, r.value)
    decreases fuel, Size(v), 4
  {
    var n := st.nodes[id];
    if Read(n, key) == v then
      AssignSame(st, id, key, v);
      Ok(st)
    else
      match key
      case Sym(t) =>
        var r := Update(st, id, n.(syms := n.syms[t := v]));
        AssignSym(st, id, t, v);
        Ok(r)
      case Length =>
        if !n.raw.Items? then Err(UnsupportedKey)
        else
          var r :- SetLength(st, id, v);
          AssignLengthFrame(st, id, v, r);
          Ok(r)
      case _ =>
        if !Fits(n.Kind(), key) then Err(UnsupportedKey)
        else
          var p :- Place(st, id, key, v, fuel);
          var r :- WriteSlot(p.1, id, key, p.0);
          AssignSlotFrame(st, id, key, v, p.0, p.1, r);
          SlotWrittenHolds(st, id, key, v, p.0, p.1, r);
          Ok(r)
  }

  /** The value to store for `v`: a primitive as-is; an unattached node,
      attached here; anything else wrapped by `reactive` and attached
      (src/reactive.ts:167-173). */
  function Place(st: Store, id: NodeId, key: Key, v: Value, fuel: nat): (r: Result<(Slot, Store)>)
    requires Closed(st) && id in st.nodes && RefsIn(st.nodes.Keys, v)
    ensures r.Ok? ==> r.value.0 == Placement(st, v) && PlaceFrame(st, id, key, r.value.0, r.value.1)
    decreases fuel, Size(v), 3
  {
    match v
    case Atom(p) => Ok((Leaf(p), st))
    case Ref(c) =>
      if st.nodes[c].conn.None? then
        PlaceUnattached(st, c, id, key);
        Ok((Child(c), Connect(st, c, id, key)))
      else
        var w :- Wrap(st, v, fuel);
        PlaceWrapped(st, w.0, w.1, id, key);
        Ok((Child(w.0), Connect(w.1, w.0, id, key)))
    case Plain(_) =>
      var w :- Wrap(st, v, fuel);
      PlaceWrapped(st, w.0, w.1, id, key);
      Ok((Child(w.0), Connect(w.1, w.0, id, key)))
  }

  /** Attaching an unattached node where it is written. */
  lemma PlaceUnattached(st: Store, c: NodeId, id: NodeId, key: Key)
    requires Closed(st) && c in st.nodes && st.nodes[c].conn.None?
    ensures PlaceFrame(st, id, key, Child(c), Connect(st, c, id, key))
  {
    ClosedConnect(st, c, id, key);
  }

  /** Attaching the fresh copy `reactive` made. */
  lemma PlaceWrapped(st: Store, w: NodeId, st1: Store, id: NodeId, key: Key)
    requires Closed(st) && w == st.nextNode && w in st1.nodes
    requires Extends(st, st1) && KeepsContents(st, st1, st.nextNode) && KeepsConns(st, st1, {})
    ensures PlaceFrame(st, id, key, Child(w), Connect(st1, w, id, key))
  {
    ClosedConnect(st1, w, id, key);
  }

  /** `reactive(v)` on a container or a node (src/reactive.ts:73-81, 221):
      a fresh node of the same kind, unattached, into which the source's
      entries are merged. Copying a node costs one unit of `fuel`. */
  function Wrap(st: Store, v: Value, fuel: nat): (r: Result<(NodeId, Store)>)
    requires Closed(st) && RefsIn(st.nodes.Keys, v) && (v.Plain? || v.Ref?)
    ensures r.Ok? ==> r.value.0 == st.nextNode && r.value.0 in r.value.1.nodes
    ensures r.Ok? ==> Extends(st, r.value.1) && KeepsContents(st, r.value.1, st.nextNode)
    ensures r.Ok? ==> KeepsConns(st, r.value.1, {})
    ensures r.Ok? ==> Some(r.value.1.nodes[r.value.0].Kind()) == ValueKind(st, v)
    decreases fuel, Size(v), 2
  {
    if v.Ref? && fuel == 0 then Err(StackOverflow)
    else
      var k := ValueKind(st, v).value;
      var a := Alloc(st, k);
      RefsInGrow(st.nodes.Keys, a.1.nodes.Keys, v);
      SourceEntriesSmaller(a.1, v);
      var st2 :- Merge(a.1, a.0, v, if v.Ref? then fuel - 1 else fuel);
      WrapFrame(st, a.1, a.0, st2);
      Ok((a.0, st2))
  }

  /** `merge(target, source)` into node `target` (src/util.ts:16-42): both
      must be sequences or both mappings; each source entry is assigned
      through the target's `set` trap, in order. */
  function Merge(st: Store, target: NodeId, source: Value, fuel: nat): (r: Result<Store>)
    requires Closed(st) && target in st.nodes && RefsIn(st.nodes.Keys, source)
    ensures ValueKind(st, source) != Some(st.nodes[target].Kind()) ==> r == Err(KindMismatch)
    ensures r.Ok? ==> WriteFrame(st, r.value, target, ChildIds(st.nodes[target]))
    decreases fuel, EntriesSize(SourceEntries(st, source)) + 1, 1
  {
    if ValueKind(st, source) != Some(st.nodes[target].Kind()) then Err(KindMismatch)
    else
      SourceEntriesRefsIn(st, source);
      MergeEntries(st, target, SourceEntries(st, source), fuel)
  }

  /** Assigns each entry to `target`, in order. */
  function MergeEntries(st: Store, target: NodeId, es: seq<(Key, Value)>, fuel: nat): (r: Result<Store>)
    requires Closed(st) && target in st.nodes && EntriesRefsIn(st.nodes.Keys, es)
    ensures r.Ok? ==> WriteFrame(st, r.value, target, ChildIds(st.nodes[target]))
    decreases fuel, EntriesSize(es), 0
  {
    if es == [] then
      MergeNothing(st, target);
      Ok(st)
    else
      HeadSmaller(es);
      var st1 :- Assign(st, target, es[0].0, es[0].1, fuel);
      EntriesRefsInGrow(st.nodes.Keys, st1.nodes.Keys, es[1..]);
      var st2 :- MergeEntries(st1, target, es[1..], fuel);
      DetachedChildren(st.nodes[target], es[0].0, es[0].1);
      FrameTrans(st, st1, st2, target, Detached(st.nodes[target], es[0].0, es[0].1));
      Ok(st2)
  }

  // ---------------------------------------------------------------------
  // Frame lemmas of the write path.

  lemma AssignSame(st: Store, id: NodeId, key: Key, v: Value)
    requires Closed(st) && id in st.nodes
    ensures WriteFrame(st, st, id, Detached(st.nodes[id], key, v))
  {
  }

  lemma AssignSym(st: Store, id: NodeId, t: nat, v: Value)
    requires Closed(st) && id in st.nodes
    ensures var n := st.nodes[id];
            WriteFrame(st, Update(st, id, n.(syms := n.syms[t := v])), id, Detached(n, Sym(t), v))
  {
    var n := st.nodes[id];
    var r := Update(st, id, n.(syms := n.syms[t := v]));
    ClosedSameRaw(st, r);
    assert SlotsOf(r.nodes[id]) == SlotsOf(n);
  }

  lemma AssignLengthFrame(st: Store, id: NodeId, v: Value, r: Store)
    requires Closed(st) && id in st.nodes && st.nodes[id].raw.Items? && v.Atom? && v.p.Num? && v.p.n >= 0
    requires Stored(DisconnectFrom(st, st.nodes[id].raw.items, v.p.n), id,
                    Items(Resize(st.nodes[id].raw.items, v.p.n)), r)
    ensures WriteFrame(st, r, id, Detached(st.nodes[id], Length, v))
  {
    var xs := st.nodes[id].raw.items;
    DetachedLength(st.nodes[id], v);
    LengthFrame(st, DisconnectFrom(st, xs, v.p.n), id, v.p.n, r);
  }

  lemma DetachedLength(n: Node, v: Value)
    requires n.raw.Items? && v.Atom? && v.p.Num? && v.p.n >= 0
    ensures Detached(n, Length, v) == Truncated(n.raw.items, v.p.n)
  {
  }

  lemma LengthFrame(st: Store, st1: Store, id: NodeId, m: nat, r: Store)
    requires id in st.nodes && st.nodes[id].raw.Items? && Grows(st, st1) && st1.nodes.Keys == st.nodes.Keys
    requires st1.subs == st.subs && st1.delivered == st.delivered && st1.nextReg == st.nextReg
    requires forall x :: x in st.nodes ==>
               && st1.nodes[x].raw == st.nodes[x].raw && st1.nodes[x].syms == st.nodes[x].syms
               && (x !in Truncated(st.nodes[id].raw.items, m) ==> st1.nodes[x].conn == st.nodes[x].conn)
    requires Stored(st1, id, Items(Resize(st.nodes[id].raw.items, m)), r)
    ensures WriteFrame(st, r, id, Truncated(st.nodes[id].raw.items, m))
  {
    StoredFrame(st, st1, id, Items(Resize(st.nodes[id].raw.items, m)), r, Truncated(st.nodes[id].raw.items, m));
    LengthChildren(st, id, m, r);
  }

  /** Storing after a pass that only disconnected the nodes in `gone`. */
  lemma StoredFrame(st: Store, st1: Store, id: NodeId, raw': Shape<Slot>, r: Store, gone: set<NodeId>)
    requires id in st.nodes && Grows(st, st1) && st1.nodes.Keys == st.nodes.Keys
    requires st1.subs == st.subs && st1.delivered == st.delivered && st1.nextReg == st.nextReg
    requires forall x :: x in st.nodes ==>
               && st1.nodes[x].raw == st.nodes[x].raw && st1.nodes[x].syms == st.nodes[x].syms
               && (x !in gone ==> st1.nodes[x].conn == st.nodes[x].conn)
    requires Stored(st1, id, raw', r)
    ensures Extends(st, r) && KeepsContents(st, r, id) && KeepsConns(st, r, gone)
  {
  }

  lemma LengthChildren(st: Store, id: NodeId, m: nat, r: Store)
    requires id in st.nodes && st.nodes[id].raw.Items? && st.nodes.Keys <= r.nodes.Keys
    requires r.nodes[id].raw == Items(Resize(st.nodes[id].raw.items, m))
    ensures NewChildren(st, r, id) && r.nodes[id].Kind() == st.nodes[id].Kind()
  {
    ChildIdsResize(st.nodes[id], m);
    assert SlotsOf(r.nodes[id]) == SlotsOf(st.nodes[id].(raw := Items(Resize(st.nodes[id].raw.items, m))));
  }

  /** The effect of a changing write under a name or an index. */
  predicate SlotWritten(st: Store, id: NodeId, key: Key, v: Value, r: Store)
    requires id in st.nodes && (key.Name? || key.Index?) && Fits(st.nodes[id].Kind(), key)
  {
    var s := Placement(st, v);
    var prev := Read(st.nodes[id], key);
    && id in r.nodes
    && r.nodes[id].raw == PutSlot(st.nodes[id].raw, key, s)
    && (s.Child? ==> s.id in r.nodes && r.nodes[s.id].conn == Some(Conn(id, key)))
    && (prev.Ref? && prev.id in st.nodes ==> prev.id in r.nodes && r.nodes[prev.id].conn.None?)
    && Notified(r, id)
  }

  lemma SlotWrittenHolds(st: Store, id: NodeId, key: Key, v: Value, s: Slot, st1: Store, r: Store)
    requires Closed(st) && id in st.nodes && (key.Name? || key.Index?) && Fits(st.nodes[id].Kind(), key)
    requires Read(st.nodes[id], key) != v
    requires s == Placement(st, v) && PlaceFrame(st, id, key, s, st1)
    requires WriteSlot(st1, id, key, s) == Ok(r)
    ensures SlotWritten(st, id, key, v, r)
  {
    ReadSameContents(st.nodes[id], st1.nodes[id], key);
    var prev := Read(st.nodes[id], key);
    if prev.Ref? && s.Child? {
      PlacementNotPrev(st, id, key, v);
    }
  }

  /** The write path once a slot is placed, stated against the state before
      placing. */
  lemma AssignSlotFrame(st: Store, id: NodeId, key: Key, v: Value, s: Slot, st1: Store, r: Store)
    requires Closed(st) && id in st.nodes && (key.Name? || key.Index?) && Fits(st.nodes[id].Kind(), key)
    requires s == Placement(st, v) && PlaceFrame(st, id, key, s, st1)
    requires Stored(DetachAt(st1, id, key), id, PutSlot(st1.nodes[id].raw, key, s), r)
    ensures WriteFrame(st, r, id, Detached(st.nodes[id], key, v))
  {
    PlacedContents(st, id, key, v, s, st1, r);
    PlacedConns(st, id, key, v, s, st1, r);
  }

  lemma PlacedContents(st: Store, id: NodeId, key: Key, v: Value, s: Slot, st1: Store, r: Store)
    requires Closed(st) && id in st.nodes && (key.Name? || key.Index?) && Fits(st.nodes[id].Kind(), key)
    requires s == Placement(st, v) && PlaceFrame(st, id, key, s, st1)
    requires Stored(DetachAt(st1, id, key), id, PutSlot(st1.nodes[id].raw, key, s), r)
    ensures Extends(st, r) && KeepsContents(st, r, id) && r.nodes[id].Kind() == st.nodes[id].Kind()
    ensures NewChildren(st, r, id)
  {
    PlacedKeeps(st, id, key, v, s, st1, r);
    PlacedChildren(st, id, key, v, s, st1, r);
  }

  lemma PlacedKeeps(st: Store, id: NodeId, key: Key, v: Value, s: Slot, st1: Store, r: Store)
    requires Closed(st) && id in st.nodes && (key.Name? || key.Index?) && Fits(st.nodes[id].Kind(), key)
    requires s == Placement(st, v) && PlaceFrame(st, id, key, s, st1)
    requires Stored(DetachAt(st1, id, key), id, PutSlot(st1.nodes[id].raw, key, s), r)
    ensures Extends(st, r) && KeepsContents(st, r, id) && r.nodes[id].Kind() == st.nodes[id].Kind()
  {
    assert st1.nodes[id].raw == st.nodes[id].raw;
    SlotContents(st, st1, r, id, key, s);
  }

  lemma PlacedChildren(st: Store, id: NodeId, key: Key, v: Value, s: Slot, st1: Store, r: Store)
    requires Closed(st) && id in st.nodes && (key.Name? || key.Index?) && Fits(st.nodes[id].Kind(), key)
    requires s == Placement(st, v) && PlaceFrame(st, id, key, s, st1)
    requires Stored(DetachAt(st1, id, key), id, PutSlot(st1.nodes[id].raw, key, s), r)
    ensures NewChildren(st, r, id)
  {
    assert st1.nodes[id].raw == st.nodes[id].raw;
    PlacedFresh(st, v, s);
    assert st1.nodes.Keys <= r.nodes.Keys;
    SlotChildren(st, r, id, key, s);
  }

  /** A placed node is the fresh id or a node nobody held. */
  lemma PlacedFresh(st: Store, v: Value, s: Slot)
    requires Closed(st) && s == Placement(st, v)
    ensures s.Child? ==> s.id == st.nextNode || s.id in Unattached(st)
    ensures st.nextNode !in st.nodes
  {
  }

  lemma PlacedConns(st: Store, id: NodeId, key: Key, v: Value, s: Slot, st1: Store, r: Store)
    requires Closed(st) && id in st.nodes && (key.Name? || key.Index?) && Fits(st.nodes[id].Kind(), key)
    requires s == Placement(st, v) && PlaceFrame(st, id, key, s, st1)
    requires Stored(DetachAt(st1, id, key), id, PutSlot(st1.nodes[id].raw, key, s), r)
    ensures KeepsConns(st, r, Detached(st.nodes[id], key, v))
  {
    assert st1.nodes[id].raw == st.nodes[id].raw;
    assert Read(st1.nodes[id], key) == Read(st.nodes[id], key);
    var st2 := DetachAt(st1, id, key);
    SlotConns(st, st1, st2, r, id, key, s);
  }

  lemma SlotContents(st: Store, st1: Store, r: Store, id: NodeId, key: Key, s: Slot)
    requires Closed(st) && id in st.nodes && (key.Name? || key.Index?) && Fits(st.nodes[id].Kind(), key)
    requires Extends(st, st1) && KeepsContents(st, st1, st.nextNode) && st1.nodes[id].raw == st.nodes[id].raw
    requires Stored(DetachAt(st1, id, key), id, PutSlot(st1.nodes[id].raw, key, s), r)
    ensures Extends(st, r) && KeepsContents(st, r, id) && r.nodes[id].Kind() == st.nodes[id].Kind()
  {
    DetachKeepsContents(st1, id, key);
    ContentsThrough(st, st1, DetachAt(st1, id, key), r, id);
  }

  /** Contents kept from `st` to `st1` (but for a fresh node), from `st1`
      to `st2`, and from `st2` to `r` (but for `id`) are kept from `st` to
      `r` (but for `id`). */
  lemma ContentsThrough(st: Store, st1: Store, st2: Store, r: Store, id: NodeId)
    requires st.nextNode !in st.nodes && KeepsContents(st, st1, st.nextNode)
    requires st1.nodes.Keys <= st2.nodes.Keys
    requires forall x :: x in st1.nodes ==> st2.nodes[x].raw == st1.nodes[x].raw && st2.nodes[x].syms == st1.nodes[x].syms
    requires KeepsContents(st2, r, id)
    ensures KeepsContents(st, r, id)
  {
  }

  lemma SlotConns(st: Store, st1: Store, st2: Store, r: Store, id: NodeId, key: Key, s: Slot)
    requires Closed(st) && id in st.nodes && (key.Name? || key.Index?) && Fits(st.nodes[id].Kind(), key)
    requires Closed(st1) && KeepsConns(st, st1, {}) && id in st1.nodes && st1.nodes[id].raw == st.nodes[id].raw
    requires st2 == DetachAt(st1, id, key)
    requires Stored(st2, id, PutSlot(st1.nodes[id].raw, key, s), r)
    ensures KeepsConns(st, r, Detached(st.nodes[id], key, Atom(Undef)))
  {
    assert Read(st1.nodes[id], key) == Read(st.nodes[id], key);
    forall x | x in st.nodes && st.nodes[x].conn.Some? && x !in Detached(st.nodes[id], key, Atom(Undef))
      ensures r.nodes[x].conn == st.nodes[x].conn
    {
      assert st2.nodes[x] == st1.nodes[x];
    }
  }

  lemma SlotChildren(st: Store, r: Store, id: NodeId, key: Key, s: Slot)
    requires id in st.nodes && (key.Name? || key.Index?) && Fits(st.nodes[id].Kind(), key)
    requires s.Child? ==> (s.id in r.nodes && s.id !in st.nodes) || s.id in Unattached(st)
    requires id in r.nodes && r.nodes[id].raw == PutSlot(st.nodes[id].raw, key, s)
    ensures NewChildren(st, r, id)
  {
    ChildIdsPutSlot(st.nodes[id], key, s);
    assert SlotsOf(r.nodes[id]) == SlotsOf(st.nodes[id].(raw := PutSlot(st.nodes[id].raw, key, s)));
  }

  lemma WrapFrame(st: Store, st1: Store, n: NodeId, st2: Store)
    requires Closed(st) && n == st.nextNode
    requires st1 == st.(nodes := st1.nodes, nextNode := n + 1, nextSnap := st1.nextSnap)
    requires n in st1.nodes && st1.nodes == st.nodes[n := st1.nodes[n]] && ChildIds(st1.nodes[n]) == {}
    requires st.nextSnap <= st1.nextSnap
    requires WriteFrame(st1, st2, n, ChildIds(st1.nodes[n]))
    ensures n in st2.nodes && Extends(st, st2) && KeepsContents(st, st2, n) && KeepsConns(st, st2, {})
  {
    forall x | x in st.nodes && st.nodes[x].conn.Some?
      ensures st2.nodes[x].conn == st.nodes[x].conn
    {
      assert st1.nodes[x] == st.nodes[x];
    }
    forall x | x in st.nodes && x != n
      ensures st2.nodes[x].raw == st.nodes[x].raw && st2.nodes[x].syms == st.nodes[x].syms
    {
      assert st1.nodes[x] == st.nodes[x];
    }
  }

  lemma MergeNothing(st: Store, t: NodeId)
    requires Closed(st) && t in st.nodes
    ensures WriteFrame(st, st, t, ChildIds(st.nodes[t]))
  {
  }

  /** Two writes into `t` in a row: the first may detach only children of
      `t`; the second only children `t` had after the first, which are
      children of `t` before it, new nodes, or nodes that were unattached. */
  lemma FrameTrans(st: Store, st1: Store, st2: Store, t: NodeId, gone1: set<NodeId>)
    requires t in st.nodes && gone1 <= ChildIds(st.nodes[t])
    requires WriteFrame(st, st1, t, gone1)
    requires WriteFrame(st1, st2, t, ChildIds(st1.nodes[t]))
    ensures WriteFrame(st, st2, t, ChildIds(st.nodes[t]))
  {
    forall x | x in st.nodes && st.nodes[x].conn.Some? && x !in ChildIds(st.nodes[t])
      ensures st2.nodes[x].conn == st.nodes[x].conn
    {
      assert st1.nodes[x].conn == st.nodes[x].conn;
      assert x !in ChildIds(st1.nodes[t]);
    }
    forall y | y in ChildIds(st2.nodes[t])
      ensures y in ChildIds(st.nodes[t]) + (st2.nodes.Keys - st.nodes.Keys) + Unattached(st)
    {
      if y in Unattached(st1) && y in st.nodes && st.nodes[y].conn.Some? {
        assert y in gone1;
      }
    }
  }
}
